=== FILE: README.md ===
# NSE stock screener core, modelled in Dafny

The screener is a Django application. It looks for Indian (NSE) stocks
whose trading or price behaviour stands out. It has three scans and two
JSON endpoints:

- the **volume-spike scan**: today's volume against the largest volume of
  the previous `window` bars, with an optional "last non-zero bar counts as
  today" policy;
- the **monthly moving-average scan**: the symbols whose last monthly close
  lies within a tolerance of their 50- or 100-month mean (or any windows
  the caller asks for), closest first;
- the **daily 200-bar scan**: the same test against the 200-day mean;
- the **event selector**: the nearest price-sensitive corporate
  announcement within a window of days;
- the **`load_universe` command**: fills the ticker table from a universe
  file and tags the NIFTY50 members;
- the views **`/api/volume_spikes`** and **`/api/ma_monthly`**: parse the
  query, pick the symbols (an explicit `symbols=` override or a named
  universe), consult a cache, and otherwise compute and store the payload.

Each source file is one module:

| Dafny module | models |
|---|---|
| `VolumeService` | `screener/services_volume.py` |
| `MonthlyMaService` | `screener/services_ma_monthly.py` |
| `DailyMaService` | `screener/services.py` |
| `EventsService` | `screener/services_events.py` |
| `LoadUniverseCommand` | `screener/management/commands/load_universe.py` |
| `VolumeView` | `screener/views_volume.py` |
| `MonthlyMaView` | `screener/views_ma_monthly.py` |

Shared modules hold what Python and pandas provide:

| Dafny module | holds |
|---|---|
| `Wrappers` | `Option` |
| `Text` | `strip`, `upper`, `lower`, `split`, `join`, `replace` |
| `Numbers` | round-half-even, `int(...)`, `float(...)` |
| `Series` | pandas `tail`, `rolling(n).mean()`, `max` |
| `Ranking` | stable `sort(key=...)`, `[:max(1, limit)]`, the filtering done when worker results are gathered |
| `Symbols` | the `.NS` symbol spelling, display names, `sorted(set(...))` on strings |
| `RequestParams` | query-parameter reading |

**Worker pools.** Market data, the database, the clock and the thread pools
are parameters:

- a fetch is a function from symbol to optional series;
- the NIFTY50 tag table is a map;
- the order in which `as_completed` hands back results is either a
  `completed` sequence that must be a permutation of the per-symbol
  outcomes, or, in the views, a scheduler function that permutes its
  input.

Each scan's contract holds for every completion order. Separate lemmas
prove that its output does not depend on that order, up to rows that tie
on the sort key.

**Caches.** The views' cache is a map from key to payload:

- `refresh` neither reads nor writes it;
- a hit returns the stored payload;
- a miss computes the payload and stores it.

Both views spell their cache key from the query knobs and only the
*number* of symbols. The volume view also leaves out `debug`. The views
`MonthlyMaView.ApiMaMonthly` and `VolumeView.ApiVolumeSpikes` use that key
as written (`KeyAsWritten`), and lemmas show a second request being served
the first one's payload (see Findings). Beside each sits a corrected view,
`ApiMaMonthlyCorrected` and `ApiVolumeSpikesCorrected`, whose key
(`CacheKey`) carries:

- the symbol list;
- the exact tolerance or factor;
- for volume, the `debug` flag.

For the corrected views a lemma shows that a cache never serves a stale
payload. The stored payload and a fresh one may list tied rows in
different orders, because each run may complete its workers in a
different order.

**Short prior windows.** Under the last-non-zero policy the prior window
is the up-to-`window` bars before the last positive bar
(`screener/services_volume.py:117-129`). Only an empty prior window is
rejected, so a last positive bar early in the series is judged on fewer
than `window` bars. The length check at line 114 counts all bars,
including the zero bars after the last positive one. The model follows
the code: `VolumeService.LastNonzeroWindow` states the window actually
used.

## Model

| member | source | states |
|---|---|---|
| Text.Strip | screener/views_ma_monthly.py:36 | The stripped text is a contiguous piece of the input with no whitespace at either end. Everything cut off is whitespace, and the result is empty exactly when the input is all whitespace. |
| Text.StripUnchanged | screener/views_ma_monthly.py:66 | Text without whitespace at either end is its own strip. |
| Text.Upper | screener/views_ma_monthly.py:66 | Upper-casing keeps the length, leaves no lower-case ASCII letter, changes nothing that is not one, and keeps whitespace where it was. |
| Text.Lower | screener/views_ma_monthly.py:58 | Lower-casing keeps the length, leaves no upper-case ASCII letter and changes nothing that is not one. |
| Text.LowerUnchanged | screener/views_volume.py:52 | Text with no upper-case letter is its own lower-case form. |
| Text.RemoveAll | screener/services_volume.py:173 | Removing every occurrence of a pattern never lengthens the text and is the identity when the pattern does not occur. |
| Text.RemoveAllSuffix | screener/services_volume.py:173 | Removing a pattern from `base + pattern`, where base lacks the pattern's first character, gives base: `.NS` comes off `BASE.NS` cleanly. |
| Text.UpperOfLower | screener/management/commands/load_universe.py:26 | Upper-casing a lower-cased symbol without lower-case letters gives it back. |
| Text.UpperConcat | screener/management/commands/load_universe.py:45 | `upper()` works character by character, so it distributes over concatenation. |
| Text.StripPadded | screener/management/commands/load_universe.py:23 | One blank on either side of text with non-blank ends is stripped off, giving the text. |
| Text.Split | screener/views_ma_monthly.py:35 | `split(',')` always yields at least one piece, and no piece contains the separator. |
| Text.SplitJoin | screener/views_ma_monthly.py:65 | Splitting a join of separator-free pieces gives the pieces back. |
| Text.JoinSplit | screener/views_ma_monthly.py:35 | Joining the pieces of a split gives the text back. |
| Text.JoinNoSpace | screener/views_ma_monthly.py:36 | Pieces and a separator without whitespace join into text without whitespace. |
| Numbers.RoundToInteger | screener/services_volume.py:181 | Rounding to an integer moves the value by at most one half. |
| Numbers.RoundToIntegerOfInteger | screener/services_volume.py:181 | An integer rounds to itself. |
| Numbers.Round2 | screener/services_volume.py:180-181 | `round(x, 2)` lies on the hundredths grid within half a hundredth of x. |
| Numbers.Round3 | screener/services_ma_monthly.py:98 | `round(x, 3)` lies on the thousandths grid within half a thousandth of x. |
| Numbers.Round4 | screener/views_ma_monthly.py:74 | The four-place tolerance in the key lies on the ten-thousandths grid within half a step of the tolerance. |
| Numbers.Round2OnGrid | screener/services_volume.py:181 | A value already on the hundredths grid is unchanged by `round(_, 2)`. |
| Numbers.Round3OnGrid | screener/services_ma_monthly.py:98 | A value already on the thousandths grid is unchanged by `round(_, 3)`. |
| Numbers.NatToString | screener/views_ma_monthly.py:88 | `str(n)` is a non-empty run of digits that spells n. |
| Numbers.ParseInt | screener/views_ma_monthly.py:40 | `int(s)` succeeds only on non-blank text. |
| Numbers.ParseIntOfString | screener/views_ma_monthly.py:40 | `int(str(i)) == i` for every integer. |
| Numbers.IntToStringInjective | screener/views_ma_monthly.py:88-89 | Distinct windows get distinct `str(m)` keys in the response maps. |
| Numbers.ParseFloat | screener/views_ma_monthly.py:49 | `float(s)` succeeds only on non-blank text. |
| Numbers.ParseFloatOfNat | screener/views_volume.py:38 | `float(str(n)) == n` for every natural number. |
| Numbers.ParseFloatOfDecimal | screener/views_ma_monthly.py:49 | A literal `I.F` with digit runs I (non-empty) and F reads as I + F / 10^len(F), and `-I.F` as its negation. |
| Numbers.DigitsUnchanged | screener/views_volume.py:38 | A non-empty run of digits is its own strip and carries no sign. |
| Numbers.DecimalEnds | screener/views_ma_monthly.py:49 | A decimal literal starts with a digit and has no whitespace at either end. |
| Numbers.UnsignedOfDecimal | screener/views_ma_monthly.py:49 | The unsigned reading of `I.F` is its decimal value. |
| Numbers.SplitDecimal | screener/views_ma_monthly.py:49 | `I.F` splits at its one '.' into I and F. |
| Numbers.TolLiteral | screener/views_ma_monthly.py:13 | An example of `ParseFloatOfDecimal`: the documented tolerance `0.003` reads as 0.003. |
| Numbers.FactorLiteral | screener/views_volume.py:16 | An example of `ParseFloatOfDecimal`: the documented factor `3.0` reads as 3. |
| Series.TailStart | screener/services_volume.py:126 | Where pandas `tail(n)` starts: the last n items for n > 0, nothing for n = 0, and everything but the first abs(n) for n < 0. |
| Series.Tail | screener/services_volume.py:126 | `tail(n)` is a suffix of the series with min(n, len) items for n > 0 and none for n = 0. |
| Series.SumNonNegative | screener/services_ma_monthly.py:54 | A sum of non-negative closes is non-negative. |
| Series.RollingMean | screener/services_ma_monthly.py:54 | `rolling(n).mean()` is missing at exactly the first n - 1 positions. Elsewhere it is the mean of the n values ending there. |
| Series.MaxOf | screener/services_volume.py:131 | `max()` of a non-empty window bounds every bar and is one of them. |
| Ranking.Insert | screener/services_volume.py:194 | Inserting into a sorted list keeps it sorted and adds exactly the new element. |
| Ranking.Sort | screener/services.py:68 | The stable sort returns a sorted permutation of its input. |
| Ranking.Take | screener/services_volume.py:195 | A slice `[:k]` is the prefix of length min(len, k). |
| Ranking.TopK | screener/services_volume.py:194-195 | Sort then `[:max(1, limit)]`: the output has length min(len, max(1, limit)), is sorted and is drawn from the input. Everything dropped ranks no earlier than everything kept, and nothing is dropped when the input fits. |
| Ranking.FilterMap | screener/services_ma_monthly.py:111-128 | Filtering with a partial map keeps exactly the images of the elements that map to something. |
| Ranking.FilterMapConcat | screener/services_ma_monthly.py:113 | Filtering distributes over concatenation. |
| Ranking.FilterMapPermutation | screener/services_volume.py:186-191 | Permuted inputs filter to permuted outputs, so the order of gathered results does not change what is kept. |
| Ranking.FilterMapAllMapped | screener/services_ma_monthly.py:111-118 | When every element maps to a value, filtering yields exactly those values in order. |
| Ranking.FilterMapNoneMapped | screener/services_volume.py:188-191 | When no element maps to a value, nothing is kept. |
| Ranking.Somes | screener/services_volume.py:189-191 | `if row: results.append(row)` keeps exactly the present results. |
| Ranking.SomesPermutation | screener/services_volume.py:186-191 | Any completion order keeps the same multiset of rows. |
| Ranking.Keys | screener/services_volume.py:194 | The sort keys of a list, position by position. |
| Ranking.KeysPermutation | screener/services_volume.py:194 | Permuted rows have permuted keys. |
| Ranking.SortedKeysUnique | screener/services_volume.py:194 | Two sorted permutations of the same keys are equal. |
| Ranking.RankingDeterministic | screener/services_volume.py:194-195 | The kept rows carry the same keys in the same order whatever the input order, ties included. |
| Ranking.SortInts | screener/views_ma_monthly.py:74 | `sorted(ma_list)` is an ascending permutation. |
| Ranking.SortIntsPermutation | screener/views_ma_monthly.py:74 | Permuted window lists sort to the same list. |
| Symbols.WithSuffix | screener/views_ma_monthly.py:69 | Appending `.NS` unless present gives a symbol that ends in `.NS` and starts with the input. It adds exactly `.NS` when missing and nothing otherwise. |
| Symbols.UpperUnchanged | screener/views_ma_monthly.py:66 | A symbol without lower-case letters is its own upper-case form. |
| Symbols.WithSuffixNormalised | screener/views_ma_monthly.py:66-69 | A stripped, upper-case, non-empty token given its suffix is a well-formed symbol. |
| Symbols.NormaliseToken | screener/views_ma_monthly.py:66-69 | A token is kept exactly when it is not blank. The kept symbol is well formed, starts with the stripped upper-cased token, and gains `.NS` only when the token lacked it. |
| Symbols.NormaliseTokenIdempotent | screener/views_ma_monthly.py:66-69 | Normalising a normalised symbol changes nothing. |
| Symbols.NormalisedFixed | screener/views_ma_monthly.py:66-69 | A well-formed symbol normalises to itself. |
| Symbols.NormaliseSymbols | screener/services_volume.py:40-42 | The surviving tokens, normalised: all well formed, and a symbol is present exactly when some token normalises to it. |
| Symbols.ParseSymbolOverride | screener/views_ma_monthly.py:63-69 | The override holds at most one symbol per comma-separated token, all well formed. |
| Symbols.ParseSymbolOverrideMembers | screener/views_ma_monthly.py:63-69 | A symbol is in the override exactly when some token normalises to it. |
| Symbols.NormaliseSymbolsFixed | screener/views_ma_monthly.py:66-69 | A list of well-formed symbols normalises to itself. |
| Symbols.SymbolOverrideRoundTrip | screener/views_ma_monthly.py:63-69 | Writing well-formed symbols as `A.NS,B.NS,...` and parsing the override gives the same list back. |
| Symbols.EmptyOverride | screener/views_ma_monthly.py:65-68 | The empty text parses to no symbols. |
| Symbols.Display | screener/services_volume.py:173-177 | A tagged symbol's display name ends with ` (NIFTY50)`; an untagged symbol's is never longer than the symbol. |
| Symbols.DisplayOfBase | screener/services_volume.py:173-177 | For `BASE.NS` the display name is BASE, plus the tag when tagged. |
| Symbols.In50 | screener/services_volume.py:174 | A symbol counts as tagged only if the tag table has it. |
| Symbols.LexLessIrreflexive | screener/services_volume.py:69 | Python's string order is irreflexive. |
| Symbols.LexLessTransitive | screener/services_volume.py:69 | Python's string order is transitive. |
| Symbols.LexLessTotal | screener/services_volume.py:69 | Python's string order is total. |
| Symbols.StrictlySortedDistinct | screener/services_volume.py:69 | A strictly sorted list has no duplicates. |
| Symbols.InsertUnique | screener/services_volume.py:69 | Adding a symbol to a strictly sorted list keeps it strictly sorted and adds exactly that symbol. |
| Symbols.SortedUnique | screener/services_volume.py:69 | `sorted(set(syms))` is strictly sorted and has exactly the input's symbols. |
| Symbols.StrictlySortedUnique | screener/services_volume.py:69 | Two strictly sorted lists with the same members are equal. |
| Symbols.SortedUniqueCanonical | screener/services_volume.py:69 | Inputs with the same members give the same universe list. |
| Symbols.SortedUniqueIdempotent | screener/services_volume.py:69 | Applying `sorted(set(...))` twice changes nothing. |
| RequestParams.Param | screener/views_volume.py:38 | `request.GET.get(name)` is present exactly when the query has the name, and then it is its value. |
| RequestParams.Flag | screener/views_volume.py:53-55 | A flag is on exactly when the parameter is one of `1`, `true`, `True`, `yes`. |
| RequestParams.IntParam | screener/views_volume.py:42-45 | The integer parameter takes its default when absent or unparsable, and the parsed value otherwise. |
| RequestParams.IntParamOfString | screener/views_volume.py:42-45 | A parameter spelled `str(i)` reads back as i. |
| RequestParams.FloatParam | screener/views_volume.py:37-40 | The float parameter takes its default when absent or unparsable, and the parsed value otherwise. |
| RequestParams.FloatParamOfNat | screener/views_volume.py:37-40 | A parameter spelled as a natural number reads back as that number. |
| RequestParams.FloatParamOfDecimal | screener/views_ma_monthly.py:48-51 | A parameter spelled `I.F` reads back as its decimal value. |
| RequestParams.UniverseParam | screener/views_volume.py:52 | The universe is `nifty100` when missing or empty and the lower-cased parameter otherwise; it never contains an upper-case letter. |
| RequestParams.SymbolOverride | screener/views_volume.py:57-67 | There is no override exactly when `symbols` is missing or empty. Otherwise the override is the parsed list, all well formed. |
| RequestParams.OverrideOfOne | screener/views_ma_monthly.py:62-69 | A single well-formed symbol given as `symbols` is the whole override. |
| VolumeService.LastPositiveIndex | screener/services_volume.py:117-122 | The last strictly positive bar: none exactly when every bar is at most zero; otherwise a positive bar with none positive after it. |
| VolumeService.TodayIndex | screener/services_volume.py:117-125 | The bar taken as today is always inside the series. |
| VolumeService.PriorBars | screener/services_volume.py:123-126 | The prior window is the `tail(window)` of the bars strictly before today. |
| VolumeService.RatioOfBars | screener/services_volume.py:111-136 | A series shorter than max(20, window + 5), or a zero window, has no ratio. A ratio has positive prior maximum with `ratio * prev_max == today`. Today is the chosen bar, and the maximum is the maximum of a non-empty window of bars strictly before it. |
| VolumeService.ComputeVolumeRatio | screener/services_volume.py:96-136 | After dropping missing bars, too few bars give no ratio. Any ratio has a positive prior maximum and satisfies `ratio * prev_max == today`. |
| VolumeService.DefaultPolicyFullWindow | screener/services_volume.py:124-126 | Under the default policy today is the last bar and the window is exactly the `window` bars before it. |
| VolumeService.LastNonzeroWindow | screener/services_volume.py:117-123 | Under the last-non-zero policy today is the last positive bar, the zero bars after it are ignored, and the window is the up-to-`window` bars before it. |
| VolumeService.RatioDefined | screener/services_volume.py:114-133 | For a positive window, a ratio exists exactly when the series is long enough, today exists and some bar of the prior window is positive. |
| VolumeService.ConstantBarsRatio | screener/services_volume.py:113-135 | Enough bars all of one positive volume give ratio 1 under the default policy: today equals the window maximum. |
| VolumeService.FlatHistorySpike | screener/services_volume.py:124-136 | A flat history of `base` followed by today gives ratio today / base under either policy. |
| VolumeService.TrailingZeroIgnored | screener/services_volume.py:117-123 | Under the last-non-zero policy a trailing zero bar does not change the ratio. |
| VolumeService.SpikeTask | screener/services_volume.py:163-184 | A row appears exactly when the fetch succeeds, a ratio exists and it reaches the factor. The row carries the ratio's today and prior-max volumes, the rounded multiple and percentage within half a hundredth, the window and the tag. |
| VolumeService.SpikeOutcomes | screener/services_volume.py:186-187 | One worker outcome per symbol, in submission order. |
| VolumeService.SpikeKeyOrder | screener/services_volume.py:194 | The ascending sort key orders rows exactly as `reverse=True` on (multiple, today_volume) does. |
| VolumeService.TopVolumeSpikes | screener/services_volume.py:139-195 | The result has min(#qualifying, max(1, limit)) rows, ordered by multiple then volume, and is a sub-multiset of the qualifying rows, each produced by some symbol's worker. Every qualifying row left out ranks no higher than every row kept, and all qualifying rows are kept when they fit. |
| VolumeService.TopVolumeSpikesOrderIndependent | screener/services_volume.py:186-195 | Two completion orders give results of the same length with the same multiple and volume at every position. |
| VolumeService.TopSpikesAgree | screener/services_volume.py:194-195 | Ranking two permutations of the same rows puts the same multiple and volume at each position. |
| VolumeService.SymbolColumn | screener/services_volume.py:35-37 | The column used is the first whose lower-cased name is `symbol`, if any. |
| VolumeService.ChosenColumn | screener/services_volume.py:35-39 | A column is chosen exactly when the file has one. |
| VolumeService.TableSymbols | screener/services_volume.py:35-43 | A readable table with columns gives well-formed symbols; a symbol is present exactly when some non-missing cell of the chosen column normalises to it. |
| VolumeService.ReadSymbolList | screener/services_volume.py:25-45 | A missing or unreadable file gives no symbols; every symbol read is well formed. |
| VolumeService.LoadUniverseSymbols | screener/services_volume.py:48-71 | A non-empty cached list is returned as is. Otherwise the result is strictly sorted. For `nifty100` it holds exactly the file's symbols. For `tickers` it holds exactly the ticker table's symbols when the `Ticker` model imports, and nothing otherwise. For any other name it is empty. |
| MonthlyMaService.SmaDistanceMonthly | screener/services_ma_monthly.py:46-60 | A distance exists exactly when there are at least n closes and their last-n mean is non-zero. It gives the last close, the mean, and `dist * sma == 100 * (close - sma)`. |
| MonthlyMaService.DistanceSign | screener/services_ma_monthly.py:59 | With positive closes the mean is positive, and the distance is positive or zero exactly when the close is above or at the mean. |
| MonthlyMaService.SumPositive | screener/services_ma_monthly.py:54 | A sum of positive closes is positive. |
| MonthlyMaService.CellOf | screener/services_ma_monthly.py:89-98 | A window's cell exists exactly when its distance does, and holds the distance rounded to three places. |
| MonthlyMaService.MonthlyTask | screener/services_ma_monthly.py:83-99 | A row exists exactly when the fetch succeeds. It has one cell per requested window, each that window's result, and a close exactly when some window computed, namely the last close. |
| MonthlyMaService.MonthlyOutcomes | screener/services_ma_monthly.py:103-104 | One worker outcome per symbol, in submission order. |
| MonthlyMaService.MatchFor | screener/services_ma_monthly.py:113-128 | A match is within tolerance and belongs to the row's symbol. |
| MonthlyMaService.MatchForWindow | screener/services_ma_monthly.py:111-128 | A symbol matches window m exactly when m was requested, its distance exists and the rounded distance is within `tol * 100`. The match carries the rounded close, mean and distance, the tag and the display name. |
| MonthlyMaService.MaKeyOrder | screener/services_ma_monthly.py:130 | The sort key orders matches by absolute distance, then by close descending. |
| MonthlyMaService.Candidates | screener/services_ma_monthly.py:112-128 | Definition used by `CandidatesMembers` and `Bucket`: the matches of window m, row by row. |
| MonthlyMaService.CandidatesMembers | screener/services_ma_monthly.py:112-128 | A window's candidates are exactly the matches of the rows, at most one per row. |
| MonthlyMaService.MatchIsCandidate | screener/services_ma_monthly.py:113-128 | A row that matches the window contributes its match. |
| MonthlyMaService.Bucket | screener/services_ma_monthly.py:129-131 | A bucket has min(#matches, max(1, limit)) entries, closest first and all within tolerance, drawn from the matches. No match left out is closer than one kept. |
| MonthlyMaService.CandidatesPermutation | screener/services_ma_monthly.py:101-128 | Permuted rows give permuted candidate matches. |
| MonthlyMaService.ScanMonthlyMa | screener/services_ma_monthly.py:62-133 | There is one bucket per requested window. Each holds min(#matches, max(1, limit)) matches, closest first and within tolerance, taken from the matches of all fetched rows. No match left out is closer than one kept. |
| MonthlyMaService.ScanOrderIndependent | screener/services_ma_monthly.py:101-133 | Two completion orders give buckets for the same windows with the same distance and close at every position. |
| MonthlyMaService.SortedUniqueNormalised | screener/services_ma_monthly.py:148-151 | Sorting and de-duplicating keeps every symbol well formed. |
| MonthlyMaService.FallbackUniverse | screener/services_ma_monthly.py:138-151 | The fallback reader returns no symbols for a missing file and fails on an unreadable one. Otherwise its list is strictly sorted and well formed. |
| MonthlyMaService.GetUniverse | screener/services_ma_monthly.py:135-151 | With the shared loader available it defers to it; otherwise it reads the file itself. |
| MonthlyMaService.FallbackMatchesLoader | screener/services_ma_monthly.py:138-151 | On a readable file the fallback reader and the shared loader give the same `nifty100` list. |
| DailyMaService.LastSma200 | screener/services.py:43-46 | The last 200-bar mean exists exactly when the last 200 closes are present, and it is their sum over 200. |
| DailyMaService.Worker | screener/services.py:35-58 | A result needs at least 210 bars and a defined non-zero mean. Among those tickers, it appears exactly when the fractional distance is within tol. It carries the close, mean and percentage, rounded within half a step, and the ticker's name and tag. |
| DailyMaService.ToleranceBand | screener/services.py:48-49 | For a positive mean, being within tol is the price band `sma * (1 - tol) <= close <= sma * (1 + tol)`. |
| DailyMaService.DailyOutcomes | screener/services.py:60-61 | One worker outcome per ticker, in submission order. |
| DailyMaService.ScanAt200Dma | screener/services.py:28-68 | The result is exactly the matches, as a multiset, closest to the mean first, each produced by some ticker's worker. |
| EventsService.IsSensitive | screener/services_events.py:60-66 | Definition used by `SensitiveIgnoresCase`, `MissingHeadlineNotSensitive` and `HasUpcomingEvent`: the lower-cased headline contains a sensitive word. |
| EventsService.SensitiveIgnoresCase | screener/services_events.py:65-66 | A headline and its lower-cased form are equally sensitive, so the word match ignores case. |
| EventsService.MissingHeadlineNotSensitive | screener/services_events.py:65-67 | A missing or empty headline is never sensitive. |
| EventsService.Qualifies | screener/services_events.py:64-71 | Definition used by `QualifiesWindow` and `HasUpcomingEvent`: a sensitive headline and a parsed date within the window in whole days. |
| EventsService.QualifiesWindow | screener/services_events.py:64-71 | Because `.days` rounds down, an event qualifies exactly when its midnight lies from `window_days` days before now up to, but not including, `window_days + 1` days after now. |
| EventsService.ParseDate | screener/services_events.py:45-52 | A missing or empty date never parses. |
| EventsService.DayOffset | screener/services_events.py:71 | The day offset is the floor of the time difference in whole days. |
| EventsService.HasUpcomingEvent | screener/services_events.py:54-83 | `has_upcoming` holds exactly when some announcement qualifies: a sensitive headline and a parsed date at most the window's number of days from today, before or after. The event reported then qualifies, is nearest, and is the first such in list order. With none, every field is empty. |
| LoadUniverseCommand.NiftyEntry | screener/management/commands/load_universe.py:22-27 | A NIFTY50 line is skipped exactly when blank or a header word. Otherwise it is upper case and no longer than the stripped line; `SpellingReadsAsBase` gives its value for every spelling. |
| LoadUniverseCommand.RemoveAllNoLower | screener/management/commands/load_universe.py:26 | Removing `.NS` keeps an upper-case symbol upper case. |
| LoadUniverseCommand.Nifty50Set | screener/management/commands/load_universe.py:20-27 | The NIFTY50 set holds exactly the entries of the non-skipped lines. |
| LoadUniverseCommand.RowBase | screener/management/commands/load_universe.py:40-45 | A row has a base symbol exactly when its ticker is not blank; `SpellingReadsAsBase` gives its value for every spelling. |
| LoadUniverseCommand.RowSymbol | screener/management/commands/load_universe.py:45-46 | A row has a Yahoo symbol exactly when it has a base symbol; `SpellingReadsAsBase` gives its value for every spelling. |
| LoadUniverseCommand.RowSymbolShape | screener/management/commands/load_universe.py:45-46 | The stored symbol ends in `.NS` and has no lower-case letter. |
| LoadUniverseCommand.RowRecord | screener/management/commands/load_universe.py:41-51 | The stored record is tagged exactly when the base symbol is in the NIFTY50 set, and its name is the stripped name. |
| LoadUniverseCommand.RowEntry | screener/management/commands/load_universe.py:39-51 | A row yields an entry exactly when it has a symbol, namely that symbol with its record. |
| LoadUniverseCommand.Entries | screener/management/commands/load_universe.py:39-51 | One entry outcome per row, in file order. |
| LoadUniverseCommand.WrittenMembers | screener/management/commands/load_universe.py:49-52 | A symbol is written exactly when some row yields it. |
| LoadUniverseCommand.UpsertAllKeys | screener/management/commands/load_universe.py:49-52 | After loading, the table holds the old symbols plus the written ones. |
| LoadUniverseCommand.UpsertAllUntouched | screener/management/commands/load_universe.py:49-52 | A symbol no row names keeps its old record. |
| LoadUniverseCommand.UpsertAllLastWins | screener/management/commands/load_universe.py:49-52 | A symbol's record is the one from the last row that names it. |
| LoadUniverseCommand.NoDotNoSuffix | screener/management/commands/load_universe.py:26 | Text without a dot holds no `.NS`. |
| LoadUniverseCommand.BaseOfSpelling | screener/management/commands/load_universe.py:26 | Removing `.NS` from the upper-cased, stripped spelling of a dot-free base gives the base, with or without the suffix. |
| LoadUniverseCommand.SpellingReadsAsBase | screener/management/commands/load_universe.py:19-27 | Every spelling of a plain base (any case, blanks around it, with or without `.NS`) reads as that base in the NIFTY50 file, reads as that base in the universe file, and is stored as base + `.NS`. |
| LoadUniverseCommand.SpellingVariants | screener/management/commands/load_universe.py:19 | The base as is, lower-cased, and with `.NS` or `.ns` between two blanks are all spellings of it. |
| LoadUniverseCommand.SpellsLower | screener/management/commands/load_universe.py:23-26 | A base and its lower-case form both spell the base. |
| LoadUniverseCommand.SpellsPaddedUpper | screener/management/commands/load_universe.py:23-26 | ` BASE.NS ` spells BASE. |
| LoadUniverseCommand.SpellsPaddedLower | screener/management/commands/load_universe.py:23-26 | ` base.ns ` spells BASE. |
| LoadUniverseCommand.PaddedSpellsBase | screener/management/commands/load_universe.py:23-26 | Padded text that upper-cases to BASE.NS spells BASE. |
| LoadUniverseCommand.SuffixedEnds | screener/management/commands/load_universe.py:46 | Gluing a suffix keeps the first character of the front and the last of the suffix. |
| LoadUniverseCommand.LowerFirstNotSpace | screener/management/commands/load_universe.py:23 | Lower-casing never turns the first character into whitespace. |
| LoadUniverseCommand.UpperSuffixed | screener/management/commands/load_universe.py:45-46 | An upper-case base with `.NS` is its own upper-case form. |
| LoadUniverseCommand.UpperLowerSuffixed | screener/management/commands/load_universe.py:45-46 | `base.ns` upper-cases to BASE.NS. |
| LoadUniverseCommand.UpperNs | screener/management/commands/load_universe.py:26 | `.ns` upper-cases to `.NS`. |
| LoadUniverseCommand.AnySpellingTagged | screener/management/commands/load_universe.py:19-47 | A symbol in the NIFTY50 file is tagged whenever the universe lists it, whatever the case, blanks or `.NS` of either file, and its row is stored as base + `.NS`. |
| LoadUniverseCommand.SameSpellingTagged | screener/management/commands/load_universe.py:23-27 | A ticker spelled as in the NIFTY50 file is tagged. |
| LoadUniverseCommand.AbsentIffFirstNew | screener/management/commands/load_universe.py:49-53 | A row creates a record exactly when its symbol was neither in the table nor named by an earlier row. |
| LoadUniverseCommand.UpsertRows | screener/management/commands/load_universe.py:39-54 | The loop leaves the table as the upserts define. It counts the rows that created a record, and created plus updated is the number of non-blank rows. |
| LoadUniverseCommand.HeaderOk | screener/management/commands/load_universe.py:35 | Definition used by `HeaderOkMembers` and `Load`: the set of header names is {TICKER, NAME}. |
| LoadUniverseCommand.HeaderOkMembers | screener/management/commands/load_universe.py:35-37 | A header is accepted exactly when it names TICKER and NAME and nothing else, in any order and with any repetition. A missing header is refused. |
| LoadUniverseCommand.Load | screener/management/commands/load_universe.py:10-54 | Missing files and a bad header stop the command. Otherwise every non-blank row is upserted with the counts above. |
| MonthlyMaView.MaToken | screener/views_ma_monthly.py:35-44 | A kept window is positive. |
| MonthlyMaView.MaTokenKeeps | screener/views_ma_monthly.py:36-44 | A token is kept exactly when its stripped text parses as a positive integer, and then it is that integer. |
| MonthlyMaView.WindowsOf | screener/views_ma_monthly.py:35-46 | The window list is never empty and holds only positive windows. It is the valid tokens in order when there are any, and [50, 100] otherwise. |
| MonthlyMaView.MaTokens | screener/views_ma_monthly.py:33-35 | The tokens of `ma`, or of `50,100` when it is missing or empty: at least one, none holding a comma. |
| MonthlyMaView.MaTokensJoin | screener/views_ma_monthly.py:33-35 | Tokenising loses nothing: the tokens joined by commas give the stripped parameter back. |
| MonthlyMaView.ParseMaList | screener/views_ma_monthly.py:33-46 | `ma` always yields a non-empty list of positive windows. |
| MonthlyMaView.IntStrings | screener/views_ma_monthly.py:88-89 | The windows' decimal spellings, position by position. |
| MonthlyMaView.MaTokenOfString | screener/views_ma_monthly.py:36-44 | A positive window written in decimal is kept as itself. |
| MonthlyMaView.MaListRoundTrip | screener/views_ma_monthly.py:33-46 | Writing positive windows as `50,100,...` and parsing `ma` gives the same list. |
| MonthlyMaView.DefaultSpelling | screener/views_ma_monthly.py:33 | The default text `50,100` spells the default window list. |
| MonthlyMaView.MaListDefault | screener/views_ma_monthly.py:33-46 | A missing or empty `ma` yields [50, 100]. |
| MonthlyMaView.ParseRequest | screener/views_ma_monthly.py:33-71 | The windows are non-empty and positive. Tolerance and limit default to 0.003 and 50. `refresh` holds exactly for the true words, and any override is well formed. |
| MonthlyMaView.TolQuery | screener/views_ma_monthly.py:48-51 | `?tol=I.F` sets the tolerance to the decimal I.F, for example `tol=0.005` to 0.005. |
| MonthlyMaView.CacheKeyAsWritten | screener/views_ma_monthly.py:74 | The key as written records the window multiset but only the number of symbols. |
| MonthlyMaView.MakeCacheKey | screener/views_ma_monthly.py:74 | The corrected key records the symbol list itself and the window multiset. |
| MonthlyMaView.PermutedWindowsShareKey | screener/views_ma_monthly.py:74 | Permuting `ma` changes neither key. |
| MonthlyMaView.WindowKeys | screener/views_ma_monthly.py:88-89 | The response keys are exactly the windows' decimal spellings. |
| MonthlyMaView.BuildPayload | screener/views_ma_monthly.py:83-90 | The payload echoes the knobs and has one entry per window, keyed `str(m)`, holding that window's bucket and its size. |
| MonthlyMaView.Compute | screener/views_ma_monthly.py:81-90 | There is one entry per requested window. Its count is its size, at most max(1, limit), closest first and within `tol * 100`. |
| MonthlyMaView.ApiMaMonthly | screener/views_ma_monthly.py:58-95 | The view as written, keyed by the key as written. No response when the universe cannot be read. `refresh` computes without touching the cache, a hit returns the stored payload, and a miss computes and stores it. |
| MonthlyMaView.ApiMaMonthlyCorrected | screener/views_ma_monthly.py:58-95 | The same view keyed by the corrected key, with the same three cases. |
| MonthlyMaView.OutcomesByWindowSet | screener/views_ma_monthly.py:81 | Worker rows depend only on which windows are requested. |
| MonthlyMaView.SameWindows | screener/views_ma_monthly.py:74 | Permuted window lists name the same windows. |
| MonthlyMaView.ScanByWindowSet | screener/views_ma_monthly.py:81 | The scan depends only on which windows are requested. |
| MonthlyMaView.PayloadByWindowSet | screener/views_ma_monthly.py:83-90 | The response maps depend only on which windows are requested. |
| MonthlyMaView.CacheKeySound | screener/views_ma_monthly.py:74-90 | Requests with equal corrected keys, under one completion order, compute the same payload up to the order of the `ma_list` echo: the same results and counts. |
| MonthlyMaView.PermutedPositive | screener/views_ma_monthly.py:74 | Sorting positive windows keeps them positive. |
| MonthlyMaView.KeyRequestAgrees | screener/views_ma_monthly.py:74-90 | A request and the request its key stands for compute the same payload up to the order of the `ma_list` echo. |
| MonthlyMaView.ComputeOrderIndependent | screener/views_ma_monthly.py:81-90 | Two completion orders give payloads with the same knobs, counts and response keys, and the same distance and close at every position of every bucket. |
| MonthlyMaView.BuildPayloadAgree | screener/views_ma_monthly.py:83-90 | Buckets that agree position by position build agreeing payloads. |
| MonthlyMaView.EntryAgree | screener/views_ma_monthly.py:88-89 | One response entry built from agreeing buckets agrees, count included. |
| MonthlyMaView.AgreeOfEntries | screener/views_ma_monthly.py:83-90 | Payloads with the same knobs and keys agree once every entry does. |
| MonthlyMaView.BucketOfAgree | screener/views_ma_monthly.py:88-89 | `buckets.get(m, [])` of agreeing buckets agree, in keys and length. |
| MonthlyMaView.ServedIsFresh | screener/views_ma_monthly.py:74-95 | With the corrected key, a cache whose entries agree with their keys' payloads under a reference completion order serves a payload that agrees with the one this run computes, under any completion order, and the cache keeps agreeing. |
| MonthlyMaView.ComputedAgreesWithKey | screener/views_ma_monthly.py:74-90 | A fresh payload agrees with the one its corrected key stands for, whatever the completion orders. |
| MonthlyMaView.HitAgrees | screener/views_ma_monthly.py:75-78 | A hit in a fresh cache serves a payload that agrees with the fresh one. |
| MonthlyMaView.StoreKeepsFresh | screener/views_ma_monthly.py:92-93 | Storing a payload that agrees with its key keeps the cache fresh. |
| MonthlyMaView.DatalessBucketEmpty | screener/views_ma_monthly.py:81-89 | A symbol with no data fills no bucket. |
| MonthlyMaView.FlatSymbolMatches | screener/views_ma_monthly.py:81-89 | A one-bar series matches window 1 under any non-negative tolerance. |
| MonthlyMaView.CollisionRequests | screener/views_ma_monthly.py:33-71 | `symbols=TCS.NS&ma=1` and `symbols=INFY.NS&ma=1` parse to the same knobs and different overrides. |
| MonthlyMaView.KeyAsWrittenCollides | screener/views_ma_monthly.py:74-78 | Those two requests share the key as written, yet the first has a match in window 1 and the second has none. |
| MonthlyMaView.CorrectedKeySeparates | screener/views_ma_monthly.py:74 | The corrected key tells those two requests apart. |
| MonthlyMaView.RequestSymbols | screener/views_ma_monthly.py:61-71 | The symbols scanned are the override when there is one, and otherwise what `get_universe` gives for the universe (nothing when it raises). |
| MonthlyMaView.SharedKeyServesFirst | screener/views_ma_monthly.py:74-93 | Two cache-reading requests with the same key as written: after the first fills an empty cache, the second is served the first's payload. |
| MonthlyMaView.CollisionServedStale | screener/views_ma_monthly.py:62-93 | `symbols=TCS.NS&ma=1` fills the cache, and `symbols=INFY.NS&ma=1` is then served TCS's match although INFY's own window-1 bucket is empty. |
| VolumeView.ParseRequest | screener/views_volume.py:37-67 | Factor, limit and window default to 3.0, 5 and 100. The three flags hold exactly for the true words, and there is an override exactly when `symbols` is present and non-empty. |
| VolumeView.FactorQuery | screener/views_volume.py:37-40 | `?factor=I.F` sets the factor to the decimal I.F, for example `factor=3.0` to 3. |
| VolumeView.RequestSymbols | screener/views_volume.py:57-67 | The symbols scanned are the override when there is one and the universe otherwise. |
| VolumeView.CacheKeyAsWritten | screener/views_volume.py:70 | The key as written records the number of symbols and the factor to three places. |
| VolumeView.MakeCacheKey | screener/views_volume.py:70 | The corrected key records the symbol list, the exact factor and `debug`. |
| VolumeView.Spikes | screener/views_volume.py:76-82 | The spikes are min(#qualifying, max(1, limit)) rows drawn from the qualifying rows, ranked. Every qualifying row left out ranks no higher than every row kept, and all are kept when they fit. |
| VolumeView.Compute | screener/views_volume.py:76-102 | The payload echoes the knobs with count equal to the number of results. Its results are drawn from the rows qualifying at the factor, ranked, and none left out ranks higher; it is empty exactly when nothing qualifies. The preview appears exactly for `debug` with no results; it has min(#rows at factor 0, 10) rows drawn from those rows, ranked, and none left out ranks higher. |
| VolumeView.ApiVolumeSpikes | screener/views_volume.py:57-107 | The view as written, keyed by the key as written: `refresh` computes without touching the cache, a hit returns the stored payload, and a miss computes and stores it. |
| VolumeView.ApiVolumeSpikesCorrected | screener/views_volume.py:57-107 | The same view keyed by the corrected key, with the same three cases. |
| VolumeView.CacheKeySound | screener/views_volume.py:70-102 | Requests with equal corrected keys compute the same payload. |
| VolumeView.ComputeIgnoresCacheFlags | screener/views_volume.py:76-102 | `refresh` and the override do not affect the computed payload once the symbols are fixed. |
| VolumeView.ComputeOrderIndependent | screener/views_volume.py:76-102 | Two completion orders give payloads with the same knobs and count, the same multiple and volume at every position of the results and of the preview, and a preview in both or neither. |
| VolumeView.ServedIsFresh | screener/views_volume.py:70-107 | With the corrected key, a cache whose entries agree with their keys' payloads under a reference completion order serves a payload that agrees with the one this run computes, under any completion order, and the cache keeps agreeing. |
| VolumeView.ComputedAgreesWithKey | screener/views_volume.py:70-102 | A fresh payload agrees with the one its corrected key stands for, whatever the completion orders. |
| VolumeView.HitAgrees | screener/views_volume.py:71-74 | A hit in a fresh cache serves a payload that agrees with the fresh one. |
| VolumeView.StoreKeepsFresh | screener/views_volume.py:104-105 | Storing a payload that agrees with its key keeps the cache fresh. |
| VolumeView.DebugQueryKnobs | screener/views_volume.py:55 | `debug=1` changes only the debug flag. |
| VolumeView.NothingQualifies | screener/views_volume.py:76-82 | With no data for any symbol nothing qualifies. |
| VolumeView.KeyAsWrittenIgnoresDebug | screener/views_volume.py:70 | A plain request and a `debug=1` request share the key as written, yet only the second payload carries a preview. |
| VolumeView.KeyAsWrittenIgnoresSymbols | screener/views_volume.py:70 | Two single-symbol requests share the key as written, yet one has a spike and the other none. |
| VolumeView.DebugServedStale | screener/views_volume.py:55-105 | A plain request with no data fills the cache, and the same request with `debug=1` is then served that payload without a preview, although its own payload has one. |
| VolumeView.DebugServedStaleWithData | screener/views_volume.py:55-105 | Suppose no symbol of the default universe reaches the default factor but one has a ratio. A plain request fills the cache, and the same request with `debug=1` is then served that payload without a preview, although its own payload has a non-empty one. |
| VolumeView.NoneReachFactor | screener/views_volume.py:76-82 | When no symbol reaches the factor, nothing qualifies. |
| VolumeView.PreviewHolds | screener/views_volume.py:94-101 | A symbol with a ratio qualifies for the factor-0 preview. |
| VolumeView.FlatHistoryPreviewOnly | screener/views_volume.py:76-101 | A flat history long enough for the default window has ratio 1, so the symbol enters the preview but not the default result. |
| VolumeView.FlatRatioOne | screener/services_volume.py:111-135 | A volume column with no missing entry and every bar equal has ratio 1. |
| VolumeView.SomesAllPresent | screener/services_volume.py:111 | With no missing entry, dropping the missing ones changes nothing. |
| VolumeView.FlatUniverseServedStale | screener/views_volume.py:55-105 | The debug finding on a concrete input: a default universe of one symbol with a flat volume history is served the cached payload without the non-empty preview. |
| VolumeView.SymbolsQueryKnobs | screener/views_volume.py:37-65 | `symbols=S` changes only the override, to [S]. |
| VolumeView.SharedKeyServesFirst | screener/views_volume.py:70-105 | Two cache-reading requests with the same key as written: after the first fills an empty cache, the second is served the first's payload. |
| VolumeView.SymbolsServedStale | screener/views_volume.py:57-105 | `symbols=A` where A spikes fills the cache, and `symbols=B` where B has no data is then served A's one-row payload, although its own count is 0. |
| VolumeView.SingleSymbolCounts | screener/views_volume.py:76-89 | A single spiking symbol gives count 1 and a single symbol without data gives count 0. |

## Left out

- Network access, yfinance, the NSE announcement API (`_session`, `fetch_nse_announcements`), Django's ORM and the wall clock are outside the model. Fetches are function parameters and the tag table is a map. The current instant is a number of microseconds.
- Thread pools and concurrency: only the completion order of results is modelled, as an arbitrary permutation.
- The Django cache's time-outs (30 and 10 minutes, 6 hours for universes) are not modelled. An entry never expires, which is the worst case for staleness.
- Binary floating point is modelled as exact reals, and `round` is modelled as exact round-half-even on them. NaN is modelled as a missing value. Consequences:
  - a float that `round` sees as just below a half is not reproduced;
  - `int64` overflow in the volume column is not reproduced.
- `int()` and `float()` accept an optional sign and ASCII digits (with a decimal point for `float`). Underscores, exponents, `inf`, `nan` and non-ASCII digits are treated as unparsable.
- `upper`, `lower` and `strip` are modelled on ASCII letters and on Python's whitespace set; other Unicode case mappings are left out.
- pandas frames are sequences: a volume column of optional integers, closes as reals, a CSV as optional cells. `read_csv` failures are the `Unreadable` case.
- The date formats of `_parse_dd_mmm_yyyy` are a parameter returning a day number, and the `strftime` of the reported date is not modelled.
- The rendering of cache keys as strings is modelled as a tuple of the same fields. Distinct knob values are assumed to render distinctly, apart from the rounding of `tol` and `factor` that the format strings do.
- `load_universe`: the console messages and the final tag counts are not modelled. `DictReader` parsing is modelled as a header and rows of optional cells. The 16-character limit on `Ticker.symbol` is not enforced.
- `_fetch_monthly` and `fetch_history` are modelled through their results only: no bars, or the series after dropping missing closes.
- The daily scan's ticker dictionaries are modelled with their defaults already applied (`name` "", `in_nifty50` false).
- The universe loaders are function parameters in the views. In the monthly view a raising loader is the missing response.
- `screener/services_genai.py`, `screener/services_news.py`, `screener/services_ta.py`, `screener/views.py`, `screener/views_genai.py` and `screener/urls.py` are not part of this model.
- VolumeService.SpikeTask: states the rounded multiple and percentage as within half a hundredth of the exact ratio, not as the exact `round(_, 2)` value.
- DailyMaService.Worker: states the rounded close, mean and percentage as within half a step of the exact values, not as the exact `round` results.
- MonthlyMaView.Compute: states the shape, order and tolerance of each bucket; that the buckets are the scan's is stated by `MonthlyMaService.ScanMonthlyMa` and used by `MonthlyMaView.CacheKeySound`.
- MonthlyMaView.ServedIsFresh: agreement, not equality. The `ma_list` echo may differ in order, because the stored payload echoes the first request's order. Matches that tie on distance and close may be listed in a different order, because the two runs may complete their workers in different orders. The counts, windows and response keys are equal.
- VolumeView.ServedIsFresh: agreement, not equality. Rows that tie on multiple and volume may be listed in a different order, for the same reason. The knobs, count and presence of the preview are equal.
- A database error while reading the ticker table for `universe=tickers` raises out of `load_universe_symbols` (`screener/services_volume.py:65`); only a failed import of the `Ticker` model gives the empty list. The raise is not modelled.
- VolumeView.ApiVolumeSpikes: the universe loader is a total function parameter, so the view never fails; an exception raised by `load_universe_symbols` is not modelled.

## Findings

| source | as written | input that shows it | evidently intended | confidence | as-written member | corrected member |
|---|---|---|---|---|---|---|
| screener/views_ma_monthly.py:74 | The cache key records only `len(symbols)`, so different overrides of the same length share an entry | `?symbols=TCS.NS&ma=1`, then `?symbols=INFY.NS&ma=1` within 30 minutes: the second response is the first one's TCS match | The key identifies the symbol list | not executed | MonthlyMaView.CollisionServedStale | MonthlyMaView.ServedIsFresh |
| screener/views_volume.py:70 | The cache key omits `debug`, though `debug` changes the payload | A default universe of one symbol with a flat volume history (ratio 1, below the factor 3.0): a plain request, then the same request with `debug=1`, which gets the cached payload without the non-empty `debug_top` it would compute | The key includes `debug` | not executed | VolumeView.FlatUniverseServedStale | VolumeView.ServedIsFresh |
| screener/views_volume.py:70 | The cache key records only `len(symbols)`, so different overrides of the same length share an entry | `?symbols=A` where A spikes, then `?symbols=B` where B has no data: the second response lists A's spike | The key identifies the symbol list | not executed | VolumeView.SymbolsServedStale | VolumeView.ServedIsFresh |

=== FILE: daily_ma_service.dfy ===
/** The daily 200-bar moving-average scan of `screener/services.py`: the
    tickers whose last daily close lies within a fractional tolerance of
    the mean of the last 200 closes, closest first. */
module DailyMaService {
  import opened Wrappers
  import opened Numbers
  import opened Series
  import opened Ranking

  /** Bars fetched below this count reject the ticker outright. */
  const MinDailyBars: nat := 210
  /** The moving-average length. */
  const SmaBars: nat := 200

  /** A ticker as the caller hands it in, its optional fields already
      defaulted (`name` to "", `in_nifty50` to false). */
  datatype TickerInfo = TickerInfo(symbol: string, name: string, inNifty50: bool)

  datatype ScanResult = ScanResult(symbol: string, name: string, close: real, sma200: real,
                                   distancePct: real, inNifty50: bool)

  predicate AllPresent(s: seq<Option<real>>) {
    forall i :: 0 <= i < |s| ==> s[i].Some?
  }

  function Values(s: seq<Option<real>>): (v: seq<real>)
    requires AllPresent(s)
    ensures |v| == |s| && forall i :: 0 <= i < |s| ==> v[i] == s[i].value
  {
    seq(|s|, i requires 0 <= i < |s| => s[i].value)
  }

  /** The mean of the last 200 closes, undefined (pandas' NaN) when any of
      them is missing. */
  function LastSma200(bars: seq<Option<real>>): (r: Option<real>)
    requires |bars| >= SmaBars
    ensures r.Some? <==> AllPresent(bars[|bars| - SmaBars..])
    ensures r.Some? ==> r.value * SmaBars as real == Sum(Values(bars[|bars| - SmaBars..]))
  {
    var last := bars[|bars| - SmaBars..];
    if AllPresent(last) then Some(Sum(Values(last)) / SmaBars as real) else None
  }

  /** The scan's per-ticker worker on the ticker's daily closes (`None`
      for a missing close). */
  function Worker(tk: TickerInfo, tol: real, fetch: string -> Option<seq<Option<real>>>)
    : (r: Option<ScanResult>)
    ensures r.Some? ==>
              fetch(tk.symbol).Some? && |fetch(tk.symbol).value| >= MinDailyBars
              && LastSma200(fetch(tk.symbol).value).Some?
              && LastSma200(fetch(tk.symbol).value).value != 0.0
    ensures r.Some? ==>
              var bars := fetch(tk.symbol).value;
              var sma := LastSma200(bars).value;
              var c := bars[|bars| - 1].value;
              Abs((c - sma) / sma) <= tol
              && -0.005 <= r.value.close - c <= 0.005
              && -0.005 <= r.value.sma200 - sma <= 0.005
              && -0.0005 <= r.value.distancePct - 100.0 * (c - sma) / sma <= 0.0005
              && r.value.symbol == tk.symbol && r.value.name == tk.name
              && r.value.inNifty50 == tk.inNifty50
    ensures fetch(tk.symbol).Some? && |fetch(tk.symbol).value| >= MinDailyBars
            && LastSma200(fetch(tk.symbol).value).Some?
            && LastSma200(fetch(tk.symbol).value).value != 0.0 ==>
              var bars := fetch(tk.symbol).value;
              var sma := LastSma200(bars).value;
              (r.Some? <==> Abs((bars[|bars| - 1].value - sma) / sma) <= tol)
  {
    match fetch(tk.symbol)
    case None => None
    case Some(bars) =>
      if |bars| < MinDailyBars then None
      else
        match LastSma200(bars)
        case None => None
        case Some(sma) =>
          if sma == 0.0 then None
          else
            assert bars[|bars| - 1] == bars[|bars| - SmaBars..][SmaBars - 1];
            var c := bars[|bars| - 1].value;
            var dist := (c - sma) / sma;
            assert dist * 100.0 == 100.0 * (c - sma) / sma;
            if Abs(dist) <= tol then
              Some(ScanResult(tk.symbol, tk.name, Round2(c), Round2(sma), Round3(dist * 100.0), tk.inNifty50))
            else None
  }

  /** For a positive mean the fractional test is a price band: within
      `tol` of the mean exactly when the close lies between
      `sma * (1 - tol)` and `sma * (1 + tol)`. */
  lemma ToleranceBand(c: real, sma: real, tol: real)
    requires sma > 0.0
    ensures Abs((c - sma) / sma) <= tol <==> sma * (1.0 - tol) <= c <= sma * (1.0 + tol)
  {
    var d := (c - sma) / sma;
    assert d * sma == c - sma;
    if Abs(d) <= tol {
      assert -tol <= d <= tol;
      assert -tol * sma <= d * sma <= tol * sma;
    }
    if sma * (1.0 - tol) <= c <= sma * (1.0 + tol) {
      assert -tol * sma <= d * sma <= tol * sma;
    }
  }

  function DailyOutcomes(tickers: seq<TickerInfo>, tol: real, fetch: string -> Option<seq<Option<real>>>)
    : (r: seq<Option<ScanResult>>)
    ensures |r| == |tickers|
    ensures forall i :: 0 <= i < |tickers| ==> r[i] == Worker(tickers[i], tol, fetch)
  {
    seq(|tickers|, i requires 0 <= i < |tickers| => Worker(tickers[i], tol, fetch))
  }

  function DailyKey(x: ScanResult): Key {
    Key(Abs(x.distancePct), 0.0)
  }

  /** `scan_at_200dma`. `completed` lists the worker results in the order
      the thread pool delivered them. The result holds every match exactly
      once, nothing else, nearest the mean first, with no cut-off. */
  function ScanAt200Dma(tickers: seq<TickerInfo>, tol: real, fetch: string -> Option<seq<Option<real>>>,
                        completed: seq<Option<ScanResult>>)
    : (r: seq<ScanResult>)
    requires multiset(completed) == multiset(DailyOutcomes(tickers, tol, fetch))
    ensures multiset(r) == multiset(Somes(DailyOutcomes(tickers, tol, fetch)))
    ensures forall i, j :: 0 <= i < j < |r| ==> Abs(r[i].distancePct) <= Abs(r[j].distancePct)
    ensures forall x :: x in r ==> exists i :: 0 <= i < |tickers| && Worker(tickers[i], tol, fetch) == Some(x)
  {
    var found := Somes(completed);
    SomesPermutation(completed, DailyOutcomes(tickers, tol, fetch));
    var r := Sort(found, DailyKey);
    assert forall i, j :: 0 <= i < j < |r| ==> KeyLe(DailyKey(r[i]), DailyKey(r[j]));
    forall x | x in r ensures exists i :: 0 <= i < |tickers| && Worker(tickers[i], tol, fetch) == Some(x) {
      assert x in multiset(r);
      assert x in Somes(DailyOutcomes(tickers, tol, fetch));
    }
    r
  }
}

=== FILE: events_service.dfy ===
/** The event-window selector of `screener/services_events.py`: among a
    symbol's corporate announcements, the nearest price-sensitive one dated
    within a window of days around now. */
module EventsService {
  import opened Wrappers
  import opened Text

  /** An announcement as fetched; any field may be missing. */
  datatype Announcement = Announcement(date: Option<string>, headline: Option<string>,
                                       category: Option<string>, attachment: Option<string>)

  /** The chosen event. Its date is the parsed day number; rendering it as
      `YYYY-MM-DD` is not modelled. */
  datatype NextEvent = NextEvent(day: Option<int>, headline: Option<string>,
                                 category: Option<string>, attachment: Option<string>)

  datatype EventSummary = EventSummary(hasUpcoming: bool, next: NextEvent)

  const SensitiveWords: seq<string> :=
    ["result", "earnings", "board", "dividend", "conference", "agm", "egm"]

  const MicrosPerDay: int := 86_400_000_000

  /** The lower-cased headline (a missing one reads as empty) contains one
      of the sensitive words. */
  predicate IsSensitive(headline: Option<string>) {
    exists k :: k in SensitiveWords && Contains(Lower(headline.GetOr("")), k)
  }

  /** `_parse_dd_mmm_yyyy`: a missing or empty date never parses; any other
      text is handed to `parse`, which stands for the three `strptime`
      formats and yields a day number (midnight of that day). */
  function ParseDate(d: Option<string>, parse: string -> Option<int>): (r: Option<int>)
    ensures d.None? || d == Some("") ==> r.None?
  {
    if d.None? || d.value == "" then None else parse(d.value)
  }

  /** `(dt - today).days` for midnight of `day` and the instant `nowMicros`
      (microseconds on the same scale): the whole days of the difference,
      rounded down as `timedelta` does. */
  function DayOffset(day: int, nowMicros: int): (n: int)
    ensures n * MicrosPerDay <= day * MicrosPerDay - nowMicros < (n + 1) * MicrosPerDay
  {
    (day * MicrosPerDay - nowMicros) / MicrosPerDay
  }

  function AbsInt(x: int): nat { if x < 0 then -x else x }

  /** A sensitive headline with a date that parses to a day whose whole-day
      distance from now is at most `windowDays`. */
  predicate Qualifies(a: Announcement, windowDays: int, parse: string -> Option<int>, nowMicros: int) {
    IsSensitive(a.headline)
    && ParseDate(a.date, parse).Some?
    && AbsInt(DayOffset(ParseDate(a.date, parse).value, nowMicros)) <= windowDays
  }

  /** Matching ignores case: a headline and its lower-cased form are
      equally sensitive. */
  lemma SensitiveIgnoresCase(h: string)
    ensures IsSensitive(Some(h)) <==> IsSensitive(Some(Lower(h)))
  {
    LowerUnchanged(Lower(h));
  }

  /** A missing headline reads as the empty text, which holds no word. */
  lemma MissingHeadlineNotSensitive()
    ensures !IsSensitive(None) && !IsSensitive(Some(""))
  {
  }

  /** The window in time: since `.days` rounds down, an event qualifies
      exactly when its midnight lies from `windowDays` days before now up
      to, but not including, `windowDays + 1` days after now. */
  lemma QualifiesWindow(a: Announcement, windowDays: int, parse: string -> Option<int>, nowMicros: int)
    ensures Qualifies(a, windowDays, parse, nowMicros) <==>
              IsSensitive(a.headline) && ParseDate(a.date, parse).Some?
              && -windowDays * MicrosPerDay
                 <= ParseDate(a.date, parse).value * MicrosPerDay - nowMicros
                 < (windowDays + 1) * MicrosPerDay
  {
  }

  function Distance(a: Announcement, parse: string -> Option<int>, nowMicros: int): nat
    requires ParseDate(a.date, parse).Some?
  {
    AbsInt(DayOffset(ParseDate(a.date, parse).value, nowMicros))
  }

  /** `has_upcoming_event`. `has_upcoming` holds exactly when some
      announcement qualifies; the event reported is then one at the least
      distance in days, the first such in list order; with none, every
      field of the event is empty. */
  method HasUpcomingEvent(anns: seq<Announcement>, windowDays: int, parse: string -> Option<int>,
                          nowMicros: int)
    returns (s: EventSummary)
    ensures s.hasUpcoming <==> exists i :: 0 <= i < |anns| && Qualifies(anns[i], windowDays, parse, nowMicros)
    ensures !s.hasUpcoming ==> s.next == NextEvent(None, None, None, None)
    ensures s.hasUpcoming ==>
              exists c :: 0 <= c < |anns| && Qualifies(anns[c], windowDays, parse, nowMicros)
                && s.next == NextEvent(ParseDate(anns[c].date, parse), anns[c].headline,
                                       anns[c].category, anns[c].attachment)
                && (forall j :: 0 <= j < |anns| && Qualifies(anns[j], windowDays, parse, nowMicros) ==>
                      Distance(anns[c], parse, nowMicros) <= Distance(anns[j], parse, nowMicros))
                && (forall j :: 0 <= j < c && Qualifies(anns[j], windowDays, parse, nowMicros) ==>
                      Distance(anns[c], parse, nowMicros) < Distance(anns[j], parse, nowMicros))
  {
    var closest: Option<nat> := None;
    var k := 0;
    while k < |anns|
      invariant 0 <= k <= |anns|
      invariant closest.None? <==>
                  forall j :: 0 <= j < k ==> !Qualifies(anns[j], windowDays, parse, nowMicros)
      invariant closest.Some? ==>
                  closest.value < k && Qualifies(anns[closest.value], windowDays, parse, nowMicros)
      invariant closest.Some? ==>
                  forall j :: 0 <= j < k && Qualifies(anns[j], windowDays, parse, nowMicros) ==>
                    Distance(anns[closest.value], parse, nowMicros) <= Distance(anns[j], parse, nowMicros)
      invariant closest.Some? ==>
                  forall j :: 0 <= j < closest.value && Qualifies(anns[j], windowDays, parse, nowMicros) ==>
                    Distance(anns[closest.value], parse, nowMicros) < Distance(anns[j], parse, nowMicros)
    {
      var a := anns[k];
      if Qualifies(a, windowDays, parse, nowMicros) {
        if closest.None?
           || Distance(a, parse, nowMicros) < Distance(anns[closest.value], parse, nowMicros) {
          closest := Some(k);
        }
      }
      k := k + 1;
    }
    match closest
    case None =>
      s := EventSummary(false, NextEvent(None, None, None, None));
    case Some(c) =>
      var a := anns[c];
      s := EventSummary(true, NextEvent(ParseDate(a.date, parse), a.headline, a.category, a.attachment));
  }
}

=== FILE: load_universe_command.dfy ===
/** The `load_universe` management command of
    `screener/management/commands/load_universe.py`: read the NIFTY50 list,
    check the universe file's header, and upsert one ticker per non-blank
    row into the ticker table, counting creations and updates. The table is
    a map from symbol to its stored fields. */
module LoadUniverseCommand {
  import opened Wrappers
  import opened Text
  import opened Symbols

  /** The stored fields of a ticker. */
  datatype TickerRecord = TickerRecord(name: string, inNifty50: bool)

  /** A universe row as `csv.DictReader` yields it: a short row leaves the
      later fields missing. */
  datatype UniverseRow = UniverseRow(ticker: Option<string>, name: Option<string>)

  datatype LoadOutcome =
    | MissingFiles
    | BadHeader
    | Loaded(db: map<string, TickerRecord>, created: nat, updated: nat)

  /** One line of the NIFTY50 file: stripped, skipped when blank or a header
      word, otherwise upper-cased with every `.NS` removed. */
  function NiftyEntry(raw: string): (r: Option<string>)
    ensures r.None? <==> Strip(raw) == "" || Upper(Strip(raw)) == "SYMBOL" || Upper(Strip(raw)) == "TICKER"
    ensures r.Some? ==> NoLower(r.value) && |r.value| <= |Strip(raw)|
  {
    var s := Strip(raw);
    if s == "" || Upper(s) == "SYMBOL" || Upper(s) == "TICKER" then None
    else RemoveAllNoLower(Upper(s), Suffix); Some(RemoveAll(Upper(s), Suffix))
  }

  /** Deleting text from a string with no lower-case letter leaves none. */
  lemma {:induction false} RemoveAllNoLower(s: string, pat: string)
    requires |pat| > 0 && NoLower(s)
    ensures NoLower(RemoveAll(s, pat))
    decreases |s|
  {
    if |s| == 0 {
    } else if StartsWith(s, pat) {
      RemoveAllNoLower(s[|pat|..], pat);
    } else {
      RemoveAllNoLower(s[1..], pat);
    }
  }

  /** The NIFTY50 set: the entries of all lines that are not skipped. */
  function Nifty50Set(lines: seq<string>): (r: set<string>)
    ensures forall b :: b in r <==> exists l :: l in lines && NiftyEntry(l) == Some(b)
  {
    set l | l in lines && NiftyEntry(l).Some? :: NiftyEntry(l).value
  }

  /** The header test: the set of field names (none for an empty file) is
      exactly {TICKER, NAME}, whatever their order or repetition. */
  predicate HeaderOk(header: Option<seq<string>>) {
    (set f | f in header.GetOr([])) == {"TICKER", "NAME"}
  }

  /** The header test in terms of the names: a header is accepted exactly
      when it names both columns and nothing else, in any order and with
      any repetition; a missing header is refused. */
  lemma HeaderOkMembers(header: Option<seq<string>>)
    ensures HeaderOk(header) <==>
              header.Some? && "TICKER" in header.value && "NAME" in header.value
              && forall f :: f in header.value ==> f == "TICKER" || f == "NAME"
  {
    var names := set f | f in header.GetOr([]);
    if header.Some? && "TICKER" in header.value && "NAME" in header.value
       && forall f :: f in header.value ==> f == "TICKER" || f == "NAME" {
      assert "TICKER" in names && "NAME" in names;
      assert names == {"TICKER", "NAME"};
    }
    if HeaderOk(header) {
      assert "TICKER" in names && "NAME" in names;
      forall f | f in header.value ensures f == "TICKER" || f == "NAME" {
        assert f in names;
      }
    }
  }

  /** The upper-cased, stripped ticker of a row with every `.NS` removed;
      `None` for a blank ticker. */
  function RowBase(row: UniverseRow): (r: Option<string>)
    ensures r.None? <==> Strip(row.ticker.GetOr("")) == ""
  {
    var raw := Strip(row.ticker.GetOr(""));
    if raw == "" then None else Some(RemoveAll(Upper(raw), Suffix))
  }

  /** The symbol a row is stored under: its base plus `.NS`. */
  function RowSymbol(row: UniverseRow): (r: Option<string>)
    ensures r.Some? <==> RowBase(row).Some?
  {
    match RowBase(row)
    case None => None
    case Some(b) => Some(b + Suffix)
  }

  /** A stored symbol ends with `.NS` and has no lower-case letter. */
  lemma RowSymbolShape(row: UniverseRow)
    requires RowSymbol(row).Some?
    ensures EndsWith(RowSymbol(row).value, Suffix) && NoLower(RowSymbol(row).value)
  {
    var raw := Strip(row.ticker.GetOr(""));
    RemoveAllNoLower(Upper(raw), Suffix);
    var b := RowBase(row).value;
    assert (b + Suffix)[|b + Suffix| - |Suffix|..] == Suffix;
  }

  /** The fields a row stores: its stripped name, and the tag exactly when
      its base is in the NIFTY50 set. */
  function RowRecord(row: UniverseRow, nifty: set<string>): (r: TickerRecord)
    requires RowBase(row).Some?
    ensures r.inNifty50 <==> RowBase(row).value in nifty
    ensures r.name == Strip(row.name.GetOr(""))
  {
    TickerRecord(Strip(row.name.GetOr("")), RowBase(row).value in nifty)
  }

  /** What one non-blank row writes: its symbol and fields. */
  datatype Entry = Entry(symbol: string, record: TickerRecord)

  function RowEntry(row: UniverseRow, nifty: set<string>): (e: Option<Entry>)
    ensures e.Some? <==> RowSymbol(row).Some?
    ensures e.Some? ==> e.value.symbol == RowSymbol(row).value && e.value.record == RowRecord(row, nifty)
  {
    match RowSymbol(row)
    case None => None
    case Some(sym) => Some(Entry(sym, RowRecord(row, nifty)))
  }

  /** The rows' writes in row order; `None` for a blank row. */
  function Entries(rows: seq<UniverseRow>, nifty: set<string>): (es: seq<Option<Entry>>)
    ensures |es| == |rows|
    ensures forall i :: 0 <= i < |rows| ==> es[i] == RowEntry(rows[i], nifty)
  {
    seq(|rows|, i requires 0 <= i < |rows| => RowEntry(rows[i], nifty))
  }

  /** `update_or_create` for one write; a blank row changes nothing. */
  function Upsert(db: map<string, TickerRecord>, e: Option<Entry>): map<string, TickerRecord>
  {
    match e
    case None => db
    case Some(Entry(sym, rec)) => db[sym := rec]
  }

  /** The table after the first `n` writes in order: the reference the
      command's loop is proved against. */
  function UpsertAll(db: map<string, TickerRecord>, es: seq<Option<Entry>>, n: nat): map<string, TickerRecord>
    requires n <= |es|
  {
    if n == 0 then db else Upsert(UpsertAll(db, es, n - 1), es[n - 1])
  }

  /** The symbols among the first `n` writes. */
  function Written(es: seq<Option<Entry>>, n: nat): set<string>
    requires n <= |es|
  {
    if n == 0 then {}
    else Written(es, n - 1) + (if es[n - 1].Some? then {es[n - 1].value.symbol} else {})
  }

  /** The number of non-blank rows among the first `n`. */
  function NonBlank(es: seq<Option<Entry>>, n: nat): nat
    requires n <= |es|
  {
    if n == 0 then 0 else NonBlank(es, n - 1) + (if es[n - 1].Some? then 1 else 0)
  }

  lemma {:induction false} WrittenMembers(es: seq<Option<Entry>>, n: nat, s: string)
    requires n <= |es|
    ensures s in Written(es, n) <==> exists i :: 0 <= i < n && es[i].Some? && es[i].value.symbol == s
  {
    if n > 0 {
      WrittenMembers(es, n - 1, s);
    }
  }

  /** The table keeps its old symbols and gains exactly the written ones. */
  lemma {:induction false} UpsertAllKeys(db: map<string, TickerRecord>, es: seq<Option<Entry>>, n: nat)
    requires n <= |es|
    ensures UpsertAll(db, es, n).Keys == db.Keys + Written(es, n)
  {
    if n > 0 {
      UpsertAllKeys(db, es, n - 1);
    }
  }

  /** A symbol no row writes keeps its old fields. */
  lemma {:induction false} UpsertAllUntouched(db: map<string, TickerRecord>, es: seq<Option<Entry>>, n: nat, s: string)
    requires n <= |es| && s in db
    requires forall i :: 0 <= i < n && es[i].Some? ==> es[i].value.symbol != s
    ensures s in UpsertAll(db, es, n) && UpsertAll(db, es, n)[s] == db[s]
  {
    if n > 0 {
      UpsertAllUntouched(db, es, n - 1, s);
    }
  }

  /** The last row writing a symbol decides its stored name and tag. */
  lemma {:induction false} UpsertAllLastWins(db: map<string, TickerRecord>, es: seq<Option<Entry>>, n: nat, i: nat)
    requires i < n <= |es| && es[i].Some?
    requires forall j :: i < j < n && es[j].Some? ==> es[j].value.symbol != es[i].value.symbol
    ensures es[i].value.symbol in UpsertAll(db, es, n)
    ensures UpsertAll(db, es, n)[es[i].value.symbol] == es[i].value.record
  {
    if i < n - 1 {
      UpsertAllLastWins(db, es, n - 1, i);
    }
  }

  /** A symbol in the NIFTY50 file, in any case and with or without `.NS`,
      is tagged when the universe lists it the same way. */
  lemma SameSpellingTagged(line: string, row: UniverseRow, nifty: seq<string>)
    requires line in nifty && NiftyEntry(line).Some?
    requires row.ticker == Some(line)
    ensures RowBase(row).Some? && RowRecord(row, Nifty50Set(nifty)).inNifty50
  {
    assert RowBase(row) == NiftyEntry(line);
  }

  /** `raw` spells the base symbol `b`: after stripping and upper-casing it
      is `b` itself or `b` with `.NS`. */
  predicate Spells(raw: string, b: string) {
    Upper(Strip(raw)) == b || Upper(Strip(raw)) == b + Suffix
  }

  /** A base symbol as the NSE lists it: non-empty, upper-case, without a
      dot or whitespace, and not one of the header words. */
  predicate PlainBase(b: string) {
    |b| > 0 && NoLower(b) && b != "SYMBOL" && b != "TICKER"
    && forall i :: 0 <= i < |b| ==> b[i] != '.' && !IsSpace(b[i])
  }

  /** Text without a dot holds no `.NS`. */
  lemma {:induction false} NoDotNoSuffix(b: string)
    requires '.' !in b
    ensures !Contains(b, Suffix)
    decreases |b|
  {
    assert !StartsWith(b, Suffix) by {
      if |Suffix| <= |b| {
        assert b[..|Suffix|][0] == b[0];
      }
    }
    if |b| > 0 {
      assert '.' !in b[1..] by {
        forall k | 0 <= k < |b| - 1 ensures b[1..][k] != '.' { assert b[1..][k] == b[k + 1]; }
      }
      NoDotNoSuffix(b[1..]);
    }
  }

  /** Removing `.NS` from either spelling of a dot-free base gives the base. */
  lemma BaseOfSpelling(raw: string, b: string)
    requires '.' !in b && Spells(raw, b)
    ensures RemoveAll(Upper(Strip(raw)), Suffix) == b
  {
    if Upper(Strip(raw)) == b {
      NoDotNoSuffix(b);
    } else {
      RemoveAllSuffix(b, Suffix);
    }
  }

  /** Every spelling of a base, in the NIFTY50 file or in the universe
      file, reads as that base, and the universe stores it as base + `.NS`. */
  lemma SpellingReadsAsBase(raw: string, b: string, name: Option<string>)
    requires PlainBase(b) && Spells(raw, b)
    ensures NiftyEntry(raw) == Some(b)
    ensures RowBase(UniverseRow(Some(raw), name)) == Some(b)
    ensures RowSymbol(UniverseRow(Some(raw), name)) == Some(b + Suffix)
  {
    var u := Upper(Strip(raw));
    assert '.' !in b;
    assert '.' in b + Suffix by {
      assert (b + Suffix)[|b|] == '.';
    }
    assert '.' !in "SYMBOL" && '.' !in "TICKER";
    assert u != "SYMBOL" && u != "TICKER";
    assert Strip(raw) != "";
    BaseOfSpelling(raw, b);
  }

  /** The spellings the loader is meant to accept for a base `b`: as is,
      lower-cased, and with `.NS` in either case between two blanks. */
  lemma SpellingVariants(b: string)
    requires PlainBase(b)
    ensures Spells(b, b) && Spells(Lower(b), b)
    ensures Spells(Padded(b + ".NS"), b) && Spells(Padded(Lower(b) + ".ns"), b)
  {
    SpellsLower(b);
    SpellsPaddedUpper(b);
    SpellsPaddedLower(b);
  }

  /** `x` with one blank on either side. */
  function Padded(x: string): string
  {
    " " + x + " "
  }

  lemma SpellsLower(b: string)
    requires PlainBase(b)
    ensures Spells(b, b) && Spells(Lower(b), b)
  {
    var lb := Lower(b);
    assert !IsSpace(lb[0]) && !IsSpace(lb[|lb| - 1]);
    StripUnchanged(b);
    StripUnchanged(lb);
    UpperUnchanged(b);
    UpperOfLower(b);
  }

  lemma SpellsPaddedUpper(b: string)
    requires PlainBase(b)
    ensures Spells(Padded(b + ".NS"), b)
  {
    SuffixedEnds(b, ".NS");
    UpperSuffixed(b);
    PaddedSpellsBase(b + ".NS", b);
  }

  lemma SpellsPaddedLower(b: string)
    requires PlainBase(b)
    ensures Spells(Padded(Lower(b) + ".ns"), b)
  {
    LowerFirstNotSpace(b);
    SuffixedEnds(Lower(b), ".ns");
    UpperLowerSuffixed(b);
    PaddedSpellsBase(Lower(b) + ".ns", b);
  }

  /** Padding aside, text that upper-cases to base + `.NS` spells the base. */
  lemma PaddedSpellsBase(x: string, b: string)
    requires |x| > 0 && !IsSpace(x[0]) && !IsSpace(x[|x| - 1])
    requires Upper(x) == b + Suffix
    ensures Spells(Padded(x), b)
  {
    StripPadded(x);
  }

  /** Gluing keeps the first character of the front and the last of the back. */
  lemma SuffixedEnds(p: string, s: string)
    requires |p| > 0 && !IsSpace(p[0]) && |s| > 0 && !IsSpace(s[|s| - 1])
    ensures |p + s| > 0 && !IsSpace((p + s)[0]) && !IsSpace((p + s)[|p + s| - 1])
  {
    assert (p + s)[0] == p[0];
    assert (p + s)[|p + s| - 1] == s[|s| - 1];
  }

  /** Lower-casing a letter never makes it whitespace. */
  lemma LowerFirstNotSpace(b: string)
    requires |b| > 0 && !IsSpace(b[0])
    ensures |Lower(b)| > 0 && !IsSpace(Lower(b)[0])
  {
    assert Lower(b)[0] == LowerChar(b[0]);
  }

  lemma UpperSuffixed(b: string)
    requires NoLower(b)
    ensures Upper(b + ".NS") == b + Suffix
  {
    var x := b + ".NS";
    forall i | 0 <= i < |x| ensures !('a' <= x[i] <= 'z') {
      if i < |b| { assert x[i] == b[i]; }
    }
    UpperUnchanged(x);
  }

  lemma UpperLowerSuffixed(b: string)
    requires NoLower(b)
    ensures Upper(Lower(b) + ".ns") == b + Suffix
  {
    UpperConcat(Lower(b), ".ns");
    UpperOfLower(b);
    UpperNs();
  }

  lemma UpperNs()
    ensures Upper(".ns") == Suffix
  {
    assert UpperChar('n') == 'N' && UpperChar('s') == 'S';
  }

  /** A symbol in the NIFTY50 file is tagged whenever the universe lists
      it, whatever the case, surrounding blanks or `.NS` of either file;
      the row is stored under the base plus `.NS`. */
  lemma AnySpellingTagged(line: string, row: UniverseRow, nifty: seq<string>, b: string)
    requires PlainBase(b) && line in nifty && Spells(line, b)
    requires row.ticker.Some? && Spells(row.ticker.value, b)
    ensures RowSymbol(row) == Some(b + Suffix)
    ensures RowRecord(row, Nifty50Set(nifty)).inNifty50
  {
    SpellingReadsAsBase(line, b, None);
    SpellingReadsAsBase(row.ticker.value, b, row.name);
    assert row == UniverseRow(Some(row.ticker.value), row.name);
  }

  /** The command. With a file missing, or a universe header other than
      {TICKER, NAME}, nothing is upserted. Otherwise every non-blank row is
      upserted in order; `created` counts the rows whose symbol is neither
      in the table nor written by an earlier row, and `created + updated`
      the non-blank rows. */
  method Load(filesPresent: bool, niftyLines: seq<string>, header: Option<seq<string>>,
              rows: seq<UniverseRow>, db: map<string, TickerRecord>)
    returns (out: LoadOutcome)
    ensures !filesPresent ==> out == MissingFiles
    ensures filesPresent && !HeaderOk(header) ==> out == BadHeader
    ensures filesPresent && HeaderOk(header) ==>
              var es := Entries(rows, Nifty50Set(niftyLines));
              out.Loaded?
              && out.db == UpsertAll(db, es, |es|)
              && out.created == NewCount(db, es, |es|)
              && out.created + out.updated == NonBlank(es, |es|)
  {
    if !filesPresent {
      return MissingFiles;
    }
    var nifty := Nifty50Set(niftyLines);
    if !HeaderOk(header) {
      return BadHeader;
    }
    var es := Entries(rows, nifty);
    var cur, created, updated := UpsertRows(db, es);
    return Loaded(cur, created, updated);
  }

  /** Row `i` writes a symbol the table lacks and no earlier row wrote. */
  predicate FirstNew(db: map<string, TickerRecord>, es: seq<Option<Entry>>, i: nat)
    requires i < |es|
  {
    es[i].Some? && es[i].value.symbol !in db
    && forall j :: 0 <= j < i && es[j].Some? ==> es[j].value.symbol != es[i].value.symbol
  }

  /** How many of the first `n` rows are `FirstNew`. */
  function NewCount(db: map<string, TickerRecord>, es: seq<Option<Entry>>, n: nat): nat
    requires n <= |es|
  {
    if n == 0 then 0 else NewCount(db, es, n - 1) + (if FirstNew(db, es, n - 1) then 1 else 0)
  }

  /** A row's symbol is absent from the table built so far exactly when the
      row is `FirstNew`. */
  lemma AbsentIffFirstNew(db: map<string, TickerRecord>, es: seq<Option<Entry>>, k: nat)
    requires k < |es| && es[k].Some?
    ensures es[k].value.symbol !in UpsertAll(db, es, k) <==> FirstNew(db, es, k)
  {
    UpsertAllKeys(db, es, k);
    WrittenMembers(es, k, es[k].value.symbol);
  }

  /** The upsert loop over the rows' writes, counting each as a creation
      when its symbol is not yet in the table and as an update otherwise. */
  method UpsertRows(db: map<string, TickerRecord>, es: seq<Option<Entry>>)
    returns (cur: map<string, TickerRecord>, created: nat, updated: nat)
    ensures cur == UpsertAll(db, es, |es|)
    ensures created == NewCount(db, es, |es|)
    ensures created + updated == NonBlank(es, |es|)
  {
    cur := db;
    created := 0;
    updated := 0;
    var k := 0;
    while k < |es|
      invariant 0 <= k <= |es|
      invariant cur == UpsertAll(db, es, k)
      invariant created == NewCount(db, es, k)
      invariant created + updated == NonBlank(es, k)
    {
      var e := es[k];
      if e.Some? {
        AbsentIffFirstNew(db, es, k);
        if e.value.symbol !in cur {
          created := created + 1;
        } else {
          updated := updated + 1;
        }
        cur := cur[e.value.symbol := e.value.record];
      }
      k := k + 1;
    }
  }
}

=== FILE: monthly_ma_service.dfy ===
/** The monthly moving-average proximity scan of
    `screener/services_ma_monthly.py`: for each requested window, the
    symbols whose last monthly close lies within a tolerance of that
    window's simple moving average, closest first. */
module MonthlyMaService {
  import opened Wrappers
  import opened Numbers
  import opened Series
  import opened Ranking
  import opened Symbols
  import opened Text
  import VolumeService

  datatype SmaDistance = SmaDistance(close: real, sma: real, distPct: real)

  /** `_sma_distance_monthly`: the last close, the mean of the last `n`
      closes and the signed distance between them in percent of the mean;
      nothing for fewer than `n` closes or a zero mean. */
  function SmaDistanceMonthly(close: seq<real>, n: int): (r: Option<SmaDistance>)
    requires n > 0
    ensures r.Some? <==> |close| >= n && Sum(close[|close| - n..]) != 0.0
    ensures r.Some? ==> r.value.close == close[|close| - 1]
    ensures r.Some? ==> r.value.sma * n as real == Sum(close[|close| - n..])
    ensures r.Some? ==> r.value.sma != 0.0
                        && r.value.distPct * r.value.sma == 100.0 * (r.value.close - r.value.sma)
  {
    if |close| < n then None
    else
      var sma := RollingMean(close, n)[|close| - 1].value;
      assert close[|close| - n..|close|] == close[|close| - n..];
      if sma == 0.0 then None
      else
        var c := close[|close| - 1];
        var d := 100.0 * (c - sma) / sma;
        assert d * sma == 100.0 * (c - sma);
        Some(SmaDistance(c, sma, d))
  }

  /** With positive closes the mean is positive, so the distance is
      positive exactly when the close is above the mean, and zero exactly
      when they are equal. */
  lemma DistanceSign(close: seq<real>, n: int)
    requires n > 0 && |close| >= n
    requires forall i :: 0 <= i < |close| ==> close[i] > 0.0
    ensures SmaDistanceMonthly(close, n).Some?
    ensures var d := SmaDistanceMonthly(close, n).value;
            d.sma > 0.0 && (d.distPct > 0.0 <==> d.close > d.sma) && (d.distPct == 0.0 <==> d.close == d.sma)
  {
    var w := close[|close| - n..];
    SumPositive(w);
    var d := SmaDistanceMonthly(close, n).value;
    assert d.sma > 0.0;
    if d.distPct > 0.0 {
      assert d.distPct * d.sma > 0.0;
    } else {
      assert d.distPct * d.sma <= 0.0;
    }
    if d.close > d.sma {
      assert 100.0 * (d.close - d.sma) > 0.0;
    }
  }

  lemma {:induction false} SumPositive(s: seq<real>)
    requires |s| > 0
    requires forall i :: 0 <= i < |s| ==> s[i] > 0.0
    ensures Sum(s) > 0.0
  {
    SumNonNegative(s[..|s| - 1]);
  }

  /** One window's numbers for one symbol: the mean and the distance
      rounded to three places. */
  datatype MaCell = MaCell(sma: real, distPct: real)

  /** The per-symbol row: one optional cell per requested window, and the
      last close, present once any window had a value. */
  datatype MonthlyRow = MonthlyRow(symbol: string, base: string, close: Option<real>,
                                   cells: map<int, Option<MaCell>>)

  function CellOf(closes: seq<real>, m: int): (c: Option<MaCell>)
    requires m > 0
    ensures c.Some? <==> SmaDistanceMonthly(closes, m).Some?
    ensures c.Some? ==> c.value.distPct == Round3(SmaDistanceMonthly(closes, m).value.distPct)
  {
    match SmaDistanceMonthly(closes, m)
    case None => None
    case Some(d) => Some(MaCell(d.sma, Round3(d.distPct)))
  }

  /** The scan's per-symbol task on the symbol's monthly closes. */
  function MonthlyTask(sym: string, maList: seq<int>, fetch: string -> Option<seq<real>>)
    : (r: Option<MonthlyRow>)
    requires forall i :: 0 <= i < |maList| ==> maList[i] > 0
    ensures r.Some? <==> fetch(sym).Some?
    ensures r.Some? ==> r.value.symbol == sym && r.value.cells.Keys == set m | m in maList
    ensures r.Some? ==> forall m :: m in maList ==> r.value.cells[m] == CellOf(fetch(sym).value, m)
    ensures r.Some? ==> (r.value.close.Some? <==> exists m :: m in maList && r.value.cells[m].Some?)
    ensures r.Some? && r.value.close.Some? ==>
              |fetch(sym).value| > 0 && r.value.close.value == fetch(sym).value[|fetch(sym).value| - 1]
  {
    match fetch(sym)
    case None => None
    case Some(closes) =>
      var cells := map m | m in maList :: CellOf(closes, m);
      var anyValue := exists m :: m in maList && CellOf(closes, m).Some?;
      var close := if anyValue then Some(closes[|closes| - 1]) else None;
      Some(MonthlyRow(sym, RemoveAll(sym, Suffix), close, cells))
  }

  function MonthlyOutcomes(symbols: seq<string>, maList: seq<int>, fetch: string -> Option<seq<real>>)
    : (r: seq<Option<MonthlyRow>>)
    requires forall i :: 0 <= i < |maList| ==> maList[i] > 0
    ensures |r| == |symbols|
    ensures forall i :: 0 <= i < |symbols| ==> r[i] == MonthlyTask(symbols[i], maList, fetch)
  {
    seq(|symbols|, i requires 0 <= i < |symbols| => MonthlyTask(symbols[i], maList, fetch))
  }

  /** One entry of a window's bucket. `close` and `sma` are rounded to two
      places; `distancePct` is the three-place distance the filter saw. */
  datatype MaMatch = MaMatch(symbol: string, display: string, close: real, sma: real,
                             distancePct: real, inNifty50: bool)

  /** The row's entry for window `m`, when the window has a value and its
      rounded distance is within `tol * 100` percent. */
  function MatchFor(row: MonthlyRow, m: int, tol: real, tags: map<string, bool>): (r: Option<MaMatch>)
    ensures r.Some? ==> Abs(r.value.distancePct) <= tol * 100.0
    ensures r.Some? ==> r.value.symbol == row.symbol
  {
    if m !in row.cells || row.cells[m].None? || row.close.None? then None
    else
      var cell := row.cells[m].value;
      if Abs(cell.distPct) <= tol * 100.0 then
        var in50 := In50(tags, row.symbol);
        Some(MaMatch(row.symbol, row.base + (if in50 then Nifty50Tag else ""),
                     Round2(row.close.value), Round2(cell.sma), cell.distPct, in50))
      else None
  }

  /** A symbol enters window `m`'s bucket on the strength of that window
      alone: its own mean exists and its own rounded distance is within the
      tolerance, whatever the other windows hold. */
  lemma MatchForWindow(sym: string, maList: seq<int>, fetch: string -> Option<seq<real>>,
                       m: int, tol: real, tags: map<string, bool>)
    requires forall i :: 0 <= i < |maList| ==> maList[i] > 0
    requires MonthlyTask(sym, maList, fetch).Some?
    ensures var row := MonthlyTask(sym, maList, fetch).value;
            MatchFor(row, m, tol, tags).Some? <==>
              m in maList && SmaDistanceMonthly(fetch(sym).value, m).Some?
              && Abs(Round3(SmaDistanceMonthly(fetch(sym).value, m).value.distPct)) <= tol * 100.0
    ensures var row := MonthlyTask(sym, maList, fetch).value;
            MatchFor(row, m, tol, tags).Some? ==>
              var d := SmaDistanceMonthly(fetch(sym).value, m).value;
              var x := MatchFor(row, m, tol, tags).value;
              x.close == Round2(d.close) && x.sma == Round2(d.sma) && x.distancePct == Round3(d.distPct)
              && x.inNifty50 == In50(tags, sym) && x.display == Display(sym, x.inNifty50)
  {
  }

  /** Closest first; among equal distances, the higher (rounded) close. */
  function MaKey(x: MaMatch): Key {
    Key(Abs(x.distancePct), -x.close)
  }

  predicate CloserThan(a: MaMatch, b: MaMatch) {
    Abs(a.distancePct) < Abs(b.distancePct)
    || (Abs(a.distancePct) == Abs(b.distancePct) && a.close >= b.close)
  }

  lemma MaKeyOrder(a: MaMatch, b: MaMatch)
    ensures KeyLe(MaKey(a), MaKey(b)) <==> CloserThan(a, b)
  {
  }

  /** Window `m`'s candidates, in the order of `rows`. */
  function Candidates(rows: seq<MonthlyRow>, m: int, tol: real, tags: map<string, bool>): seq<MaMatch> {
    FilterMap((row: MonthlyRow) => MatchFor(row, m, tol, tags), rows)
  }

  /** The candidates are exactly the matches of the rows, at most one per
      row. */
  lemma CandidatesMembers(rows: seq<MonthlyRow>, m: int, tol: real, tags: map<string, bool>)
    ensures |Candidates(rows, m, tol, tags)| <= |rows|
    ensures forall x :: x in Candidates(rows, m, tol, tags) <==>
              exists i :: 0 <= i < |rows| && MatchFor(rows[i], m, tol, tags) == Some(x)
  {
  }

  /** A row that matches window `m` contributes its match. */
  lemma MatchIsCandidate(rows: seq<MonthlyRow>, row: MonthlyRow, m: int, tol: real, tags: map<string, bool>)
    requires row in rows && MatchFor(row, m, tol, tags).Some?
    ensures MatchFor(row, m, tol, tags).value in Candidates(rows, m, tol, tags)
  {
    var i :| 0 <= i < |rows| && rows[i] == row;
    CandidatesMembers(rows, m, tol, tags);
  }

  /** Window `m`'s bucket: its candidates ranked and cut to `max(1, limit)`. */
  function Bucket(rows: seq<MonthlyRow>, m: int, tol: real, limit: int, tags: map<string, bool>)
    : (r: seq<MaMatch>)
    ensures |r| == Min(|Candidates(rows, m, tol, tags)|, Max(1, limit))
    ensures forall i, j :: 0 <= i < j < |r| ==> CloserThan(r[i], r[j])
    ensures forall x :: x in r ==> Abs(x.distancePct) <= tol * 100.0
    ensures multiset(r) <= multiset(Candidates(rows, m, tol, tags))
    ensures forall x, y :: x in multiset(Candidates(rows, m, tol, tags)) - multiset(r) && y in r ==>
              CloserThan(y, x)
  {
    var cands := Candidates(rows, m, tol, tags);
    var r := TopK(cands, MaKey, limit);
    forall i, j | 0 <= i < j < |r| ensures CloserThan(r[i], r[j]) {
      MaKeyOrder(r[i], r[j]);
    }
    forall x | x in r ensures Abs(x.distancePct) <= tol * 100.0 {
      assert x in multiset(r);
      assert x in cands;
    }
    forall x, y | x in multiset(cands) - multiset(r) && y in r ensures CloserThan(y, x) {
      MaKeyOrder(y, x);
    }
    r
  }

  /** Reordering the gathered rows permutes every window's candidates. */
  lemma CandidatesPermutation(a: seq<MonthlyRow>, b: seq<MonthlyRow>, m: int, tol: real,
                              tags: map<string, bool>)
    requires multiset(a) == multiset(b)
    ensures multiset(Candidates(a, m, tol, tags)) == multiset(Candidates(b, m, tol, tags))
  {
    FilterMapPermutation((row: MonthlyRow) => MatchFor(row, m, tol, tags), a, b);
  }

  /** `scan_monthly_ma`. `completed` lists the per-symbol rows in the order
      the thread pool delivered them. There is one bucket per distinct
      window; each holds, closest first, at most `max(1, limit)` matches of
      that window, all within the tolerance, and no candidate of the window
      left out is closer than one kept. */
  function ScanMonthlyMa(symbols: seq<string>, maList: seq<int>, tol: real, limit: int,
                         fetch: string -> Option<seq<real>>, tags: map<string, bool>,
                         completed: seq<Option<MonthlyRow>>)
    : (r: map<int, seq<MaMatch>>)
    requires forall i :: 0 <= i < |maList| ==> maList[i] > 0
    requires multiset(completed) == multiset(MonthlyOutcomes(symbols, maList, fetch))
    ensures r.Keys == set m | m in maList
    ensures forall m :: m in r ==> |r[m]| <= Max(1, limit)
    ensures forall m :: m in r ==> forall i, j :: 0 <= i < j < |r[m]| ==> CloserThan(r[m][i], r[m][j])
    ensures forall m :: m in r ==> forall x :: x in r[m] ==> Abs(x.distancePct) <= tol * 100.0
    ensures var rows := Somes(MonthlyOutcomes(symbols, maList, fetch));
            forall m :: m in r ==>
              multiset(r[m]) <= multiset(Candidates(rows, m, tol, tags))
              && |r[m]| == Min(|Candidates(rows, m, tol, tags)|, Max(1, limit))
              && forall x, y :: x in multiset(Candidates(rows, m, tol, tags)) - multiset(r[m]) && y in r[m] ==>
                   CloserThan(y, x)
  {
    var rows := Somes(completed);
    var r := map m | m in maList :: Bucket(rows, m, tol, limit, tags);
    SomesPermutation(completed, MonthlyOutcomes(symbols, maList, fetch));
    forall m | m in r
      ensures multiset(Candidates(rows, m, tol, tags))
              == multiset(Candidates(Somes(MonthlyOutcomes(symbols, maList, fetch)), m, tol, tags))
    {
      CandidatesPermutation(rows, Somes(MonthlyOutcomes(symbols, maList, fetch)), m, tol, tags);
    }
    r
  }

  /** The buckets of two completion orders carry the same distances and
      closes position by position: they differ at most in which of several
      tied matches is kept. */
  lemma ScanOrderIndependent(symbols: seq<string>, maList: seq<int>, tol: real, limit: int,
                             fetch: string -> Option<seq<real>>, tags: map<string, bool>,
                             run1: seq<Option<MonthlyRow>>, run2: seq<Option<MonthlyRow>>)
    requires forall i :: 0 <= i < |maList| ==> maList[i] > 0
    requires multiset(run1) == multiset(MonthlyOutcomes(symbols, maList, fetch))
    requires multiset(run2) == multiset(MonthlyOutcomes(symbols, maList, fetch))
    ensures var a := ScanMonthlyMa(symbols, maList, tol, limit, fetch, tags, run1);
            var b := ScanMonthlyMa(symbols, maList, tol, limit, fetch, tags, run2);
            a.Keys == b.Keys && forall m :: m in a ==> Keys(a[m], MaKey) == Keys(b[m], MaKey)
  {
    var a := ScanMonthlyMa(symbols, maList, tol, limit, fetch, tags, run1);
    var b := ScanMonthlyMa(symbols, maList, tol, limit, fetch, tags, run2);
    SomesPermutation(run1, run2);
    forall m | m in a ensures Keys(a[m], MaKey) == Keys(b[m], MaKey) {
      CandidatesPermutation(Somes(run1), Somes(run2), m, tol, tags);
      RankingDeterministic(Candidates(Somes(run1), m, tol, tags), Candidates(Somes(run2), m, tol, tags), MaKey, limit);
    }
  }

  /** `get_universe` without the shared loader: the CSV file read directly,
      sorted and de-duplicated. A missing file gives no symbol; an
      unreadable file or one without columns raises, modelled as `None`. */
  function FallbackUniverse(file: VolumeService.CsvFile): (r: Option<seq<string>>)
    ensures file.Missing? ==> r == Some([])
    ensures file.Unreadable? ==> r.None?
    ensures r.Some? ==> StrictlySorted(r.value)
    ensures r.Some? ==> forall i :: 0 <= i < |r.value| ==> IsNormalised(r.value[i])
  {
    match file
    case Missing => Some([])
    case Unreadable => None
    case Parsed(columns, rows) =>
      match VolumeService.TableSymbols(columns, rows)
      case None => None
      case Some(syms) =>
        SortedUniqueNormalised(syms);
        Some(SortedUnique(syms))
  }

  /** Sorting and de-duplicating keeps every symbol well formed. */
  lemma SortedUniqueNormalised(syms: seq<string>)
    requires forall i :: 0 <= i < |syms| ==> IsNormalised(syms[i])
    ensures forall i :: 0 <= i < |SortedUnique(syms)| ==> IsNormalised(SortedUnique(syms)[i])
  {
    var r := SortedUnique(syms);
    forall i | 0 <= i < |r| ensures IsNormalised(r[i]) {
      assert r[i] in syms;
    }
  }

  /** `get_universe`: the shared loader when it is importable, the direct
      read otherwise. */
  function GetUniverse(universe: string, loaderAvailable: bool, cached: Option<seq<string>>,
                       file: VolumeService.CsvFile, tickerSymbols: Option<seq<string>>)
    : (r: Option<seq<string>>)
    ensures loaderAvailable ==> r == Some(VolumeService.LoadUniverseSymbols(universe, cached, file, tickerSymbols))
    ensures !loaderAvailable ==> r == FallbackUniverse(file)
  {
    if loaderAvailable then Some(VolumeService.LoadUniverseSymbols(universe, cached, file, tickerSymbols))
    else FallbackUniverse(file)
  }

  lemma LowerNifty100()
    ensures Lower("nifty100") == "nifty100"
  {
    forall i | 0 <= i < 8 ensures Lower("nifty100")[i] == "nifty100"[i] {
    }
  }

  /** On a readable file with columns, the direct read lists exactly what
      the shared loader lists for `nifty100` on a cache miss. */
  lemma FallbackMatchesLoader(file: VolumeService.CsvFile, tickerSymbols: Option<seq<string>>)
    requires file.Parsed? && |file.columns| > 0
    ensures FallbackUniverse(file) == Some(VolumeService.LoadUniverseSymbols("nifty100", None, file, tickerSymbols))
  {
    var syms := VolumeService.TableSymbols(file.columns, file.rows).value;
    assert VolumeService.ReadSymbolList(file) == syms;
    LowerNifty100();
  }
}

=== FILE: monthly_ma_view.dfy ===
/** The `/api/ma_monthly` view of `screener/views_ma_monthly.py`: parse the
    query, pick the symbols, consult the cache and build the per-window
    payload from the monthly scan. */
module MonthlyMaView {
  import opened Wrappers
  import opened Text
  import opened Numbers
  import opened Ranking
  import opened Symbols
  import opened RequestParams
  import opened MonthlyMaService

  const DefaultMaParam: string := "50,100"
  const DefaultMaList: seq<int> := [50, 100]
  const DefaultTol: real := 0.003
  const DefaultLimit: int := 50

  predicate AllPositive(ms: seq<int>) {
    forall i :: 0 <= i < |ms| ==> ms[i] > 0
  }

  /** One token of `ma`: stripped, skipped when blank, not an integer or
      not positive. */
  function MaToken(tok: string): (r: Option<int>)
    ensures r.Some? ==> r.value > 0
  {
    var t := Strip(tok);
    if t == "" then None
    else
      match ParseInt(t)
      case None => None
      case Some(v) => if v > 0 then Some(v) else None
  }

  /** The tokens of the `ma` parameter (its default when missing or empty). */
  function MaTokens(raw: Option<string>): (toks: seq<string>)
    ensures |toks| >= 1
    ensures forall i :: 0 <= i < |toks| ==> ',' !in toks[i]
  {
    Split(Strip(if raw.None? || raw.value == "" then DefaultMaParam else raw.value), ',')
  }

  /** Nothing of a given `ma` is lost by tokenising: the tokens, joined by
      commas, give the stripped parameter back. */
  lemma MaTokensJoin(raw: string)
    requires raw != ""
    ensures Join(MaTokens(Some(raw)), ',') == Strip(raw)
  {
    JoinSplit(Strip(raw), ',');
  }

  /** The window list from the tokens: the valid ones in the order given,
      or [50, 100] when none is valid. It is never empty and holds only
      positive windows. */
  function WindowsOf(toks: seq<string>): (r: seq<int>)
    ensures |r| > 0 && AllPositive(r)
    ensures (exists i :: 0 <= i < |toks| && MaToken(toks[i]).Some?) ==> r == FilterMap(MaToken, toks)
    ensures (forall i :: 0 <= i < |toks| ==> MaToken(toks[i]).None?) ==> r == DefaultMaList
  {
    var valid := FilterMap(MaToken, toks);
    if |valid| == 0 then DefaultMaList
    else
      assert forall i :: 0 <= i < |valid| ==> valid[i] in valid;
      assert valid[0] in valid;
      valid
  }

  /** `ma` parsed into the window list. */
  function ParseMaList(raw: Option<string>): (r: seq<int>)
    ensures |r| > 0 && AllPositive(r)
  {
    WindowsOf(MaTokens(raw))
  }

  /** Python's `str` of each window. */
  function IntStrings(ms: seq<int>): (r: seq<string>)
    ensures |r| == |ms| && forall i :: 0 <= i < |ms| ==> r[i] == IntToString(ms[i])
  {
    seq(|ms|, i requires 0 <= i < |ms| => IntToString(ms[i]))
  }

  /** `",".join(str(m) for m in ms)`. */
  function JoinInts(ms: seq<int>): string {
    Join(IntStrings(ms), ',')
  }

  /** A token is kept exactly when its stripped text reads as a positive
      integer, and it is kept as that integer. */
  lemma MaTokenKeeps(tok: string)
    ensures MaToken(tok).Some? <==> ParseInt(Strip(tok)).Some? && ParseInt(Strip(tok)).value > 0
    ensures MaToken(tok).Some? ==> MaToken(tok).value == ParseInt(Strip(tok)).value
  {
  }

  /** A positive window written as Python writes it is a valid token. */
  lemma MaTokenOfString(m: int)
    requires m > 0
    ensures MaToken(IntToString(m)) == Some(m)
  {
    var s := IntToString(m);
    assert s == NatToString(m);
    StripUnchanged(s);
    ParseIntOfString(m);
  }

  /** Writing a non-empty list of positive windows as the `ma` parameter
      reads back the same list, order and repetitions included. */
  lemma MaListRoundTrip(ms: seq<int>)
    requires |ms| > 0 && AllPositive(ms)
    ensures ParseMaList(Some(JoinInts(ms))) == ms
  {
    var parts := IntStrings(ms);
    forall i | 0 <= i < |parts| ensures AllDigits(parts[i]) {
      assert parts[i] == NatToString(ms[i]);
    }
    assert forall i, j :: 0 <= i < |parts| && 0 <= j < |parts[i]| ==> !IsSpace(parts[i][j]);
    assert forall i :: 0 <= i < |parts| ==> ',' !in parts[i];
    var src := JoinInts(ms);
    assert |parts[0]| > 0;
    assert |src| > 0 by {
      if |parts| > 1 {
        assert src == parts[0] + [','] + Join(parts[1..], ',');
      }
    }
    JoinNoSpace(parts, ',');
    StripUnchanged(src);
    SplitJoin(parts, ',');
    assert MaTokens(Some(src)) == parts;
    forall i | 0 <= i < |parts| ensures MaToken(parts[i]) == Some(ms[i]) {
      MaTokenOfString(ms[i]);
    }
    FilterMapAllMapped(MaToken, parts, ms);
  }

  lemma DefaultSpelling()
    ensures JoinInts(DefaultMaList) == DefaultMaParam
  {
    assert IntToString(50) == "50" by {
      assert NatToString(5) == "5";
    }
    assert IntToString(100) == "100" by {
      assert NatToString(1) == "1";
      assert NatToString(10) == "10";
    }
    assert IntStrings(DefaultMaList) == ["50", "100"];
  }

  /** A missing or empty `ma` gives [50, 100]. */
  lemma MaListDefault()
    ensures ParseMaList(None) == DefaultMaList
    ensures ParseMaList(Some("")) == DefaultMaList
  {
    DefaultSpelling();
    MaListRoundTrip(DefaultMaList);
    assert MaTokens(None) == MaTokens(Some("")) == MaTokens(Some(JoinInts(DefaultMaList)));
  }

  /** The knobs of one request. `override` is the explicit symbol list,
      if one was given. */
  datatype MonthlyRequest = MonthlyRequest(maList: seq<int>, tol: real, limit: int, universe: string,
                                           refresh: bool, override: Option<seq<string>>)

  function ParseRequest(q: Query): (r: MonthlyRequest)
    ensures |r.maList| > 0 && AllPositive(r.maList)
    ensures "tol" !in q ==> r.tol == DefaultTol
    ensures "limit" !in q ==> r.limit == DefaultLimit
    ensures r.refresh <==> "refresh" in q && q["refresh"] in TrueWords
    ensures r.override.Some? ==> forall i :: 0 <= i < |r.override.value| ==> IsNormalised(r.override.value[i])
  {
    MonthlyRequest(ParseMaList(Param(q, "ma")),
                   FloatParam(Param(q, "tol"), DefaultTol),
                   IntParam(Param(q, "limit"), DefaultLimit),
                   UniverseParam(Param(q, "universe")),
                   Flag(Param(q, "refresh")),
                   SymbolOverride(Param(q, "symbols")))
  }
  /** `?tol=I.F` sets the tolerance to the decimal I.F, e.g. `tol=0.005`. */
  lemma TolQuery(q: Query, ip: string, fp: string)
    requires |ip| > 0 && AllDigits(ip) && AllDigits(fp)
    requires "tol" in q && q["tol"] == ip + "." + fp
    ensures ParseRequest(q).tol == DecimalValue(ip, fp)
  {
    FloatParamOfDecimal(ip, fp, DefaultTol);
  }


  /** The symbols scanned: the override, else the universe as
      `get_universe` returns it (`None` when it raises). */
  function RequestSymbols(req: MonthlyRequest, universeOf: string -> Option<seq<string>>)
    : (syms: Option<seq<string>>)
    ensures req.override.Some? ==> syms == req.override
    ensures req.override.None? ==> syms == universeOf(req.universe)
  {
    if req.override.Some? then req.override else universeOf(req.universe)
  }

  /** The cache key exactly as the view spells it: universe, sorted
      windows, tolerance to four places, limit, and only the NUMBER of
      symbols. */
  datatype KeyAsWritten = KeyAsWritten(universe: string, maSorted: seq<int>, tol4: real, limit: int, nsyms: nat)

  function CacheKeyAsWritten(req: MonthlyRequest, symbols: seq<string>): (k: KeyAsWritten)
    ensures k.nsyms == |symbols| && multiset(k.maSorted) == multiset(req.maList)
  {
    KeyAsWritten(req.universe, SortInts(req.maList), Round4(req.tol), req.limit, |symbols|)
  }

  /** The cache key the payload actually depends on: the symbol list
      itself and the exact tolerance. Windows stay sorted, so permuted
      `ma` lists still share an entry. */
  datatype CacheKey = CacheKey(universe: string, maSorted: seq<int>, tol: real, limit: int, symbols: seq<string>)

  function MakeCacheKey(req: MonthlyRequest, symbols: seq<string>): (k: CacheKey)
    ensures k.symbols == symbols && multiset(k.maSorted) == multiset(req.maList)
  {
    CacheKey(req.universe, SortInts(req.maList), req.tol, req.limit, symbols)
  }

  /** Permuting the `ma` list changes neither key. */
  lemma PermutedWindowsShareKey(r1: MonthlyRequest, r2: MonthlyRequest, symbols: seq<string>)
    requires multiset(r1.maList) == multiset(r2.maList)
    requires r1.universe == r2.universe && r1.tol == r2.tol && r1.limit == r2.limit
    ensures CacheKeyAsWritten(r1, symbols) == CacheKeyAsWritten(r2, symbols)
    ensures MakeCacheKey(r1, symbols) == MakeCacheKey(r2, symbols)
  {
    SortIntsPermutation(r1.maList, r2.maList);
  }

  datatype MonthlyPayload = MonthlyPayload(universe: string, maList: seq<int>, tol: real, limit: int,
                                           countByMa: map<string, int>, results: map<string, seq<MaMatch>>)

  function BucketOf(buckets: map<int, seq<MaMatch>>, m: int): seq<MaMatch> {
    if m in buckets then buckets[m] else []
  }

  /** The keys of the response maps: the windows' decimal spellings. */
  function WindowKeys(ms: seq<int>): (r: set<string>)
    ensures forall m :: m in ms ==> IntToString(m) in r
    ensures forall k :: k in r ==> exists i :: 0 <= i < |ms| && k == IntToString(ms[i])
  {
    var names := IntStrings(ms);
    assert forall i :: 0 <= i < |ms| ==> names[i] in names;
    set k | k in names
  }

  /** The window a key spells. */
  function KeyWindow(k: string): int {
    ParseInt(k).GetOr(0)
  }

  /** The response body: per window, keyed by its decimal spelling, the
      bucket and its size. */
  function BuildPayload(req: MonthlyRequest, buckets: map<int, seq<MaMatch>>): (p: MonthlyPayload)
    ensures p.universe == req.universe && p.maList == req.maList && p.tol == req.tol && p.limit == req.limit
    ensures p.results.Keys == WindowKeys(req.maList) && p.countByMa.Keys == p.results.Keys
    ensures forall m :: m in req.maList ==>
              IntToString(m) in p.results
              && p.results[IntToString(m)] == BucketOf(buckets, m)
              && p.countByMa[IntToString(m)] == |p.results[IntToString(m)]|
  {
    var keys := WindowKeys(req.maList);
    var results := map k | k in keys :: BucketOf(buckets, KeyWindow(k));
    var counts := map k | k in keys :: |BucketOf(buckets, KeyWindow(k))|;
    forall m | m in req.maList ensures KeyWindow(IntToString(m)) == m {
      ParseIntOfString(m);
    }
    MonthlyPayload(req.universe, req.maList, req.tol, req.limit, counts, results)
  }

  /** A scheduler: the completion order of a batch of tasks. */
  ghost predicate IsScheduler(schedule: seq<Option<MonthlyRow>> -> seq<Option<MonthlyRow>>) {
    forall s :: multiset(schedule(s)) == multiset(s)
  }

  /** The payload computed fresh. Every window of the request has an
      entry whose count is the length of its bucket; each bucket holds at
      most `max(1, limit)` matches within the tolerance, closest first. */
  function Compute(req: MonthlyRequest, symbols: seq<string>, fetch: string -> Option<seq<real>>,
                   tags: map<string, bool>, schedule: seq<Option<MonthlyRow>> -> seq<Option<MonthlyRow>>)
    : (p: MonthlyPayload)
    requires AllPositive(req.maList) && IsScheduler(schedule)
    ensures p.results.Keys == WindowKeys(req.maList) && p.countByMa.Keys == p.results.Keys
    ensures forall m :: m in req.maList ==>
              IntToString(m) in p.results &&
              var b := p.results[IntToString(m)];
              p.countByMa[IntToString(m)] == |b|
              && |b| <= Max(1, req.limit)
              && (forall i, j :: 0 <= i < j < |b| ==> CloserThan(b[i], b[j]))
              && (forall x :: x in b ==> Abs(x.distancePct) <= req.tol * 100.0)
  {
    var outcomes := MonthlyOutcomes(symbols, req.maList, fetch);
    var buckets := ScanMonthlyMa(symbols, req.maList, req.tol, req.limit, fetch, tags, schedule(outcomes));
    BuildPayload(req, buckets)
  }

  /** A response and the cache after it, for a cache keyed by `K`. */
  datatype Served<K(==)> = Served(payload: MonthlyPayload, cache: map<K, MonthlyPayload>)

  /** `api_ma_monthly` as written, keyed by `KeyAsWritten`. `None` stands
      for `get_universe` raising. With `refresh` the cache is neither read
      nor written; otherwise a stored payload is returned as is, and a miss
      computes the payload and stores it. */
  function ApiMaMonthly(q: Query, universeOf: string -> Option<seq<string>>,
                        cache: map<KeyAsWritten, MonthlyPayload>, fetch: string -> Option<seq<real>>,
                        tags: map<string, bool>, schedule: seq<Option<MonthlyRow>> -> seq<Option<MonthlyRow>>)
    : (r: Option<Served<KeyAsWritten>>)
    requires IsScheduler(schedule)
    ensures r.None? <==> RequestSymbols(ParseRequest(q), universeOf).None?
    ensures r.Some? ==>
              var req := ParseRequest(q);
              var syms := RequestSymbols(req, universeOf).value;
              var key := CacheKeyAsWritten(req, syms);
              (req.refresh ==> r.value == Served(Compute(req, syms, fetch, tags, schedule), cache))
              && (!req.refresh && key in cache ==> r.value == Served(cache[key], cache))
              && (!req.refresh && key !in cache ==>
                    r.value.payload == Compute(req, syms, fetch, tags, schedule)
                    && r.value.cache == cache[key := r.value.payload])
  {
    var req := ParseRequest(q);
    match RequestSymbols(req, universeOf)
    case None => None
    case Some(syms) =>
      var key := CacheKeyAsWritten(req, syms);
      if !req.refresh && key in cache then Some(Served(cache[key], cache))
      else
        var payload := Compute(req, syms, fetch, tags, schedule);
        Some(Served(payload, if req.refresh then cache else cache[key := payload]))
  }

  /** The same view keyed by the corrected `CacheKey`. */
  function ApiMaMonthlyCorrected(q: Query, universeOf: string -> Option<seq<string>>,
                                 cache: map<CacheKey, MonthlyPayload>, fetch: string -> Option<seq<real>>,
                                 tags: map<string, bool>, schedule: seq<Option<MonthlyRow>> -> seq<Option<MonthlyRow>>)
    : (r: Option<Served<CacheKey>>)
    requires IsScheduler(schedule)
    ensures r.None? <==> RequestSymbols(ParseRequest(q), universeOf).None?
    ensures r.Some? ==>
              var req := ParseRequest(q);
              var syms := RequestSymbols(req, universeOf).value;
              var key := MakeCacheKey(req, syms);
              (req.refresh ==> r.value == Served(Compute(req, syms, fetch, tags, schedule), cache))
              && (!req.refresh && key in cache ==> r.value == Served(cache[key], cache))
              && (!req.refresh && key !in cache ==>
                    r.value.payload == Compute(req, syms, fetch, tags, schedule)
                    && r.value.cache == cache[key := r.value.payload])
  {
    var req := ParseRequest(q);
    match RequestSymbols(req, universeOf)
    case None => None
    case Some(syms) =>
      var key := MakeCacheKey(req, syms);
      if !req.refresh && key in cache then Some(Served(cache[key], cache))
      else
        var payload := Compute(req, syms, fetch, tags, schedule);
        Some(Served(payload, if req.refresh then cache else cache[key := payload]))
  }

  /** The per-symbol rows depend on the windows only through which windows
      are asked for. */
  lemma OutcomesByWindowSet(symbols: seq<string>, a: seq<int>, b: seq<int>, fetch: string -> Option<seq<real>>)
    requires AllPositive(a) && AllPositive(b)
    requires forall m :: m in a <==> m in b
    ensures MonthlyOutcomes(symbols, a, fetch) == MonthlyOutcomes(symbols, b, fetch)
  {
    forall i | 0 <= i < |symbols|
      ensures MonthlyTask(symbols[i], a, fetch) == MonthlyTask(symbols[i], b, fetch)
    {
      var sym := symbols[i];
      if fetch(sym).Some? {
        var closes := fetch(sym).value;
        assert (map m | m in a :: CellOf(closes, m)) == (map m | m in b :: CellOf(closes, m));
      }
    }
  }

  /** The same multiset of windows names the same windows. */
  lemma SameWindows(a: seq<int>, b: seq<int>)
    requires multiset(a) == multiset(b)
    ensures forall m :: m in a <==> m in b
  {
    forall m ensures m in a <==> m in b {
      assert m in a <==> m in multiset(a);
      assert m in b <==> m in multiset(b);
    }
  }

  /** The scan depends on the windows only through which windows are asked
      for. */
  lemma ScanByWindowSet(symbols: seq<string>, a: seq<int>, b: seq<int>, tol: real, limit: int,
                        fetch: string -> Option<seq<real>>, tags: map<string, bool>,
                        completed: seq<Option<MonthlyRow>>)
    requires AllPositive(a) && AllPositive(b)
    requires forall m :: m in a <==> m in b
    requires multiset(completed) == multiset(MonthlyOutcomes(symbols, a, fetch))
    ensures multiset(completed) == multiset(MonthlyOutcomes(symbols, b, fetch))
    ensures ScanMonthlyMa(symbols, a, tol, limit, fetch, tags, completed)
            == ScanMonthlyMa(symbols, b, tol, limit, fetch, tags, completed)
  {
    OutcomesByWindowSet(symbols, a, b, fetch);
    var ra := ScanMonthlyMa(symbols, a, tol, limit, fetch, tags, completed);
    var rb := ScanMonthlyMa(symbols, b, tol, limit, fetch, tags, completed);
    assert ra.Keys == rb.Keys;
  }

  /** Two payloads say the same thing: they differ at most in the order in
      which `ma_list` names the windows. */
  predicate SamePayload(p1: MonthlyPayload, p2: MonthlyPayload) {
    p1.universe == p2.universe && p1.tol == p2.tol && p1.limit == p2.limit
    && multiset(p1.maList) == multiset(p2.maList)
    && p1.results == p2.results && p1.countByMa == p2.countByMa
  }

  /** Requests with the same corrected key get the same payload, up to the
      order in which their `ma` lists named the windows: a stored payload
      is always one a fresh computation would give. */
  lemma CacheKeySound(r1: MonthlyRequest, s1: seq<string>, r2: MonthlyRequest, s2: seq<string>,
                      fetch: string -> Option<seq<real>>, tags: map<string, bool>,
                      schedule: seq<Option<MonthlyRow>> -> seq<Option<MonthlyRow>>)
    requires AllPositive(r1.maList) && AllPositive(r2.maList) && IsScheduler(schedule)
    requires MakeCacheKey(r1, s1) == MakeCacheKey(r2, s2)
    ensures SamePayload(Compute(r1, s1, fetch, tags, schedule), Compute(r2, s2, fetch, tags, schedule))
  {
    var a, b := r1.maList, r2.maList;
    SameWindows(a, b);
    OutcomesByWindowSet(s1, a, b, fetch);
    var outcomes := MonthlyOutcomes(s1, a, fetch);
    ScanByWindowSet(s1, a, b, r1.tol, r1.limit, fetch, tags, schedule(outcomes));
    var ba := ScanMonthlyMa(s1, a, r1.tol, r1.limit, fetch, tags, schedule(outcomes));
    PayloadByWindowSet(r1, r2, ba);
  }

  /** Two requests with the same windows, tolerance, limit and universe
      build the same payload maps from the same buckets. */
  lemma PayloadByWindowSet(r1: MonthlyRequest, r2: MonthlyRequest, buckets: map<int, seq<MaMatch>>)
    requires forall m :: m in r1.maList <==> m in r2.maList
    ensures BuildPayload(r1, buckets).results == BuildPayload(r2, buckets).results
    ensures BuildPayload(r1, buckets).countByMa == BuildPayload(r2, buckets).countByMa
  {
    var a, b := r1.maList, r2.maList;
    forall k | k in WindowKeys(a) ensures k in WindowKeys(b) {
      var i :| 0 <= i < |a| && k == IntToString(a[i]);
      assert a[i] in b;
    }
    forall k | k in WindowKeys(b) ensures k in WindowKeys(a) {
      var i :| 0 <= i < |b| && k == IntToString(b[i]);
      assert b[i] in a;
    }
    assert WindowKeys(a) == WindowKeys(b);
  }

  /** Two payloads that two runs of requests with the same key may
      produce: the same knobs, windows up to order, counts and response
      keys, and in every bucket the same distance and close position by
      position, so they differ at most in which of several tied matches
      is listed. */
  predicate Agree(p1: MonthlyPayload, p2: MonthlyPayload) {
    p1.universe == p2.universe && p1.tol == p2.tol && p1.limit == p2.limit
    && multiset(p1.maList) == multiset(p2.maList)
    && p1.countByMa == p2.countByMa && p1.results.Keys == p2.results.Keys
    && forall k :: k in p1.results ==> Keys(p1.results[k], MaKey) == Keys(p2.results[k], MaKey)
  }

  /** Whatever order the pool completes the tasks in, the payload is the
      same up to the order of matches that tie on distance and close. */
  lemma ComputeOrderIndependent(req: MonthlyRequest, symbols: seq<string>, fetch: string -> Option<seq<real>>,
                                tags: map<string, bool>,
                                s1: seq<Option<MonthlyRow>> -> seq<Option<MonthlyRow>>,
                                s2: seq<Option<MonthlyRow>> -> seq<Option<MonthlyRow>>)
    requires AllPositive(req.maList) && IsScheduler(s1) && IsScheduler(s2)
    ensures Agree(Compute(req, symbols, fetch, tags, s1), Compute(req, symbols, fetch, tags, s2))
  {
    var o := MonthlyOutcomes(symbols, req.maList, fetch);
    assert multiset(s1(o)) == multiset(o) && multiset(s2(o)) == multiset(o);
    ScanOrderIndependent(symbols, req.maList, req.tol, req.limit, fetch, tags, s1(o), s2(o));
    BuildPayloadAgree(req, ScanMonthlyMa(symbols, req.maList, req.tol, req.limit, fetch, tags, s1(o)),
                      ScanMonthlyMa(symbols, req.maList, req.tol, req.limit, fetch, tags, s2(o)));
  }

  /** Buckets that agree position by position build agreeing payloads. */
  lemma BuildPayloadAgree(req: MonthlyRequest, b1: map<int, seq<MaMatch>>, b2: map<int, seq<MaMatch>>)
    requires b1.Keys == b2.Keys
    requires forall m :: m in b1 ==> Keys(b1[m], MaKey) == Keys(b2[m], MaKey)
    ensures Agree(BuildPayload(req, b1), BuildPayload(req, b2))
  {
    forall k | k in BuildPayload(req, b1).results
      ensures Keys(BuildPayload(req, b1).results[k], MaKey) == Keys(BuildPayload(req, b2).results[k], MaKey)
      ensures BuildPayload(req, b1).countByMa[k] == BuildPayload(req, b2).countByMa[k]
    {
      EntryAgree(req, b1, b2, k);
    }
    AgreeOfEntries(BuildPayload(req, b1), BuildPayload(req, b2));
  }

  /** One response entry built from agreeing buckets. */
  lemma EntryAgree(req: MonthlyRequest, b1: map<int, seq<MaMatch>>, b2: map<int, seq<MaMatch>>, k: string)
    requires b1.Keys == b2.Keys
    requires forall m :: m in b1 ==> Keys(b1[m], MaKey) == Keys(b2[m], MaKey)
    requires k in BuildPayload(req, b1).results
    ensures Keys(BuildPayload(req, b1).results[k], MaKey) == Keys(BuildPayload(req, b2).results[k], MaKey)
    ensures BuildPayload(req, b1).countByMa[k] == BuildPayload(req, b2).countByMa[k]
  {
    BucketOfAgree(b1, b2, KeyWindow(k));
  }

  /** Payloads with the same knobs and response keys agree once every
      entry does. */
  lemma AgreeOfEntries(p1: MonthlyPayload, p2: MonthlyPayload)
    requires p1.universe == p2.universe && p1.tol == p2.tol && p1.limit == p2.limit && p1.maList == p2.maList
    requires p1.results.Keys == p2.results.Keys
    requires p1.countByMa.Keys == p1.results.Keys && p2.countByMa.Keys == p2.results.Keys
    requires forall k :: k in p1.results ==>
               Keys(p1.results[k], MaKey) == Keys(p2.results[k], MaKey) && p1.countByMa[k] == p2.countByMa[k]
    ensures Agree(p1, p2)
  {
    assert p1.countByMa == p2.countByMa;
  }

  lemma BucketOfAgree(b1: map<int, seq<MaMatch>>, b2: map<int, seq<MaMatch>>, m: int)
    requires b1.Keys == b2.Keys
    requires forall m :: m in b1 ==> Keys(b1[m], MaKey) == Keys(b2[m], MaKey)
    ensures Keys(BucketOf(b1, m), MaKey) == Keys(BucketOf(b2, m), MaKey)
    ensures |BucketOf(b1, m)| == |BucketOf(b2, m)|
  {
    if m in b1 {
      assert |Keys(b1[m], MaKey)| == |Keys(b2[m], MaKey)|;
    }
  }

  /** The request a key stands for (its cache flags are irrelevant to the
      payload). */
  function KeyRequest(k: CacheKey): MonthlyRequest {
    MonthlyRequest(k.maSorted, k.tol, k.limit, k.universe, false, None)
  }

  /** Every stored payload agrees with the one its key computes under the
      reference completion order `ref`. */
  ghost predicate CacheFresh(cache: map<CacheKey, MonthlyPayload>, fetch: string -> Option<seq<real>>,
                             tags: map<string, bool>,
                             ref: seq<Option<MonthlyRow>> -> seq<Option<MonthlyRow>>)
    requires IsScheduler(ref)
  {
    forall k :: k in cache ==>
      AllPositive(k.maSorted) && Agree(cache[k], Compute(KeyRequest(k), k.symbols, fetch, tags, ref))
  }

  lemma PermutedPositive(a: seq<int>, b: seq<int>)
    requires AllPositive(a) && multiset(a) == multiset(b)
    ensures AllPositive(b)
  {
    SameWindows(a, b);
    forall i | 0 <= i < |b| ensures b[i] > 0 {
      assert b[i] in b;
      var j :| 0 <= j < |a| && a[j] == b[i];
    }
  }

  /** A request and the request its corrected key stands for compute
      agreeing payloads. */
  lemma KeyRequestAgrees(req: MonthlyRequest, syms: seq<string>, fetch: string -> Option<seq<real>>,
                         tags: map<string, bool>,
                         schedule: seq<Option<MonthlyRow>> -> seq<Option<MonthlyRow>>)
    requires AllPositive(req.maList) && IsScheduler(schedule)
    ensures AllPositive(MakeCacheKey(req, syms).maSorted)
    ensures SamePayload(Compute(req, syms, fetch, tags, schedule),
                        Compute(KeyRequest(MakeCacheKey(req, syms)), syms, fetch, tags, schedule))
  {
    var key := MakeCacheKey(req, syms);
    var kr := KeyRequest(key);
    PermutedPositive(req.maList, key.maSorted);
    SortIntsPermutation(key.maSorted, req.maList);
    assert MakeCacheKey(kr, syms) == key;
    CacheKeySound(req, syms, kr, syms, fetch, tags, schedule);
  }

  /** With the corrected key the cache never serves a stale answer: from a
      cache whose entries agree with their keys' payloads, the response
      agrees with the payload this run computes afresh, whatever the
      completion order of either run, and the cache keeps agreeing. */
  lemma ServedIsFresh(q: Query, universeOf: string -> Option<seq<string>>,
                      cache: map<CacheKey, MonthlyPayload>, fetch: string -> Option<seq<real>>,
                      tags: map<string, bool>,
                      ref: seq<Option<MonthlyRow>> -> seq<Option<MonthlyRow>>,
                      run: seq<Option<MonthlyRow>> -> seq<Option<MonthlyRow>>)
    requires IsScheduler(ref) && IsScheduler(run) && CacheFresh(cache, fetch, tags, ref)
    ensures var req := ParseRequest(q);
            var r := ApiMaMonthlyCorrected(q, universeOf, cache, fetch, tags, run);
            r.Some? ==>
              Agree(r.value.payload, Compute(req, RequestSymbols(req, universeOf).value, fetch, tags, run))
              && CacheFresh(r.value.cache, fetch, tags, ref)
  {
    var req := ParseRequest(q);
    var r := ApiMaMonthlyCorrected(q, universeOf, cache, fetch, tags, run);
    if r.Some? {
      var syms := RequestSymbols(req, universeOf).value;
      var key := MakeCacheKey(req, syms);
      ComputedAgreesWithKey(req, syms, fetch, tags, ref, run);
      if !req.refresh && key in cache {
        HitAgrees(cache, key, Compute(req, syms, fetch, tags, run), fetch, tags, ref);
      } else if !req.refresh {
        StoreKeepsFresh(cache, key, r.value.payload, fetch, tags, ref);
      }
    }
  }

  /** What this run computes agrees with what the request's corrected key
      computes under the reference order. */
  lemma ComputedAgreesWithKey(req: MonthlyRequest, syms: seq<string>, fetch: string -> Option<seq<real>>,
                              tags: map<string, bool>,
                              ref: seq<Option<MonthlyRow>> -> seq<Option<MonthlyRow>>,
                              run: seq<Option<MonthlyRow>> -> seq<Option<MonthlyRow>>)
    requires AllPositive(req.maList) && IsScheduler(ref) && IsScheduler(run)
    ensures AllPositive(MakeCacheKey(req, syms).maSorted)
    ensures Agree(Compute(req, syms, fetch, tags, run),
                  Compute(KeyRequest(MakeCacheKey(req, syms)), syms, fetch, tags, ref))
  {
    KeyRequestAgrees(req, syms, fetch, tags, ref);
    ComputeOrderIndependent(req, syms, fetch, tags, run, ref);
    AgreeThenSame(Compute(req, syms, fetch, tags, run), Compute(req, syms, fetch, tags, ref),
                  Compute(KeyRequest(MakeCacheKey(req, syms)), syms, fetch, tags, ref));
  }

  /** A hit in a fresh cache agrees with any payload that agrees with the
      key's own. */
  lemma HitAgrees(cache: map<CacheKey, MonthlyPayload>, key: CacheKey, p: MonthlyPayload,
                  fetch: string -> Option<seq<real>>, tags: map<string, bool>,
                  ref: seq<Option<MonthlyRow>> -> seq<Option<MonthlyRow>>)
    requires IsScheduler(ref) && CacheFresh(cache, fetch, tags, ref) && key in cache
    requires Agree(p, Compute(KeyRequest(key), key.symbols, fetch, tags, ref))
    ensures Agree(cache[key], p)
  {
    var stored := Compute(KeyRequest(key), key.symbols, fetch, tags, ref);
    AgreeSymmetric(p, stored);
    AgreeTransitive(cache[key], stored, p);
  }

  /** Agreement is symmetric and transitive. */
  lemma AgreeSymmetric(p1: MonthlyPayload, p2: MonthlyPayload)
    requires Agree(p1, p2)
    ensures Agree(p2, p1)
  {
  }

  lemma AgreeTransitive(p1: MonthlyPayload, p2: MonthlyPayload, p3: MonthlyPayload)
    requires Agree(p1, p2) && Agree(p2, p3)
    ensures Agree(p1, p3)
  {
  }

  /** Agreement carries over to a payload that says the same thing. */
  lemma AgreeThenSame(p1: MonthlyPayload, p2: MonthlyPayload, p3: MonthlyPayload)
    requires Agree(p1, p2) && SamePayload(p2, p3)
    ensures Agree(p1, p3)
  {
  }

  /** Storing a payload that agrees with its key's computation keeps the
      cache fresh. */
  lemma StoreKeepsFresh(cache: map<CacheKey, MonthlyPayload>, key: CacheKey, p: MonthlyPayload,
                        fetch: string -> Option<seq<real>>, tags: map<string, bool>,
                        ref: seq<Option<MonthlyRow>> -> seq<Option<MonthlyRow>>)
    requires IsScheduler(ref) && CacheFresh(cache, fetch, tags, ref)
    requires AllPositive(key.maSorted)
    requires Agree(p, Compute(KeyRequest(key), key.symbols, fetch, tags, ref))
    ensures CacheFresh(cache[key := p], fetch, tags, ref)
  {
    var c := cache[key := p];
    forall k | k in c
      ensures AllPositive(k.maSorted)
              && Agree(c[k], Compute(KeyRequest(k), k.symbols, fetch, tags, ref))
    {
      if k != key {
        assert c[k] == cache[k];
      }
    }
  }

  lemma TcsNormalised()
    ensures IsNormalised("TCS.NS")
  {
    StripUnchanged("TCS.NS");
    UpperUnchanged("TCS.NS");
  }

  lemma InfyNormalised()
    ensures IsNormalised("INFY.NS")
  {
    StripUnchanged("INFY.NS");
    UpperUnchanged("INFY.NS");
  }

  /** A symbol without data contributes to no bucket. */
  lemma DatalessBucketEmpty(req: MonthlyRequest, sym: string, fetch: string -> Option<seq<real>>,
                            tags: map<string, bool>,
                            schedule: seq<Option<MonthlyRow>> -> seq<Option<MonthlyRow>>, m: int)
    requires AllPositive(req.maList) && IsScheduler(schedule) && fetch(sym).None? && m in req.maList
    ensures Compute(req, [sym], fetch, tags, schedule).results[IntToString(m)] == []
  {
    var o := MonthlyOutcomes([sym], req.maList, fetch);
    assert o == [None];
    assert Somes(o) == [];
    assert Candidates(Somes(o), m, req.tol, tags) == [];
  }

  /** A symbol whose one monthly close is 100 sits exactly on its 1-month
      mean, so with windows [1] and a non-negative tolerance its bucket
      is not empty. */
  lemma FlatSymbolMatches(req: MonthlyRequest, sym: string, fetch: string -> Option<seq<real>>,
                          tags: map<string, bool>,
                          schedule: seq<Option<MonthlyRow>> -> seq<Option<MonthlyRow>>)
    requires req.maList == [1] && req.tol >= 0.0 && IsScheduler(schedule) && fetch(sym) == Some([100.0])
    ensures |Compute(req, [sym], fetch, tags, schedule).results[IntToString(1)]| >= 1
  {
    var ma := req.maList;
    var o := MonthlyOutcomes([sym], ma, fetch);
    var row := MonthlyTask(sym, ma, fetch).value;
    assert o == [Some(row)];
    var rows := Somes(o);
    assert row in rows;
    var d := SmaDistanceMonthly([100.0], 1);
    assert [100.0][0..] == [100.0];
    assert d.Some? && d.value.distPct == 0.0;
    Round3OnGrid(0);
    MatchForWindow(sym, ma, fetch, 1, req.tol, tags);
    var cands := Candidates(rows, 1, req.tol, tags);
    MatchIsCandidate(rows, row, 1, req.tol, tags);
    var b := ScanMonthlyMa([sym], ma, req.tol, req.limit, fetch, tags, schedule(o));
    assert |b[1]| == Min(|cands|, Max(1, req.limit));
    assert BuildPayload(req, b).results[IntToString(1)] == b[1];
  }

  /** The two single-symbol requests of the collision: `ma=1` and no other
      knob besides the symbol. */
  lemma CollisionRequests()
    ensures var r1 := ParseRequest(map["symbols" := "TCS.NS", "ma" := "1"]);
            var r2 := ParseRequest(map["symbols" := "INFY.NS", "ma" := "1"]);
            r1.maList == r2.maList == [1] && r1.tol == r2.tol == DefaultTol
            && r1.limit == r2.limit && r1.universe == r2.universe
            && !r1.refresh && !r2.refresh
            && r1.override == Some(["TCS.NS"]) && r2.override == Some(["INFY.NS"])
  {
    SingleOverrides();
    MaOne();
    var q1: Query := map["symbols" := "TCS.NS", "ma" := "1"];
    var q2: Query := map["symbols" := "INFY.NS", "ma" := "1"];
    assert Param(q1, "symbols") == Some("TCS.NS") && Param(q2, "symbols") == Some("INFY.NS");
    assert Param(q1, "ma") == Param(q2, "ma") == Some("1");
    OnlySymbolsAndMa("TCS.NS", "1", "tol");
    OnlySymbolsAndMa("INFY.NS", "1", "tol");
    OnlySymbolsAndMa("TCS.NS", "1", "limit");
    OnlySymbolsAndMa("INFY.NS", "1", "limit");
    OnlySymbolsAndMa("TCS.NS", "1", "universe");
    OnlySymbolsAndMa("INFY.NS", "1", "universe");
    OnlySymbolsAndMa("TCS.NS", "1", "refresh");
    OnlySymbolsAndMa("INFY.NS", "1", "refresh");
  }

  /** A parameter whose name starts with neither `s` nor `m` is absent from
      a query that only sets `symbols` and `ma`. */
  lemma OnlySymbolsAndMa(syms: string, ma: string, k: string)
    requires |k| > 0 && k[0] != 's' && k[0] != 'm'
    ensures Param(map["symbols" := syms, "ma" := ma], k).None?
  {
    assert "symbols"[0] == 's' && "ma"[0] == 'm';
    assert k != "symbols" && k != "ma";
  }

  lemma SingleOverrides()
    ensures SymbolOverride(Some("TCS.NS")) == Some(["TCS.NS"])
    ensures SymbolOverride(Some("INFY.NS")) == Some(["INFY.NS"])
  {
    TcsOverride();
    InfyOverride();
  }

  lemma TcsOverride()
    ensures SymbolOverride(Some("TCS.NS")) == Some(["TCS.NS"])
  {
    TcsNormalised();
    OverrideOfOne("TCS.NS");
  }

  lemma InfyOverride()
    ensures SymbolOverride(Some("INFY.NS")) == Some(["INFY.NS"])
  {
    InfyNormalised();
    OverrideOfOne("INFY.NS");
  }

  lemma MaOne()
    ensures ParseMaList(Some("1")) == [1]
  {
    assert JoinInts([1]) == "1" by {
      assert IntToString(1) == "1";
      assert IntStrings([1]) == ["1"];
    }
    MaListRoundTrip([1]);
  }

  /** Monthly data in which `TCS.NS` has one close of 100 and no other
      symbol has any. */
  function OneFlatSymbol(sym: string): Option<seq<real>> {
    if sym == "TCS.NS" then Some([100.0]) else None
  }

  /** The cache key as written lets two different single-symbol overrides
      share an entry although their payloads differ: with `ma=1`, a symbol
      whose one monthly close is 100 matches its own mean, while a symbol
      with no data matches nothing, yet both requests map to the same key,
      so whichever runs first decides what the other is served. */
  lemma KeyAsWrittenCollides(schedule: seq<Option<MonthlyRow>> -> seq<Option<MonthlyRow>>)
    requires IsScheduler(schedule)
    ensures var r1 := ParseRequest(map["symbols" := "TCS.NS", "ma" := "1"]);
            var r2 := ParseRequest(map["symbols" := "INFY.NS", "ma" := "1"]);
            var fetch := OneFlatSymbol;
            r1.override == Some(["TCS.NS"]) && r2.override == Some(["INFY.NS"])
            && CacheKeyAsWritten(r1, ["TCS.NS"]) == CacheKeyAsWritten(r2, ["INFY.NS"])
            && var p1 := Compute(r1, ["TCS.NS"], fetch, map[], schedule);
               var p2 := Compute(r2, ["INFY.NS"], fetch, map[], schedule);
               "1" in p1.results && "1" in p2.results
               && |p1.results["1"]| >= 1 && p2.results["1"] == []
  {
    CollisionRequests();
    assert IntToString(1) == "1";
    var r1 := ParseRequest(map["symbols" := "TCS.NS", "ma" := "1"]);
    var r2 := ParseRequest(map["symbols" := "INFY.NS", "ma" := "1"]);
    FlatSymbolMatches(r1, "TCS.NS", OneFlatSymbol, map[], schedule);
    assert "INFY.NS"[0] != "TCS.NS"[0];
    DatalessBucketEmpty(r2, "INFY.NS", OneFlatSymbol, map[], schedule, 1);
  }

  /** With the symbol list in the key, the two requests of the collision
      get different entries. */
  lemma CorrectedKeySeparates()
    ensures var r1 := ParseRequest(map["symbols" := "TCS.NS", "ma" := "1"]);
            var r2 := ParseRequest(map["symbols" := "INFY.NS", "ma" := "1"]);
            MakeCacheKey(r1, ["TCS.NS"]) != MakeCacheKey(r2, ["INFY.NS"])
  {
  }

  /** The collision end to end: `symbols=TCS.NS&ma=1` fills the entry, and
      `symbols=INFY.NS&ma=1` is then served TCS's match, although INFY's
      own bucket is empty. */
  lemma CollisionServedStale(universeOf: string -> Option<seq<string>>,
                             schedule: seq<Option<MonthlyRow>> -> seq<Option<MonthlyRow>>)
    requires IsScheduler(schedule)
    ensures var q1: Query := map["symbols" := "TCS.NS", "ma" := "1"];
            var q2: Query := map["symbols" := "INFY.NS", "ma" := "1"];
            var first := ApiMaMonthly(q1, universeOf, map[], OneFlatSymbol, map[], schedule);
            first.Some?
            && var second := ApiMaMonthly(q2, universeOf, first.value.cache, OneFlatSymbol, map[], schedule);
               second.Some? && second.value.payload == first.value.payload
               && "1" in second.value.payload.results && |second.value.payload.results["1"]| >= 1
               && Compute(ParseRequest(q2), ["INFY.NS"], OneFlatSymbol, map[], schedule).results["1"] == []
  {
    CollisionRequests();
    KeyAsWrittenCollides(schedule);
    SharedKeyServesFirst(map["symbols" := "TCS.NS", "ma" := "1"], map["symbols" := "INFY.NS", "ma" := "1"],
                         universeOf, OneFlatSymbol, map[], schedule);
  }

  /** Two cache-reading requests with overrides and the same key as
      written: after the first fills an empty cache, the second is served
      the first's payload. */
  lemma SharedKeyServesFirst(q1: Query, q2: Query, universeOf: string -> Option<seq<string>>,
                             fetch: string -> Option<seq<real>>, tags: map<string, bool>,
                             schedule: seq<Option<MonthlyRow>> -> seq<Option<MonthlyRow>>)
    requires IsScheduler(schedule)
    requires !ParseRequest(q1).refresh && !ParseRequest(q2).refresh
    requires RequestSymbols(ParseRequest(q1), universeOf).Some?
    requires RequestSymbols(ParseRequest(q2), universeOf).Some?
    requires CacheKeyAsWritten(ParseRequest(q1), RequestSymbols(ParseRequest(q1), universeOf).value)
             == CacheKeyAsWritten(ParseRequest(q2), RequestSymbols(ParseRequest(q2), universeOf).value)
    ensures var first := ApiMaMonthly(q1, universeOf, map[], fetch, tags, schedule);
            var r1 := ParseRequest(q1);
            first.Some? && first.value.payload == Compute(r1, RequestSymbols(r1, universeOf).value, fetch, tags, schedule)
            && var second := ApiMaMonthly(q2, universeOf, first.value.cache, fetch, tags, schedule);
               second.Some? && second.value.payload == first.value.payload
  {
    var first := ApiMaMonthly(q1, universeOf, map[], fetch, tags, schedule);
    var key := CacheKeyAsWritten(ParseRequest(q1), RequestSymbols(ParseRequest(q1), universeOf).value);
    assert first.value.cache == map[key := first.value.payload];
  }
}

=== FILE: numbers.dfy ===
/** Integer helpers, Python's `round` and the `int()` / `float()` string
    grammars the request parameters go through. Python floats are modelled
    as exact reals. */
module Numbers {
  import opened Wrappers
  import opened Text

  function Max(a: int, b: int): int { if a >= b then a else b }

  function Min(a: int, b: int): int { if a <= b then a else b }

  function Abs(x: real): real { if x < 0.0 then -x else x }

  function Pow10(d: nat): (p: nat)
    ensures p >= 1
  {
    if d == 0 then 1 else 10 * Pow10(d - 1)
  }

  /** The integer nearest to `y`, ties going to the even one. */
  function RoundToInteger(y: real): (n: int)
    ensures -0.5 <= n as real - y <= 0.5
  {
    var f := y.Floor;
    var frac := y - f as real;
    if frac < 0.5 then f
    else if frac > 0.5 then f + 1
    else if f % 2 == 0 then f else f + 1
  }

  lemma RoundToIntegerOfInteger(k: int)
    ensures RoundToInteger(k as real) == k
  {
    assert (k as real).Floor == k;
  }

  /* Python's `round(x, d)` for the three precisions the screener uses: the
     nearest multiple of 10^-d, ties going to the even multiple. Each result
     is within half a unit of the last digit of `x` and lies on the grid. */

  function Round2(x: real): (r: real)
    ensures -0.005 <= r - x <= 0.005
    ensures (r * 100.0).Floor as real == r * 100.0
  {
    RoundToInteger(x * 100.0) as real / 100.0
  }

  function Round3(x: real): (r: real)
    ensures -0.0005 <= r - x <= 0.0005
    ensures (r * 1000.0).Floor as real == r * 1000.0
  {
    RoundToInteger(x * 1000.0) as real / 1000.0
  }

  /** The value `format(x, ".4f")` prints. */
  function Round4(x: real): (r: real)
    ensures -0.00005 <= r - x <= 0.00005
    ensures (r * 10000.0).Floor as real == r * 10000.0
  {
    RoundToInteger(x * 10000.0) as real / 10000.0
  }

  /** A value already on the hundredths grid is left unchanged by rounding. */
  lemma Round2OnGrid(k: int)
    ensures Round2(k as real / 100.0) == k as real / 100.0
  {
    RoundToIntegerOfInteger(k);
  }

  /** A value already on the thousandths grid is left unchanged by rounding. */
  lemma Round3OnGrid(k: int)
    ensures Round3(k as real / 1000.0) == k as real / 1000.0
  {
    RoundToIntegerOfInteger(k);
  }

  predicate IsDigit(c: char) { '0' <= c <= '9' }

  predicate AllDigits(s: string) { forall i :: 0 <= i < |s| ==> IsDigit(s[i]) }

  /** The number a run of decimal digits spells, most significant first. */
  function DigitsValue(s: string): nat
    requires AllDigits(s)
  {
    if |s| == 0 then 0
    else DigitsValue(s[..|s| - 1]) * 10 + (s[|s| - 1] as int - '0' as int)
  }

  function DigitChar(d: nat): (c: char)
    requires d < 10
    ensures IsDigit(c) && c as int - '0' as int == d
  {
    ('0' as int + d) as char
  }

  /** Python's `str(n)` for a natural number: a non-empty run of digits that
      spells `n` back. */
  function NatToString(n: nat): (s: string)
    ensures |s| > 0 && AllDigits(s)
    ensures DigitsValue(s) == n
  {
    if n < 10 then [DigitChar(n)]
    else
      var prefix := NatToString(n / 10);
      var s := prefix + [DigitChar(n % 10)];
      assert s[..|s| - 1] == prefix;
      s
  }

  /** Python's `str(i)` for an integer. */
  function IntToString(i: int): string {
    if i < 0 then "-" + NatToString(-i) else NatToString(i)
  }

  /** Python's `int(s)`, restricted to an optional sign and ASCII digits
      surrounded by whitespace; anything else is the `ValueError` path. */
  function ParseInt(s: string): (r: Option<int>)
    ensures r.Some? ==> Strip(s) != ""
  {
    var t := Strip(s);
    if |t| > 0 && (t[0] == '-' || t[0] == '+') then
      var body := t[1..];
      if |body| > 0 && AllDigits(body) then
        var v: int := DigitsValue(body);
        Some(if t[0] == '-' then -v else v)
      else None
    else if |t| > 0 && AllDigits(t) then Some(DigitsValue(t))
    else None
  }

  /** `int(str(i)) == i`. */
  lemma ParseIntOfString(i: int)
    ensures ParseInt(IntToString(i)) == Some(i)
  {
    var s := IntToString(i);
    if i < 0 {
      var d := NatToString(-i);
      assert s[1..] == d;
      StripUnchanged(s);
    } else {
      StripUnchanged(s);
    }
  }

  /** Distinct integers have distinct decimal spellings. */
  lemma IntToStringInjective()
    ensures forall a: int, b: int :: IntToString(a) == IntToString(b) ==> a == b
  {
    forall a: int, b: int | IntToString(a) == IntToString(b) ensures a == b {
      ParseIntOfString(a);
      ParseIntOfString(b);
    }
  }

  /** The value of `intPart.fracPart`, both runs of digits. */
  function DecimalValue(intPart: string, fracPart: string): real
    requires AllDigits(intPart) && AllDigits(fracPart)
  {
    DigitsValue(intPart) as real + DigitsValue(fracPart) as real / Pow10(|fracPart|) as real
  }

  /** The unsigned part of a float literal: digits with at most one '.', and
      at least one digit. */
  function UnsignedDecimal(body: string): Option<real>
  {
    var parts := Split(body, '.');
    if |parts| == 1 && |body| > 0 && AllDigits(body) then Some(DigitsValue(body) as real)
    else if |parts| == 2 && AllDigits(parts[0]) && AllDigits(parts[1])
            && |parts[0]| + |parts[1]| > 0 then
      Some(DecimalValue(parts[0], parts[1]))
    else None
  }

  /** Python's `float(s)`, restricted to an optional sign and a plain decimal
      literal surrounded by whitespace; anything else is the `ValueError`
      path. */
  function ParseFloat(s: string): (r: Option<real>)
    ensures r.Some? ==> Strip(s) != ""
  {
    var t := Strip(s);
    var negative := |t| > 0 && t[0] == '-';
    var body := if |t| > 0 && (t[0] == '-' || t[0] == '+') then t[1..] else t;
    match UnsignedDecimal(body)
    case None => None
    case Some(v) => Some(if negative then -v else v)
  }

  /** `float(str(n)) == n` for a natural number. */
  lemma ParseFloatOfNat(n: nat)
    ensures ParseFloat(NatToString(n)) == Some(n as real)
  {
    var s := NatToString(n);
    DigitsUnchanged(s);
    assert Split(s, '.') == [s] by {
      assert '.' !in s by {
        forall i | 0 <= i < |s| ensures s[i] != '.' { assert IsDigit(s[i]); }
      }
      SplitWord(s, '.');
    }
  }

  /** A non-empty run of digits is its own strip and has no sign. */
  lemma DigitsUnchanged(s: string)
    requires |s| > 0 && AllDigits(s)
    ensures Strip(s) == s && s[0] != '-' && s[0] != '+'
  {
    assert IsDigit(s[0]) && IsDigit(s[|s| - 1]);
    StripUnchanged(s);
  }

  /** `float("I.F") == I + F / 10^|F|` for digit runs I (non-empty) and F,
      and the same value negated under a leading `-`. */
  lemma ParseFloatOfDecimal(ip: string, fp: string)
    requires |ip| > 0 && AllDigits(ip) && AllDigits(fp)
    ensures ParseFloat(ip + "." + fp) == Some(DecimalValue(ip, fp))
    ensures ParseFloat("-" + ip + "." + fp) == Some(-DecimalValue(ip, fp))
  {
    var s := ip + "." + fp;
    UnsignedOfDecimal(ip, fp);
    DecimalEnds(ip, fp);
    StripUnchanged(s);
    var n := "-" + s;
    assert n == "-" + ip + "." + fp;
    assert n[1..] == s;
    assert n[|n| - 1] == s[|s| - 1];
    StripUnchanged(n);
    assert n[0] == '-';
  }

  /** A decimal literal starts with a digit and ends with a digit or '.'. */
  lemma DecimalEnds(ip: string, fp: string)
    requires |ip| > 0 && AllDigits(ip) && AllDigits(fp)
    ensures var s := ip + "." + fp;
            IsDigit(s[0]) && !IsSpace(s[0]) && !IsSpace(s[|s| - 1])
  {
    var s := ip + "." + fp;
    assert s[0] == ip[0] && IsDigit(ip[0]);
    if |fp| > 0 {
      assert s[|s| - 1] == fp[|fp| - 1] && IsDigit(fp[|fp| - 1]);
    } else {
      assert s[|s| - 1] == '.';
    }
  }

  /** The unsigned reading of `I.F`. */
  lemma UnsignedOfDecimal(ip: string, fp: string)
    requires |ip| > 0 && AllDigits(ip) && AllDigits(fp)
    ensures UnsignedDecimal(ip + "." + fp) == Some(DecimalValue(ip, fp))
  {
    SplitDecimal(ip, fp);
  }

  /** `I.F` splits at its one '.' into I and F. */
  lemma SplitDecimal(ip: string, fp: string)
    requires AllDigits(ip) && AllDigits(fp)
    ensures Split(ip + "." + fp, '.') == [ip, fp]
  {
    assert '.' !in ip by {
      forall i | 0 <= i < |ip| ensures ip[i] != '.' { assert IsDigit(ip[i]); }
    }
    assert '.' !in fp by {
      forall i | 0 <= i < |fp| ensures fp[i] != '.' { assert IsDigit(fp[i]); }
    }
    SplitJoin([ip, fp], '.');
    assert [ip, fp][1..] == [fp];
    assert Join([ip, fp], '.') == ip + "." + fp;
  }

  /** An example of `ParseFloatOfDecimal` on the default tolerance: the
      text `0.003` reads as 0.003. */
  lemma TolLiteral(s: string)
    requires s == "0.003"
    ensures ParseFloat(s) == Some(0.003)
  {
    var ip, fp := s[..1], s[2..];
    assert ip == "0" && fp == "003";
    assert s == ip + "." + fp;
    DecimalValueOf0003();
    ParseFloatOfDecimal(ip, fp);
  }

  lemma DecimalValueOf0003()
    ensures DecimalValue("0", "003") == 0.003
  {
    assert DigitsValue("003") == 3 by {
      assert "003"[..2] == "00" && "00"[..1] == "0" && "0"[..0] == "";
    }
    assert DigitsValue("0") == 0 by { assert "0"[..0] == ""; }
    assert Pow10(3) == 1000;
  }

  /** An example of `ParseFloatOfDecimal` on the default factor: the
      text `3.0` reads as 3. */
  lemma FactorLiteral(s: string)
    requires s == "3.0"
    ensures ParseFloat(s) == Some(3.0)
  {
    var ip, fp := s[..1], s[2..];
    assert ip == "3" && fp == "0";
    assert s == ip + "." + fp;
    DecimalValueOf30();
    ParseFloatOfDecimal(ip, fp);
  }

  lemma DecimalValueOf30()
    ensures DecimalValue("3", "0") == 3.0
  {
    assert DigitsValue("3") == 3 by { assert "3"[..0] == ""; }
    assert DigitsValue("0") == 0 by { assert "0"[..0] == ""; }
  }
}

=== FILE: ranking.dfy ===
/** The gather/rank/truncate step every scan ends with: keep the per-symbol
    results that exist, sort them with Python's stable sort on a two-part
    key, and keep the first `max(1, limit)`. */
module Ranking {
  import opened Wrappers
  import opened Numbers

  /** A sort key compared lexicographically, smaller first. A descending
      Python sort is modelled by negating both parts. */
  datatype Key = Key(major: real, minor: real)

  predicate KeyLe(a: Key, b: Key) {
    a.major < b.major || (a.major == b.major && a.minor <= b.minor)
  }

  predicate SortedBy<T>(s: seq<T>, key: T -> Key) {
    forall i, j :: 0 <= i < j < |s| ==> KeyLe(key(s[i]), key(s[j]))
  }

  predicate KeysSorted(ks: seq<Key>) {
    forall i, j :: 0 <= i < j < |ks| ==> KeyLe(ks[i], ks[j])
  }

  /** Inserts `x` after every element whose key does not exceed its own, so
      elements with equal keys keep their arrival order. */
  function Insert<T>(x: T, s: seq<T>, key: T -> Key): (r: seq<T>)
    requires SortedBy(s, key)
    ensures SortedBy(r, key)
    ensures multiset(r) == multiset(s) + multiset{x}
    ensures |r| == |s| + 1
  {
    if |s| == 0 then [x]
    else if KeyLe(key(s[0]), key(x)) then
      var rest := Insert(x, s[1..], key);
      HeadStaysFirst(s[0], x, s[1..], rest, key);
      assert s == [s[0]] + s[1..];
      [s[0]] + rest
    else
      [x] + s
  }

  /** An element ranked no later than `x` and than everything in `s` is
      ranked no later than anything in a rearrangement of `s` plus `x`. */
  lemma HeadStaysFirst<T>(h: T, x: T, s: seq<T>, rest: seq<T>, key: T -> Key)
    requires KeyLe(key(h), key(x))
    requires forall j :: 0 <= j < |s| ==> KeyLe(key(h), key(s[j]))
    requires multiset(rest) == multiset(s) + multiset{x}
    ensures forall k :: 0 <= k < |rest| ==> KeyLe(key(h), key(rest[k]))
  {
    forall k | 0 <= k < |rest| ensures KeyLe(key(h), key(rest[k])) {
      assert rest[k] in multiset(rest);
      if rest[k] != x {
        assert rest[k] in multiset(s);
        var j :| 0 <= j < |s| && s[j] == rest[k];
      }
    }
  }

  /** Python's `list.sort(key=...)`: stable, ascending. */
  function Sort<T>(s: seq<T>, key: T -> Key): (r: seq<T>)
    ensures SortedBy(r, key)
    ensures multiset(r) == multiset(s)
    ensures |r| == |s|
  {
    if |s| == 0 then []
    else
      assert s == s[..|s| - 1] + [s[|s| - 1]];
      Insert(s[|s| - 1], Sort(s[..|s| - 1], key), key)
  }

  /** Python's `s[:k]`. */
  function Take<T>(s: seq<T>, k: nat): (r: seq<T>)
    ensures |r| == Min(|s|, k)
    ensures r == s[..|r|]
  {
    if k >= |s| then s else s[..k]
  }

  /** `sorted(s, key)[:max(1, limit)]`: a sorted sub-multiset of `s` of the
      largest allowed size, and nothing left out ranks before anything kept. */
  function TopK<T>(s: seq<T>, key: T -> Key, limit: int): (r: seq<T>)
    ensures |r| == Min(|s|, Max(1, limit))
    ensures SortedBy(r, key)
    ensures multiset(r) <= multiset(s)
    ensures forall x, y :: x in multiset(s) - multiset(r) && y in r ==> KeyLe(key(y), key(x))
    ensures |s| <= Max(1, limit) ==> multiset(r) == multiset(s)
  {
    var t := Sort(s, key);
    var r := Take(t, Max(1, limit));
    TopKFacts(t, r, key);
    r
  }

  lemma TopKFacts<T>(t: seq<T>, r: seq<T>, key: T -> Key)
    requires SortedBy(t, key)
    requires |r| <= |t| && r == t[..|r|]
    ensures multiset(r) <= multiset(t)
    ensures forall x, y :: x in multiset(t) - multiset(r) && y in r ==> KeyLe(key(y), key(x))
  {
    var rest := t[|r|..];
    assert t == r + rest;
    assert multiset(t) == multiset(r) + multiset(rest);
    forall x, y | x in multiset(t) - multiset(r) && y in r
      ensures KeyLe(key(y), key(x))
    {
      assert x in rest;
      var a :| 0 <= a < |rest| && rest[a] == x;
      var b :| 0 <= b < |r| && r[b] == y;
      assert t[|r| + a] == x && t[b] == y;
    }
  }

  /** Keeps the `Some` payload of every element `f` maps to one, in order. */
  function FilterMap<T, U(!new)>(f: T -> Option<U>, s: seq<T>): (r: seq<U>)
    ensures |r| <= |s|
    ensures forall y :: y in r <==> exists i :: 0 <= i < |s| && f(s[i]) == Some(y)
  {
    if |s| == 0 then []
    else
      var rest := FilterMap(f, s[1..]);
      assert forall i :: 0 <= i < |s| - 1 ==> s[1..][i] == s[i + 1];
      match f(s[0])
      case Some(y) => [y] + rest
      case None => rest
  }

  lemma {:induction false} FilterMapConcat<T, U(!new)>(f: T -> Option<U>, a: seq<T>, b: seq<T>)
    ensures FilterMap(f, a + b) == FilterMap(f, a) + FilterMap(f, b)
  {
    if |a| > 0 {
      assert (a + b)[1..] == a[1..] + b;
      FilterMapConcat(f, a[1..], b);
    } else {
      assert a + b == b;
    }
  }

  /** Taking one element out of the middle of the input takes its image
      out of the middle of the output. */
  lemma FilterMapRemove<T, U(!new)>(f: T -> Option<U>, pre: seq<T>, x: T, post: seq<T>)
    ensures multiset(FilterMap(f, pre + [x] + post))
            == multiset(FilterMap(f, [x])) + multiset(FilterMap(f, pre + post))
  {
    FilterMapConcat(f, pre + [x], post);
    FilterMapConcat(f, pre, [x]);
    FilterMapConcat(f, pre, post);
  }

  /** Filtering commutes with reordering: permuted inputs give permuted
      outputs. This is what makes the result of an unordered gather
      independent of the completion order, up to order. */
  lemma {:induction false} FilterMapPermutation<T, U(!new)>(f: T -> Option<U>, a: seq<T>, b: seq<T>)
    requires multiset(a) == multiset(b)
    ensures multiset(FilterMap(f, a)) == multiset(FilterMap(f, b))
    decreases |a|
  {
    if |a| == 0 {
      assert |b| == |multiset(b)| == 0;
    } else {
      var x := a[0];
      assert x in multiset(b);
      var j :| 0 <= j < |b| && b[j] == x;
      var b' := b[..j] + b[j + 1..];
      assert b == b[..j] + [x] + b[j + 1..];
      assert multiset(b') == multiset(b) - multiset{x};
      assert a == [x] + a[1..];
      assert multiset(a[1..]) == multiset(b');
      FilterMapPermutation(f, a[1..], b');
      FilterMapRemove(f, b[..j], x, b[j + 1..]);
      FilterMapConcat(f, [x], a[1..]);
    }
  }

  /** When `f` maps every element to a value, filtering keeps all of them
      in order. */
  lemma {:induction false} FilterMapAllMapped<T, U(!new)>(f: T -> Option<U>, s: seq<T>, t: seq<U>)
    requires |s| == |t|
    requires forall i :: 0 <= i < |s| ==> f(s[i]) == Some(t[i])
    ensures FilterMap(f, s) == t
  {
    if |s| > 0 {
      FilterMapAllMapped(f, s[1..], t[1..]);
      assert [t[0]] + t[1..] == t;
    }
  }

  /** When `f` maps nothing to a value, filtering keeps nothing. */
  lemma {:induction false} FilterMapNoneMapped<T, U(!new)>(f: T -> Option<U>, s: seq<T>)
    requires forall i :: 0 <= i < |s| ==> f(s[i]).None?
    ensures FilterMap(f, s) == []
  {
    if |s| > 0 {
      FilterMapNoneMapped(f, s[1..]);
    }
  }

  function Identity<T>(o: Option<T>): Option<T> { o }

  /** The payloads of the `Some` entries, in order: what
      `if row: results.append(row)` keeps. */
  function Somes<T(!new)>(s: seq<Option<T>>): (r: seq<T>)
    ensures forall y :: y in r <==> Some(y) in s
  {
    var r := FilterMap(Identity, s);
    assert forall y :: y in r <==> exists i :: 0 <= i < |s| && s[i] == Some(y);
    r
  }

  /** Gathering in any completion order collects the same results. */
  lemma SomesPermutation<T(!new)>(a: seq<Option<T>>, b: seq<Option<T>>)
    requires multiset(a) == multiset(b)
    ensures multiset(Somes(a)) == multiset(Somes(b))
  {
    FilterMapPermutation(Identity, a, b);
  }

  function Keys<T>(s: seq<T>, key: T -> Key): (ks: seq<Key>)
    ensures |ks| == |s|
    ensures forall i :: 0 <= i < |s| ==> ks[i] == key(s[i])
  {
    seq(|s|, i requires 0 <= i < |s| => key(s[i]))
  }

  lemma {:induction false} KeysPermutation<T>(a: seq<T>, b: seq<T>, key: T -> Key)
    requires multiset(a) == multiset(b)
    ensures multiset(Keys(a, key)) == multiset(Keys(b, key))
  {
    var g := (x: T) => Some(key(x));
    FilterMapPermutation(g, a, b);
    FilterMapAllSome(g, a, key);
    FilterMapAllSome(g, b, key);
  }

  lemma {:induction false} FilterMapAllSome<T>(g: T -> Option<Key>, s: seq<T>, key: T -> Key)
    requires forall x :: g(x) == Some(key(x))
    ensures FilterMap(g, s) == Keys(s, key)
  {
    if |s| > 0 {
      FilterMapAllSome(g, s[1..], key);
      assert Keys(s, key) == [key(s[0])] + Keys(s[1..], key);
    }
  }

  lemma SortedTail(a: seq<Key>)
    requires |a| > 0 && KeysSorted(a)
    ensures KeysSorted(a[1..])
  {
    forall p, q | 0 <= p < q < |a| - 1 ensures KeyLe(a[1..][p], a[1..][q]) {
      assert KeyLe(a[p + 1], a[q + 1]);
    }
  }

  /** Two sorted arrangements of one multiset start with the same key. */
  lemma SortedHeads(a: seq<Key>, b: seq<Key>)
    requires |a| > 0 && KeysSorted(a) && KeysSorted(b)
    requires multiset(a) == multiset(b)
    ensures |b| > 0 && a[0] == b[0]
  {
    assert a[0] in multiset(b);
    assert b[0] in multiset(a) by { assert |b| == |multiset(b)| == |a|; }
    var i :| 0 <= i < |b| && b[i] == a[0];
    var j :| 0 <= j < |a| && a[j] == b[0];
    assert KeyLe(b[0], a[0]) by { if i > 0 { assert KeyLe(b[0], b[i]); } }
    assert KeyLe(a[0], b[0]) by { if j > 0 { assert KeyLe(a[0], a[j]); } }
  }

  /** A multiset of keys has exactly one sorted arrangement. */
  lemma {:induction false} SortedKeysUnique(a: seq<Key>, b: seq<Key>)
    requires KeysSorted(a) && KeysSorted(b)
    requires multiset(a) == multiset(b)
    ensures a == b
    decreases |a|
  {
    if |a| == 0 {
      assert |b| == |multiset(b)| == 0;
    } else {
      SortedHeads(a, b);
      assert a == [a[0]] + a[1..] && b == [b[0]] + b[1..];
      assert multiset(a) == multiset{a[0]} + multiset(a[1..]);
      assert multiset(b) == multiset{b[0]} + multiset(b[1..]);
      assert multiset(a[1..]) == multiset(a) - multiset{a[0]};
      assert multiset(b[1..]) == multiset(b) - multiset{a[0]};
      SortedTail(a);
      SortedTail(b);
      SortedKeysUnique(a[1..], b[1..]);
    }
  }

  /** Whatever order the gather delivers the results in, the ranked output
      carries the same sequence of keys: only rows with equal keys can trade
      places between two runs. */
  lemma RankingDeterministic<T>(a: seq<T>, b: seq<T>, key: T -> Key, limit: int)
    requires multiset(a) == multiset(b)
    ensures Keys(TopK(a, key, limit), key) == Keys(TopK(b, key, limit), key)
  {
    var ta := Sort(a, key);
    var tb := Sort(b, key);
    KeysPermutation(ta, tb, key);
    SortedKeysUnique(Keys(ta, key), Keys(tb, key));
    var k := Max(1, limit);
    KeysTake(ta, key, k);
    KeysTake(tb, key, k);
  }

  lemma KeysTake<T>(s: seq<T>, key: T -> Key, k: nat)
    ensures Keys(Take(s, k), key) == Take(Keys(s, key), k)
  {
  }

  function IntKey(x: int): Key { Key(x as real, 0.0) }

  /** Python's `sorted(xs)` on integers. */
  function SortInts(xs: seq<int>): (r: seq<int>)
    ensures multiset(r) == multiset(xs)
    ensures forall i, j :: 0 <= i < j < |r| ==> r[i] <= r[j]
  {
    var r := Sort(xs, IntKey);
    assert forall i, j :: 0 <= i < j < |r| ==> KeyLe(IntKey(r[i]), IntKey(r[j]));
    r
  }

  /** Sorting forgets the order of its input and nothing else. */
  lemma SortIntsPermutation(a: seq<int>, b: seq<int>)
    requires multiset(a) == multiset(b)
    ensures SortInts(a) == SortInts(b)
  {
    var ta := SortInts(a);
    var tb := SortInts(b);
    KeysPermutation(ta, tb, IntKey);
    SortedKeysUnique(Keys(ta, IntKey), Keys(tb, IntKey));
    assert |ta| == |tb|;
    forall i | 0 <= i < |ta| ensures ta[i] == tb[i] {
      assert Keys(ta, IntKey)[i] == Keys(tb, IntKey)[i];
    }
  }
}

=== FILE: request_params.dfy ===
/** The query-parameter handling the two API views share
    (`screener/views_ma_monthly.py`, `screener/views_volume.py`): numeric
    knobs with defaults, the universe name, boolean flags and the explicit
    symbol override. A query is the map of its parameters. */
module RequestParams {
  import opened Wrappers
  import opened Text
  import opened Numbers
  import opened Symbols

  type Query = map<string, string>

  /** `request.GET.get(name)`. */
  function Param(q: Query, name: string): (r: Option<string>)
    ensures r.Some? <==> name in q
    ensures r.Some? ==> r.value == q[name]
  {
    if name in q then Some(q[name]) else None
  }

  /** The spellings a flag parameter accepts as true; any other value, and
      a missing parameter, read as false. */
  const TrueWords: set<string> := {"1", "true", "True", "yes"}

  /** `request.GET.get(name) in ("1", "true", "True", "yes")`. */
  function Flag(raw: Option<string>): (b: bool)
    ensures b <==> raw.Some? && raw.value in TrueWords
  {
    raw == Some("1") || raw == Some("true") || raw == Some("True") || raw == Some("yes")
  }

  /** `int(request.GET.get(name, default))` with the `ValueError` fallback:
      an absent or unparseable value gives the default. */
  function IntParam(raw: Option<string>, default: int): (r: int)
    ensures raw.None? ==> r == default
    ensures raw.Some? && ParseInt(raw.value).None? ==> r == default
    ensures raw.Some? && ParseInt(raw.value).Some? ==> r == ParseInt(raw.value).value
  {
    match raw
    case None => default
    case Some(s) => ParseInt(s).GetOr(default)
  }

  /** A value written as Python writes the integer reads back as it. */
  lemma IntParamOfString(i: int, default: int)
    ensures IntParam(Some(IntToString(i)), default) == i
  {
    ParseIntOfString(i);
  }

  /** `float(request.GET.get(name, default))` with the `ValueError`
      fallback. */
  function FloatParam(raw: Option<string>, default: real): (r: real)
    ensures raw.None? ==> r == default
    ensures raw.Some? && ParseFloat(raw.value).None? ==> r == default
    ensures raw.Some? && ParseFloat(raw.value).Some? ==> r == ParseFloat(raw.value).value
  {
    match raw
    case None => default
    case Some(s) => ParseFloat(s).GetOr(default)
  }

  /** A whole number of any size reads back as itself. */
  lemma FloatParamOfNat(n: nat, default: real)
    ensures FloatParam(Some(NatToString(n)), default) == n as real
  {
    ParseFloatOfNat(n);
  }

  /** A decimal literal `I.F` reads back as its value. */
  lemma FloatParamOfDecimal(ip: string, fp: string, default: real)
    requires |ip| > 0 && AllDigits(ip) && AllDigits(fp)
    ensures FloatParam(Some(ip + "." + fp), default) == DecimalValue(ip, fp)
  {
    ParseFloatOfDecimal(ip, fp);
  }

  const DefaultUniverse: string := "nifty100"

  /** `(request.GET.get("universe") or "nifty100").lower()`. */
  function UniverseParam(raw: Option<string>): (r: string)
    ensures forall i :: 0 <= i < |r| ==> !('A' <= r[i] <= 'Z')
    ensures raw.None? || raw == Some("") ==> r == DefaultUniverse
    ensures raw.Some? && raw.value != "" ==> r == Lower(raw.value)
  {
    LowerUnchanged(DefaultUniverse);
    Lower(if raw.None? || raw.value == "" then DefaultUniverse else raw.value)
  }

  /** The `symbols` parameter: `None` when it is missing or empty, so the
      universe is used; otherwise its comma-separated tokens, normalised,
      which may leave no symbol at all (`?symbols=,`). Which symbols it
      holds is `Symbols.ParseSymbolOverrideMembers`. */
  function SymbolOverride(raw: Option<string>): (r: Option<seq<string>>)
    ensures r.None? <==> raw.None? || raw == Some("")
    ensures r.Some? ==> r.value == ParseSymbolOverride(raw.value)
    ensures r.Some? ==> forall i :: 0 <= i < |r.value| ==> IsNormalised(r.value[i])
  {
    if raw.None? || raw.value == "" then None else Some(ParseSymbolOverride(raw.value))
  }

  /** A single well-formed symbol given as `symbols` is the whole override. */
  lemma OverrideOfOne(sym: string)
    requires IsNormalised(sym) && ',' !in sym
    ensures SymbolOverride(Some(sym)) == Some([sym])
  {
    SymbolOverrideRoundTrip([sym]);
  }
}

=== FILE: series.dfy ===
/** The pandas operations the scans apply to one symbol's bar series:
    `tail`, the rolling mean of the closes and the maximum of a window. */
module Series {
  import opened Wrappers
  import opened Numbers

  /** Where `tail(n)` starts on a series of `len` rows: pandas returns no
      row for `n == 0`, the last `n` rows for a positive `n`, and everything
      but the first `-n` rows for a negative `n`. */
  function TailStart(len: nat, n: int): (k: nat)
    ensures k <= len
    ensures n > 0 ==> k == Max(0, len - n)
    ensures n == 0 ==> k == len
    ensures n < 0 ==> k == Min(len, -n)
  {
    if n == 0 then len
    else if n > 0 then (if n >= len then 0 else len - n)
    else (if -n >= len then len else -n)
  }

  /** pandas' `Series.tail(n)`: always a suffix of `s`. */
  function Tail<T>(s: seq<T>, n: int): (r: seq<T>)
    ensures |r| <= |s| && r == s[|s| - |r|..]
    ensures n > 0 ==> |r| == Min(n, |s|)
    ensures n == 0 ==> r == []
  {
    s[TailStart(|s|, n)..]
  }

  function Sum(s: seq<real>): real
  {
    if |s| == 0 then 0.0 else Sum(s[..|s| - 1]) + s[|s| - 1]
  }

  lemma {:induction false} SumNonNegative(s: seq<real>)
    requires forall i :: 0 <= i < |s| ==> s[i] >= 0.0
    ensures Sum(s) >= 0.0
  {
    if |s| > 0 {
      SumNonNegative(s[..|s| - 1]);
    }
  }

  /** pandas' `rolling(n).mean()`: one entry per bar, undefined until `n`
      bars are available, then the mean of the `n` closes ending at that
      bar. */
  function RollingMean(close: seq<real>, n: nat): (r: seq<Option<real>>)
    requires n > 0
    ensures |r| == |close|
    ensures forall i :: 0 <= i < |r| ==> (r[i].Some? <==> i + 1 >= n)
    ensures forall i :: 0 <= i < |r| && i + 1 >= n ==>
              r[i].value * n as real == Sum(close[i + 1 - n..i + 1])
  {
    seq(|close|, i requires 0 <= i < |close| =>
      if i + 1 < n then None else Some(Sum(close[i + 1 - n..i + 1]) / n as real))
  }

  /** The largest element: an upper bound that some element attains. */
  function MaxOf(s: seq<int>): (m: int)
    requires |s| > 0
    ensures forall i :: 0 <= i < |s| ==> s[i] <= m
    ensures exists i :: 0 <= i < |s| && s[i] == m
  {
    if |s| == 1 then s[0]
    else
      var m := MaxOf(s[..|s| - 1]);
      assert forall i :: 0 <= i < |s| - 1 ==> s[..|s| - 1][i] == s[i];
      if s[|s| - 1] > m then s[|s| - 1] else m
  }
}

=== FILE: symbols.dfy ===
/** Symbol spelling shared by the scans and the views: the Yahoo Finance
    `.NS` suffix, the display name with its NIFTY50 tag, and Python's
    `sorted(set(symbols))`. */
module Symbols {
  import opened Wrappers
  import opened Text
  import Ranking

  const Suffix: string := ".NS"
  const Nifty50Tag: string := " (NIFTY50)"

  /** A symbol as the screener stores it: non-empty, upper case, no
      surrounding whitespace and ending in `.NS`. */
  predicate IsNormalised(sym: string) {
    |sym| > 0 && Strip(sym) == sym && Upper(sym) == sym && EndsWith(sym, Suffix)
  }

  /** Appends `.NS` unless the symbol already ends with it. */
  function WithSuffix(u: string): (v: string)
    ensures EndsWith(v, Suffix)
    ensures StartsWith(v, u)
    ensures EndsWith(u, Suffix) ==> v == u
    ensures !EndsWith(u, Suffix) ==> |v| == |u| + |Suffix|
  {
    if EndsWith(u, Suffix) then u else u + Suffix
  }

  predicate NoLower(u: string) {
    forall i :: 0 <= i < |u| ==> !('a' <= u[i] <= 'z')
  }

  lemma UpperUnchanged(u: string)
    requires NoLower(u)
    ensures Upper(u) == u
  {
  }

  lemma WithSuffixNormalised(u: string)
    requires |u| > 0 && !IsSpace(u[0]) && !IsSpace(u[|u| - 1]) && NoLower(u)
    ensures IsNormalised(WithSuffix(u))
  {
    var v := WithSuffix(u);
    assert v[..|u|] == u;
    assert NoLower(v);
    UpperUnchanged(v);
    StripUnchanged(v);
  }

  /** One user- or file-supplied token: stripped, upper-cased, dropped when
      blank, and given the `.NS` suffix unless it already ends with it. */
  function NormaliseToken(t: string): (r: Option<string>)
    ensures r.Some? <==> Strip(t) != ""
    ensures r.Some? ==> IsNormalised(r.value)
    ensures r.Some? ==> StartsWith(r.value, Upper(Strip(t)))
    ensures r.Some? && EndsWith(Upper(Strip(t)), Suffix) ==> r.value == Upper(Strip(t))
    ensures r.Some? && !EndsWith(Upper(Strip(t)), Suffix) ==> |r.value| == |Strip(t)| + |Suffix|
  {
    var u := Upper(Strip(t));
    if u == "" then None
    else
      WithSuffixNormalised(u);
      Some(WithSuffix(u))
  }

  /** A normalised symbol is a fixed point, so normalising twice changes
      nothing. */
  lemma NormaliseTokenIdempotent(t: string)
    requires NormaliseToken(t).Some?
    ensures NormaliseToken(NormaliseToken(t).value) == NormaliseToken(t)
  {
    NormalisedFixed(NormaliseToken(t).value);
  }

  lemma NormalisedFixed(sym: string)
    requires IsNormalised(sym)
    ensures NormaliseToken(sym) == Some(sym)
  {
  }

  /** The tokens that survive normalisation, normalised, in input order. */
  function NormaliseSymbols(ts: seq<string>): (r: seq<string>)
    ensures |r| <= |ts|
    ensures forall i :: 0 <= i < |r| ==> IsNormalised(r[i])
    ensures forall s :: s in r <==> exists i :: 0 <= i < |ts| && NormaliseToken(ts[i]) == Some(s)
  {
    var r := Ranking.FilterMap(NormaliseToken, ts);
    forall i | 0 <= i < |r| ensures IsNormalised(r[i]) {
      assert r[i] in r;
      var j :| 0 <= j < |ts| && NormaliseToken(ts[j]) == Some(r[i]);
    }
    r
  }

  /** The `?symbols=` override: the comma-separated tokens, normalised. */
  function ParseSymbolOverride(raw: string): (r: seq<string>)
    ensures |r| <= |Split(raw, ',')|
    ensures forall i :: 0 <= i < |r| ==> IsNormalised(r[i])
  {
    NormaliseSymbols(Split(raw, ','))
  }

  /** A symbol is in the override exactly when some comma-separated token
      normalises to it. */
  lemma ParseSymbolOverrideMembers(raw: string, s: string)
    ensures s in ParseSymbolOverride(raw) <==>
              exists t :: t in Split(raw, ',') && NormaliseToken(t) == Some(s)
  {
    var parts := Split(raw, ',');
    if s in ParseSymbolOverride(raw) {
      var i :| 0 <= i < |parts| && NormaliseToken(parts[i]) == Some(s);
      assert parts[i] in parts;
    }
  }

  lemma NormaliseSymbolsFixed(syms: seq<string>)
    requires forall i :: 0 <= i < |syms| ==> IsNormalised(syms[i])
    ensures NormaliseSymbols(syms) == syms
  {
    forall i | 0 <= i < |syms| ensures NormaliseToken(syms[i]) == Some(syms[i]) {
      NormalisedFixed(syms[i]);
    }
    Ranking.FilterMapAllMapped(NormaliseToken, syms, syms);
  }

  /** Writing a list of normalised symbols back as `A.NS,B.NS,...` and
      parsing it again gives the same list, the empty list included. */
  lemma SymbolOverrideRoundTrip(syms: seq<string>)
    requires forall i :: 0 <= i < |syms| ==> IsNormalised(syms[i]) && ',' !in syms[i]
    ensures ParseSymbolOverride(Join(syms, ',')) == syms
  {
    if |syms| == 0 {
      EmptyOverride();
    } else {
      assert Split(Join(syms, ','), ',') == syms by {
        SplitJoin(syms, ',');
      }
      NormaliseSymbolsFixed(syms);
    }
  }

  /** An empty override names no symbol. */
  lemma EmptyOverride()
    ensures ParseSymbolOverride("") == []
  {
    assert Split("", ',') == [""];
    Ranking.FilterMapNoneMapped(NormaliseToken, [""]);
  }

  /** The name shown for a symbol: `.NS` removed everywhere, then the
      NIFTY50 tag when the symbol is tagged. */
  function Display(sym: string, in50: bool): (r: string)
    ensures in50 ==> EndsWith(r, Nifty50Tag)
    ensures !in50 ==> |r| <= |sym|
  {
    RemoveAll(sym, Suffix) + (if in50 then Nifty50Tag else "")
  }

  /** For a plain exchange symbol the display name is the bare symbol with
      the tag exactly when the symbol is tagged. */
  lemma DisplayOfBase(base: string, in50: bool)
    requires '.' !in base
    ensures Display(base + Suffix, in50) == base + (if in50 then Nifty50Tag else "")
  {
    RemoveAllSuffix(base, Suffix);
  }

  /** `bool(in50_map.get(sym, False))`. */
  function In50(tags: map<string, bool>, sym: string): (b: bool)
    ensures b ==> sym in tags
  {
    if sym in tags then tags[sym] else false
  }

  /** Python's `<` on strings: code point by code point, a proper prefix
      first. */
  predicate LexLess(a: string, b: string)
    decreases |a|
  {
    if |a| == 0 then |b| > 0
    else |b| > 0 && (a[0] < b[0] || (a[0] == b[0] && LexLess(a[1..], b[1..])))
  }

  lemma {:induction false} LexLessIrreflexive(a: string)
    ensures !LexLess(a, a)
    decreases |a|
  {
    if |a| > 0 {
      LexLessIrreflexive(a[1..]);
    }
  }

  lemma {:induction false} LexLessTransitive(a: string, b: string, c: string)
    requires LexLess(a, b) && LexLess(b, c)
    ensures LexLess(a, c)
    decreases |a|
  {
    if |a| > 0 && a[0] == b[0] && b[0] == c[0] {
      LexLessTransitive(a[1..], b[1..], c[1..]);
    }
  }

  lemma {:induction false} LexLessTotal(a: string, b: string)
    ensures a == b || LexLess(a, b) || LexLess(b, a)
    decreases |a|
  {
    if |a| > 0 && |b| > 0 && a[0] == b[0] {
      LexLessTotal(a[1..], b[1..]);
      if a[1..] == b[1..] {
        assert a == [a[0]] + a[1..] && b == [b[0]] + b[1..];
      }
    }
  }

  predicate StrictlySorted(s: seq<string>) {
    forall i, j :: 0 <= i < j < |s| ==> LexLess(s[i], s[j])
  }

  /** A strictly sorted list holds no symbol twice. */
  lemma StrictlySortedDistinct(s: seq<string>)
    requires StrictlySorted(s)
    ensures forall i, j :: 0 <= i < j < |s| ==> s[i] != s[j]
  {
    forall i, j | 0 <= i < j < |s| ensures s[i] != s[j] {
      if s[i] == s[j] {
        LexLessIrreflexive(s[i]);
      }
    }
  }

  function InsertUnique(x: string, s: seq<string>): (r: seq<string>)
    requires StrictlySorted(s)
    ensures StrictlySorted(r)
    ensures forall y :: y in r <==> y in s || y == x
  {
    if |s| == 0 then [x]
    else if x == s[0] then s
    else if LexLess(x, s[0]) then
      assert forall j :: 0 < j < |s| ==> LexLess(x, s[j]) by {
        forall j | 0 < j < |s| ensures LexLess(x, s[j]) {
          LexLessTransitive(x, s[0], s[j]);
        }
      }
      [x] + s
    else
      LexLessTotal(x, s[0]);
      var rest := InsertUnique(x, s[1..]);
      assert s == [s[0]] + s[1..];
      assert forall k :: 0 <= k < |rest| ==> LexLess(s[0], rest[k]) by {
        forall k | 0 <= k < |rest| ensures LexLess(s[0], rest[k]) {
          assert rest[k] in rest;
          if rest[k] != x {
            var m :| 0 <= m < |s| - 1 && s[1..][m] == rest[k];
            assert s[m + 1] == rest[k];
          }
        }
      }
      [s[0]] + rest
  }

  /** Python's `sorted(set(ss))`: strictly increasing and holding exactly
      the elements of `ss`. */
  function SortedUnique(ss: seq<string>): (r: seq<string>)
    ensures StrictlySorted(r)
    ensures forall y :: y in r <==> y in ss
  {
    if |ss| == 0 then []
    else
      var prefix := ss[..|ss| - 1];
      assert ss == prefix + [ss[|ss| - 1]];
      InsertUnique(ss[|ss| - 1], SortedUnique(prefix))
  }

  /** Removing the head of a strictly sorted list removes exactly that
      element. */
  lemma SortedTailMembers(a: seq<string>, y: string)
    requires |a| > 0 && StrictlySorted(a)
    ensures y in a[1..] <==> y in a && y != a[0]
  {
    if y in a[1..] {
      var k :| 0 <= k < |a| - 1 && a[1..][k] == y;
      assert LexLess(a[0], a[k + 1]);
      LexLessIrreflexive(a[0]);
    }
    if y in a && y != a[0] {
      var k :| 0 <= k < |a| && a[k] == y;
      assert a[1..][k - 1] == y;
    }
  }

  lemma HeadIsMember(b: seq<string>)
    ensures |b| > 0 ==> b[0] in b
  {
  }

  /** A set of strings has exactly one strictly sorted listing. */
  lemma {:induction false} StrictlySortedUnique(a: seq<string>, b: seq<string>)
    requires StrictlySorted(a) && StrictlySorted(b)
    requires forall y :: y in a <==> y in b
    ensures a == b
    decreases |a|
  {
    if |a| == 0 {
      HeadIsMember(b);
    } else {
      assert a[0] in a && b[0] in b;
      var i :| 0 <= i < |b| && b[i] == a[0];
      var j :| 0 <= j < |a| && a[j] == b[0];
      if i > 0 && j > 0 {
        LexLessTransitive(b[0], b[i], b[0]);
        LexLessIrreflexive(b[0]);
      }
      assert a[0] == b[0];
      forall y ensures y in a[1..] <==> y in b[1..] {
        SortedTailMembers(a, y);
        SortedTailMembers(b, y);
      }
      StrictlySortedUnique(a[1..], b[1..]);
      assert a == [a[0]] + a[1..] && b == [b[0]] + b[1..];
    }
  }

  /** `sorted(set(x))` depends on the set of `x` only, and applying it to
      its own output changes nothing. */
  lemma SortedUniqueCanonical(a: seq<string>, b: seq<string>)
    requires forall y :: y in a <==> y in b
    ensures SortedUnique(a) == SortedUnique(b)
  {
    StrictlySortedUnique(SortedUnique(a), SortedUnique(b));
  }

  lemma SortedUniqueIdempotent(a: seq<string>)
    ensures SortedUnique(SortedUnique(a)) == SortedUnique(a)
  {
    StrictlySortedUnique(SortedUnique(SortedUnique(a)), SortedUnique(a));
  }
}

=== FILE: text.dfy ===
/** The handful of Python `str` operations the screener applies to request
    parameters, CSV cells and announcement headlines. Strings are sequences of
    characters; case mapping covers the ASCII letters only. */
module Text {

  /** Python's `str.isspace()` for one character. */
  predicate IsSpace(c: char) {
    var k := c as int;
    (9 <= k <= 13) || (28 <= k <= 32) || k == 0x85 || k == 0xA0 || k == 0x1680
    || (0x2000 <= k <= 0x200A) || k == 0x2028 || k == 0x2029 || k == 0x202F
    || k == 0x205F || k == 0x3000
  }

  /** How many whitespace characters open `s`. */
  function LeadingSpaces(s: string): (n: nat)
    ensures n <= |s|
    ensures forall i :: 0 <= i < n ==> IsSpace(s[i])
    ensures n < |s| ==> !IsSpace(s[n])
  {
    if |s| == 0 || !IsSpace(s[0]) then 0 else 1 + LeadingSpaces(s[1..])
  }

  /** Where the run of whitespace that closes `s` begins. */
  function TrailingSpacesStart(s: string): (n: nat)
    ensures n <= |s|
    ensures forall i :: n <= i < |s| ==> IsSpace(s[i])
    ensures n > 0 ==> !IsSpace(s[n - 1])
  {
    if |s| == 0 || !IsSpace(s[|s| - 1]) then |s| else TrailingSpacesStart(s[..|s| - 1])
  }

  /** Python's `str.strip()`: the longest infix that neither starts nor ends
      with whitespace, everything around it being whitespace. */
  function Strip(s: string): (r: string)
    ensures |r| <= |s|
    ensures |r| > 0 ==> !IsSpace(r[0]) && !IsSpace(r[|r| - 1])
    ensures r == "" <==> forall i :: 0 <= i < |s| ==> IsSpace(s[i])
    ensures LeadingSpaces(s) + |r| <= |s|
    ensures r == s[LeadingSpaces(s)..LeadingSpaces(s) + |r|]
    ensures forall i :: LeadingSpaces(s) + |r| <= i < |s| ==> IsSpace(s[i])
  {
    var a := LeadingSpaces(s);
    var b := TrailingSpacesStart(s);
    if b <= a then
      assert forall i :: 0 <= i < |s| ==> IsSpace(s[i]) by {
        forall i | 0 <= i < |s| ensures IsSpace(s[i]) {
          if a <= i && i < b { assert false; }
        }
      }
      ""
    else
      s[a..b]
  }

  /** A string that `Strip` leaves alone. */
  lemma StripUnchanged(s: string)
    requires |s| > 0 ==> !IsSpace(s[0]) && !IsSpace(s[|s| - 1])
    ensures Strip(s) == s
  {
  }

  function UpperChar(c: char): char {
    if 'a' <= c <= 'z' then (c as int - 32) as char else c
  }

  function LowerChar(c: char): char {
    if 'A' <= c <= 'Z' then (c as int + 32) as char else c
  }

  /** Python's `str.upper()` on the ASCII letters: no lower-case letter is
      left and nothing else moves. */
  function Upper(s: string): (r: string)
    ensures |r| == |s|
    ensures forall i :: 0 <= i < |r| ==> !('a' <= r[i] <= 'z')
    ensures forall i :: 0 <= i < |s| && !('a' <= s[i] <= 'z') ==> r[i] == s[i]
    ensures forall i :: 0 <= i < |s| ==> (IsSpace(r[i]) <==> IsSpace(s[i]))
  {
    seq(|s|, i requires 0 <= i < |s| => UpperChar(s[i]))
  }

  /** Python's `str.lower()` on the ASCII letters. */
  function Lower(s: string): (r: string)
    ensures |r| == |s|
    ensures forall i :: 0 <= i < |r| ==> !('A' <= r[i] <= 'Z')
    ensures forall i :: 0 <= i < |s| && !('A' <= s[i] <= 'Z') ==> r[i] == s[i]
  {
    seq(|s|, i requires 0 <= i < |s| => LowerChar(s[i]))
  }

  /** Text without upper-case letters is its own lower case. */
  lemma LowerUnchanged(s: string)
    requires forall i :: 0 <= i < |s| ==> !('A' <= s[i] <= 'Z')
    ensures Lower(s) == s
  {
  }

  /** Upper-casing undoes lower-casing on text without lower-case letters. */
  lemma UpperOfLower(s: string)
    requires forall i :: 0 <= i < |s| ==> !('a' <= s[i] <= 'z')
    ensures Upper(Lower(s)) == s
  {
    forall i | 0 <= i < |s| ensures Upper(Lower(s))[i] == s[i] {
      assert Lower(s)[i] == LowerChar(s[i]);
    }
  }

  /** Upper-casing works character by character, so it distributes over
      concatenation. */
  lemma UpperConcat(a: string, b: string)
    ensures Upper(a + b) == Upper(a) + Upper(b)
  {
    forall i | 0 <= i < |a + b| ensures Upper(a + b)[i] == (Upper(a) + Upper(b))[i] {
      if i < |a| {
        assert (a + b)[i] == a[i];
      } else {
        assert (a + b)[i] == b[i - |a|];
      }
    }
  }

  /** One blank on either side of non-blank-ended text is stripped off. */
  lemma StripPadded(x: string)
    requires |x| > 0 && !IsSpace(x[0]) && !IsSpace(x[|x| - 1])
    ensures Strip([' '] + x + [' ']) == x
  {
    var s := [' '] + x + [' '];
    assert IsSpace(s[0]) && s[1] == x[0];
    assert LeadingSpaces(s) == 1 + LeadingSpaces(s[1..]);
    assert LeadingSpaces(s[1..]) == 0;
    var r := Strip(s);
    assert r != "" by {
      assert !IsSpace(s[1]);
    }
    assert r == s[1..1 + |r|];
    assert s[|x|] == x[|x| - 1] && s[|x| + 1] == ' ';
    assert |r| == |x|;
    assert s[1..1 + |x|] == x;
  }

  predicate StartsWith(s: string, prefix: string) {
    |prefix| <= |s| && s[..|prefix|] == prefix
  }

  /** Python's `str.endswith`. */
  predicate EndsWith(s: string, suffix: string) {
    |suffix| <= |s| && s[|s| - |suffix|..] == suffix
  }

  /** Python's `pat in s` on strings. */
  predicate Contains(s: string, pat: string)
    decreases |s|
  {
    StartsWith(s, pat) || (|s| > 0 && Contains(s[1..], pat))
  }

  /** Python's `s.replace(pat, "")`: every occurrence of `pat` found in a
      left-to-right scan is deleted; occurrences never overlap. */
  function RemoveAll(s: string, pat: string): (r: string)
    requires |pat| > 0
    ensures |r| <= |s|
    ensures !Contains(s, pat) ==> r == s
    decreases |s|
  {
    if |s| == 0 then ""
    else if StartsWith(s, pat) then RemoveAll(s[|pat|..], pat)
    else [s[0]] + RemoveAll(s[1..], pat)
  }

  /** Removing a marker from `base + marker` gives `base` back, provided
      the marker's first character never occurs in `base`. */
  lemma {:induction false} RemoveAllSuffix(base: string, pat: string)
    requires |pat| > 0
    requires pat[0] !in base
    ensures RemoveAll(base + pat, pat) == base
    decreases |base|
  {
    if |base| == 0 {
      assert base + pat == pat;
      assert StartsWith(pat, pat);
      assert pat[|pat|..] == "";
    } else {
      var s := base + pat;
      assert s[0] == base[0] && s[0] != pat[0];
      assert !StartsWith(s, pat);
      assert s[1..] == base[1..] + pat;
      RemoveAllSuffix(base[1..], pat);
      assert [base[0]] + base[1..] == base;
    }
  }

  /** Python's `s.split(sep)` for a one-character separator: never empty,
      and no piece holds the separator. */
  function Split(s: string, sep: char): (parts: seq<string>)
    ensures |parts| >= 1
    ensures forall i :: 0 <= i < |parts| ==> sep !in parts[i]
  {
    if |s| == 0 then [""]
    else
      var rest := Split(s[1..], sep);
      if s[0] == sep then [""] + rest
      else [[s[0]] + rest[0]] + rest[1..]
  }

  /** Python's `sep.join(parts)`. */
  function Join(parts: seq<string>, sep: char): string
  {
    if |parts| == 0 then ""
    else if |parts| == 1 then parts[0]
    else parts[0] + [sep] + Join(parts[1..], sep)
  }

  /** Pieces and a separator without whitespace join to text without
      whitespace. */
  lemma {:induction false} JoinNoSpace(parts: seq<string>, sep: char)
    requires !IsSpace(sep)
    requires forall i, j :: 0 <= i < |parts| && 0 <= j < |parts[i]| ==> !IsSpace(parts[i][j])
    ensures forall k :: 0 <= k < |Join(parts, sep)| ==> !IsSpace(Join(parts, sep)[k])
  {
    if |parts| > 1 {
      JoinNoSpace(parts[1..], sep);
      var rest := Join(parts[1..], sep);
      var s := parts[0] + [sep] + rest;
      forall k | 0 <= k < |s| ensures !IsSpace(s[k]) {
        if k < |parts[0]| {
          assert s[k] == parts[0][k];
        } else if k > |parts[0]| {
          assert s[k] == rest[k - |parts[0]| - 1];
        }
      }
    }
  }

  /** Joining the pieces of a split restores the string. */
  lemma {:induction false} JoinSplit(s: string, sep: char)
    ensures Join(Split(s, sep), sep) == s
  {
    if |s| > 0 {
      var rest := Split(s[1..], sep);
      JoinSplit(s[1..], sep);
      if s[0] == sep {
        assert Join([""] + rest, sep) == "" + [sep] + Join(rest, sep);
        assert [s[0]] + s[1..] == s;
      } else if |rest| == 1 {
        assert [s[0]] + s[1..] == s;
      } else {
        var parts := [[s[0]] + rest[0]] + rest[1..];
        assert parts[1..] == rest[1..];
        assert Join(rest, sep) == rest[0] + [sep] + Join(rest[1..], sep);
        assert [s[0]] + s[1..] == s;
      }
    }
  }

  lemma {:induction false} SplitWord(w: string, sep: char)
    requires sep !in w
    ensures Split(w, sep) == [w]
    decreases |w|
  {
    if |w| > 0 {
      assert sep !in w[1..] by {
        forall k | 0 <= k < |w| - 1 ensures w[1..][k] != sep { assert w[1..][k] == w[k + 1]; }
      }
      SplitWord(w[1..], sep);
      assert [w[0]] + w[1..] == w;
    }
  }

  lemma {:induction false} SplitWordThenRest(w: string, sep: char, t: string)
    requires sep !in w
    ensures Split(w + [sep] + t, sep) == [w] + Split(t, sep)
    decreases |w|
  {
    var s := w + [sep] + t;
    if |w| == 0 {
      assert s[1..] == t;
    } else {
      assert sep !in w[1..] by {
        forall k | 0 <= k < |w| - 1 ensures w[1..][k] != sep { assert w[1..][k] == w[k + 1]; }
      }
      assert s[0] == w[0] && s[1..] == w[1..] + [sep] + t;
      SplitWordThenRest(w[1..], sep, t);
      assert [w[0]] + w[1..] == w;
    }
  }

  /** Splitting a join of separator-free pieces gives the pieces back. */
  lemma {:induction false} SplitJoin(parts: seq<string>, sep: char)
    requires |parts| >= 1
    requires forall i :: 0 <= i < |parts| ==> sep !in parts[i]
    ensures Split(Join(parts, sep), sep) == parts
  {
    if |parts| == 1 {
      SplitWord(parts[0], sep);
    } else {
      SplitJoin(parts[1..], sep);
      SplitWordThenRest(parts[0], sep, Join(parts[1..], sep));
      assert [parts[0]] + parts[1..] == parts;
    }
  }
}

=== FILE: volume_service.dfy ===
/** The volume-spike engine of `screener/services_volume.py`: today's volume
    against the largest volume of the preceding window, the per-symbol row,
    the ranked list of spikes, and the symbol universe read from a CSV file
    or the ticker table. */
module VolumeService {
  import opened Wrappers
  import opened Numbers
  import opened Series
  import opened Ranking
  import opened Symbols
  import opened Text

  /** The fewest clean bars a series needs before anything is computed. */
  function MinBars(window: int): int {
    Max(20, window + 5)
  }

  datatype VolumeRatio = VolumeRatio(today: int, prevMax: int, ratio: real)

  predicate IsMaxOf(m: int, s: seq<int>) {
    (forall i :: 0 <= i < |s| ==> s[i] <= m) && (exists i :: 0 <= i < |s| && s[i] == m)
  }

  /** The position of the last strictly positive bar, if there is one. */
  function LastPositiveIndex(vol: seq<int>): (r: Option<nat>)
    ensures r.None? <==> forall j :: 0 <= j < |vol| ==> vol[j] <= 0
    ensures r.Some? ==> r.value < |vol| && vol[r.value] > 0
    ensures r.Some? ==> forall j :: r.value < j < |vol| ==> vol[j] <= 0
  {
    if |vol| == 0 then None
    else if vol[|vol| - 1] > 0 then Some(|vol| - 1)
    else
      var r := LastPositiveIndex(vol[..|vol| - 1]);
      assert forall j :: 0 <= j < |vol| - 1 ==> vol[..|vol| - 1][j] == vol[j];
      r
  }

  /** Which bar counts as today: the last one, or under the
      last-non-zero policy the last strictly positive one. */
  function TodayIndex(vol: seq<int>, useLastNonzero: bool): (t: Option<nat>)
    ensures t.Some? ==> t.value < |vol|
  {
    if useLastNonzero then LastPositiveIndex(vol)
    else if |vol| == 0 then None
    else Some(|vol| - 1)
  }

  /** The bars strictly before today that the window keeps: pandas'
      `tail(window)` of the bars before position `t`. */
  function PriorBars(vol: seq<int>, t: nat, window: int): (prior: seq<int>)
    requires t <= |vol|
    ensures prior == vol[TailStart(t, window)..t]
  {
    Tail(vol[..t], window)
  }

  /** The ratio on the series once missing bars are dropped: rejects a
      short series, picks today, takes up to `window` bars strictly before
      it and divides today's volume by their maximum, rejecting an empty
      window or a non-positive maximum. */
  function RatioOfBars(vol: seq<int>, window: int, useLastNonzero: bool): (r: Option<VolumeRatio>)
    ensures |vol| < MinBars(window) ==> r.None?
    ensures window == 0 ==> r.None?
    ensures r.Some? ==> r.value.prevMax > 0
    ensures r.Some? ==> r.value.ratio * r.value.prevMax as real == r.value.today as real
    ensures r.Some? ==>
              TodayIndex(vol, useLastNonzero).Some?
              && var t := TodayIndex(vol, useLastNonzero).value;
              r.value.today == vol[t] && TailStart(t, window) < t
              && IsMaxOf(r.value.prevMax, vol[TailStart(t, window)..t])
  {
    if |vol| < MinBars(window) then None
    else
      match TodayIndex(vol, useLastNonzero)
      case None => None
      case Some(t) =>
        var prior := PriorBars(vol, t, window);
        if |prior| == 0 then None
        else
          var m := MaxOf(prior);
          if m <= 0 then None
          else Some(VolumeRatio(vol[t], m, vol[t] as real / m as real))
  }

  /** `compute_volume_ratio` on a volume column whose missing entries are
      `None`. */
  function ComputeVolumeRatio(vols: seq<Option<int>>, window: int, useLastNonzero: bool)
    : (r: Option<VolumeRatio>)
    ensures |Somes(vols)| < MinBars(window) ==> r.None?
    ensures r.Some? ==> r.value.prevMax > 0
    ensures r.Some? ==> r.value.ratio * r.value.prevMax as real == r.value.today as real
  {
    RatioOfBars(Somes(vols), window, useLastNonzero)
  }

  /** Under the default policy today is the last bar and, the length guard
      being at least `window + 5`, the window is always full: exactly the
      `window` bars before today. */
  lemma DefaultPolicyFullWindow(vol: seq<int>, window: int)
    requires window > 0
    requires RatioOfBars(vol, window, false).Some?
    ensures var r := RatioOfBars(vol, window, false).value;
            |vol| >= window + 1 && r.today == vol[|vol| - 1]
            && IsMaxOf(r.prevMax, vol[|vol| - 1 - window..|vol| - 1])
  {
  }

  /** Under the last-non-zero policy today is the last strictly positive
      bar; the window holds at most `window` bars, all strictly before it,
      so the zero bars after it are in neither. */
  lemma LastNonzeroWindow(vol: seq<int>, window: int)
    requires window > 0
    requires RatioOfBars(vol, window, true).Some?
    ensures LastPositiveIndex(vol).Some?
    ensures var r := RatioOfBars(vol, window, true).value;
            var p := LastPositiveIndex(vol).value;
            r.today == vol[p] && r.today > 0 && p > 0
            && (forall k :: p < k < |vol| ==> vol[k] <= 0)
            && IsMaxOf(r.prevMax, vol[Max(0, p - window)..p])
  {
    var r := RatioOfBars(vol, window, true).value;
    var p := LastPositiveIndex(vol).value;
    assert TodayIndex(vol, true) == Some(p);
    var lo := TailStart(p, window);
    assert lo == Max(0, p - window);
    assert r.today == vol[p];
    assert IsMaxOf(r.prevMax, vol[lo..p]);
  }

  /** With a positive window the ratio exists exactly when the series is
      long enough, today exists, and some bar of the window before today is
      strictly positive. */
  lemma RatioDefined(vol: seq<int>, window: int, useLastNonzero: bool)
    requires window > 0
    ensures RatioOfBars(vol, window, useLastNonzero).Some? <==>
              |vol| >= MinBars(window) && TodayIndex(vol, useLastNonzero).Some?
              && exists j :: Max(0, TodayIndex(vol, useLastNonzero).value - window) <= j
                               < TodayIndex(vol, useLastNonzero).value && vol[j] > 0
  {
    if |vol| >= MinBars(window) && TodayIndex(vol, useLastNonzero).Some? {
      var t := TodayIndex(vol, useLastNonzero).value;
      var lo := Max(0, t - window);
      var prior := PriorBars(vol, t, window);
      assert prior == vol[lo..t];
      PositiveMax(prior);
      assert (exists i :: 0 <= i < |prior| && prior[i] > 0)
             <==> (exists j :: lo <= j < t && vol[j] > 0) by {
        SlicePositive(vol, lo, t);
      }
    }
  }

  /** A non-empty run of bars has a positive maximum exactly when one of
      its bars is positive. */
  lemma PositiveMax(s: seq<int>)
    ensures (|s| > 0 && MaxOf(s) > 0) <==> exists i :: 0 <= i < |s| && s[i] > 0
  {
    if |s| > 0 && MaxOf(s) > 0 {
      var i :| 0 <= i < |s| && s[i] == MaxOf(s);
    }
  }

  lemma SlicePositive(vol: seq<int>, lo: nat, t: nat)
    requires lo <= t <= |vol|
    ensures (exists i :: 0 <= i < t - lo && vol[lo..t][i] > 0) <==> (exists j :: lo <= j < t && vol[j] > 0)
  {
    if exists j :: lo <= j < t && vol[j] > 0 {
      var j :| lo <= j < t && vol[j] > 0;
      assert vol[lo..t][j - lo] == vol[j];
    }
  }

  /** A flat history of `base` followed by today's bar: the ratio is today
      over `base`, under either policy when today is positive. */
  lemma FlatHistorySpike(base: int, today: int, n: nat, window: int, useLastNonzero: bool)
    requires base > 0 && window > 0 && n + 1 >= MinBars(window)
    requires useLastNonzero ==> today > 0
    ensures RatioOfBars(seq(n, _ => base) + [today], window, useLastNonzero)
              == Some(VolumeRatio(today, base, today as real / base as real))
  {
    var xs := seq(n, _ => base) + [today];
    assert TodayIndex(xs, useLastNonzero) == Some(n);
    var prior := PriorBars(xs, n, window);
    assert forall i :: 0 <= i < |prior| ==> prior[i] == base;
    assert prior[0] == base;
    assert MaxOf(prior) == base;
  }

  /** Bars all equal to `base`, enough of them: under the default policy
      today equals the window's maximum, so the ratio is 1. */
  lemma ConstantBarsRatio(bars: seq<int>, base: int, window: int)
    requires base > 0 && window > 0 && |bars| >= MinBars(window)
    requires forall i :: 0 <= i < |bars| ==> bars[i] == base
    ensures RatioOfBars(bars, window, false) == Some(VolumeRatio(base, base, 1.0))
  {
    var n := |bars| - 1;
    assert TodayIndex(bars, false) == Some(n);
    var prior := PriorBars(bars, n, window);
    assert forall i :: 0 <= i < |prior| ==> prior[i] == base;
    assert prior[0] == base;
    assert MaxOf(prior) == base;
    assert bars[n] as real / base as real == 1.0;
  }

  /** Under the last-non-zero policy a trailing zero bar is neither today
      nor part of the window: appending one changes nothing. */
  lemma TrailingZeroIgnored(vol: seq<int>, window: int)
    requires RatioOfBars(vol, window, true).Some?
    ensures RatioOfBars(vol + [0], window, true) == RatioOfBars(vol, window, true)
  {
    var vol' := vol + [0];
    assert vol'[..|vol'| - 1] == vol;
    assert LastPositiveIndex(vol') == LastPositiveIndex(vol);
    var p := LastPositiveIndex(vol).value;
    assert vol'[..p] == vol[..p];
  }

  /** One row of the spike table. `ratioPct` is the percentage and
      `multiple` the raw multiple, both rounded to two places. */
  datatype SpikeRow = SpikeRow(
    symbol: string,
    display: string,
    todayVolume: int,
    prevWindowMax: int,
    ratioPct: real,
    multiple: real,
    window: int,
    inNifty50: bool)

  /** The per-symbol task: the symbol's daily volumes (as fetched), their
      ratio, the factor filter and the row. */
  function SpikeTask(sym: string, factor: real, window: int, useLastNonzero: bool,
                     fetch: string -> Option<seq<Option<int>>>, tags: map<string, bool>)
    : (r: Option<SpikeRow>)
    ensures r.Some? <==>
              fetch(sym).Some?
              && ComputeVolumeRatio(fetch(sym).value, window, useLastNonzero).Some?
              && ComputeVolumeRatio(fetch(sym).value, window, useLastNonzero).value.ratio >= factor
    ensures r.Some? ==>
              var c := ComputeVolumeRatio(fetch(sym).value, window, useLastNonzero).value;
              r.value.symbol == sym && r.value.window == window
              && r.value.todayVolume == c.today && r.value.prevWindowMax == c.prevMax
              && -0.005 <= r.value.multiple - c.ratio <= 0.005
              && -0.005 <= r.value.ratioPct - 100.0 * c.ratio <= 0.005
              && r.value.multiple >= factor - 0.005
              && r.value.inNifty50 == In50(tags, sym)
              && r.value.display == Display(sym, r.value.inNifty50)
  {
    match fetch(sym)
    case None => None
    case Some(vols) =>
      match ComputeVolumeRatio(vols, window, useLastNonzero)
      case None => None
      case Some(c) =>
        if c.ratio < factor then None
        else
          var in50 := In50(tags, sym);
          Some(SpikeRow(sym, Display(sym, in50), c.today, c.prevMax,
                        Round2(100.0 * c.ratio), Round2(c.ratio), window, in50))
  }

  /** The per-symbol outcomes in submission order. */
  function SpikeOutcomes(symbols: seq<string>, factor: real, window: int, useLastNonzero: bool,
                         fetch: string -> Option<seq<Option<int>>>, tags: map<string, bool>)
    : (r: seq<Option<SpikeRow>>)
    ensures |r| == |symbols|
    ensures forall i :: 0 <= i < |symbols| ==>
              r[i] == SpikeTask(symbols[i], factor, window, useLastNonzero, fetch, tags)
  {
    seq(|symbols|, i requires 0 <= i < |symbols| =>
      SpikeTask(symbols[i], factor, window, useLastNonzero, fetch, tags))
  }

  /** Larger multiple first, then larger volume today. */
  function SpikeKey(row: SpikeRow): Key {
    Key(-row.multiple, -(row.todayVolume as real))
  }

  predicate RanksAbove(a: SpikeRow, b: SpikeRow) {
    a.multiple > b.multiple || (a.multiple == b.multiple && a.todayVolume >= b.todayVolume)
  }

  lemma SpikeKeyOrder(a: SpikeRow, b: SpikeRow)
    ensures KeyLe(SpikeKey(a), SpikeKey(b)) <==> RanksAbove(a, b)
  {
  }

  /** Every element kept from a gathered, filtered list is the outcome of
      some submitted task. */
  lemma KeptFromOutcomes<T(!new)>(r: seq<T>, completed: seq<Option<T>>, outcomes: seq<Option<T>>)
    requires multiset(completed) == multiset(outcomes)
    requires multiset(r) <= multiset(Somes(completed))
    ensures forall x :: x in r ==> exists i :: 0 <= i < |outcomes| && outcomes[i] == Some(x)
  {
    SomesPermutation(completed, outcomes);
    forall x | x in r ensures exists i :: 0 <= i < |outcomes| && outcomes[i] == Some(x) {
      assert x in multiset(r);
      assert x in Somes(outcomes);
    }
  }

  lemma SpikesRanked(r: seq<SpikeRow>)
    requires SortedBy(r, SpikeKey)
    ensures forall i, j :: 0 <= i < j < |r| ==> RanksAbove(r[i], r[j])
  {
    forall i, j | 0 <= i < j < |r| ensures RanksAbove(r[i], r[j]) {
      SpikeKeyOrder(r[i], r[j]);
    }
  }

  lemma SpikesTopK(r: seq<SpikeRow>, found: seq<SpikeRow>)
    requires forall x, y :: x in multiset(found) - multiset(r) && y in r ==> KeyLe(SpikeKey(y), SpikeKey(x))
    ensures forall x, y :: x in multiset(found) - multiset(r) && y in r ==> RanksAbove(y, x)
  {
    forall x, y | x in multiset(found) - multiset(r) && y in r ensures RanksAbove(y, x) {
      SpikeKeyOrder(y, x);
    }
  }

  /** `top_volume_spikes`. `completed` lists the per-symbol outcomes in the
      order the thread pool delivered them: any arrangement of the
      outcomes. The result is the `max(1, limit)` best qualifying rows,
      best first; every row passed the factor filter, and no qualifying row
      left out ranks above one kept. */
  function TopVolumeSpikes(symbols: seq<string>, factor: real, limit: int, window: int,
                           useLastNonzero: bool, fetch: string -> Option<seq<Option<int>>>,
                           tags: map<string, bool>, completed: seq<Option<SpikeRow>>)
    : (r: seq<SpikeRow>)
    requires multiset(completed) == multiset(SpikeOutcomes(symbols, factor, window, useLastNonzero, fetch, tags))
    ensures var found := Somes(SpikeOutcomes(symbols, factor, window, useLastNonzero, fetch, tags));
            |r| == Min(|found|, Max(1, limit))
    ensures multiset(r) <= multiset(Somes(SpikeOutcomes(symbols, factor, window, useLastNonzero, fetch, tags)))
    ensures forall i, j :: 0 <= i < j < |r| ==> RanksAbove(r[i], r[j])
    ensures forall row :: row in r ==>
              exists i :: 0 <= i < |symbols|
                && SpikeTask(symbols[i], factor, window, useLastNonzero, fetch, tags) == Some(row)
    ensures var found := Somes(SpikeOutcomes(symbols, factor, window, useLastNonzero, fetch, tags));
            forall x, y :: x in multiset(found) - multiset(r) && y in r ==> RanksAbove(y, x)
    ensures var found := Somes(SpikeOutcomes(symbols, factor, window, useLastNonzero, fetch, tags));
            |found| <= Max(1, limit) ==> multiset(r) == multiset(found)
  {
    var outcomes := SpikeOutcomes(symbols, factor, window, useLastNonzero, fetch, tags);
    var found := Somes(completed);
    var r := TopK(found, SpikeKey, limit);
    SomesPermutation(completed, outcomes);
    assert |found| == |Somes(outcomes)| by {
      assert |multiset(found)| == |multiset(Somes(outcomes))|;
    }
    KeptFromOutcomes(r, completed, outcomes);
    SpikesRanked(r);
    SpikesTopK(r, found);
    r
  }

  /** Two runs that differ only in completion order rank rows with the
      same multiples and volumes in the same positions. */
  lemma TopVolumeSpikesOrderIndependent(
    symbols: seq<string>, factor: real, limit: int, window: int, useLastNonzero: bool,
    fetch: string -> Option<seq<Option<int>>>, tags: map<string, bool>,
    run1: seq<Option<SpikeRow>>, run2: seq<Option<SpikeRow>>)
    requires multiset(run1) == multiset(SpikeOutcomes(symbols, factor, window, useLastNonzero, fetch, tags))
    requires multiset(run2) == multiset(SpikeOutcomes(symbols, factor, window, useLastNonzero, fetch, tags))
    ensures var a := TopVolumeSpikes(symbols, factor, limit, window, useLastNonzero, fetch, tags, run1);
            var b := TopVolumeSpikes(symbols, factor, limit, window, useLastNonzero, fetch, tags, run2);
            |a| == |b| && forall i :: 0 <= i < |a| ==>
              a[i].multiple == b[i].multiple && a[i].todayVolume == b[i].todayVolume
  {
    SomesPermutation(run1, run2);
    TopSpikesAgree(Somes(run1), Somes(run2), limit);
  }

  /** Ranking two permutations of the same rows puts rows with the same
      multiple and volume at each position. */
  lemma TopSpikesAgree(found1: seq<SpikeRow>, found2: seq<SpikeRow>, limit: int)
    requires multiset(found1) == multiset(found2)
    ensures var a, b := TopK(found1, SpikeKey, limit), TopK(found2, SpikeKey, limit);
            |a| == |b| && forall i :: 0 <= i < |a| ==>
              a[i].multiple == b[i].multiple && a[i].todayVolume == b[i].todayVolume
  {
    RankingDeterministic(found1, found2, SpikeKey, limit);
    var a, b := TopK(found1, SpikeKey, limit), TopK(found2, SpikeKey, limit);
    forall i | 0 <= i < |a|
      ensures a[i].multiple == b[i].multiple && a[i].todayVolume == b[i].todayVolume
    {
      assert Keys(a, SpikeKey)[i] == Keys(b, SpikeKey)[i];
    }
  }

  /** A universe CSV file as pandas sees it: absent, unreadable, or a header
      row of column names and data rows whose empty cells are `None`. */
  datatype CsvFile =
    | Missing
    | Unreadable
    | Parsed(columns: seq<string>, rows: seq<seq<Option<string>>>)

  function Cell(row: seq<Option<string>>, k: nat): Option<string> {
    if k < |row| then row[k] else None
  }

  /** The first column whose lower-cased name is `symbol`. */
  function SymbolColumn(columns: seq<string>): (k: Option<nat>)
    ensures k.Some? ==> k.value < |columns| && Lower(columns[k.value]) == "symbol"
    ensures k.Some? ==> forall j :: 0 <= j < k.value ==> Lower(columns[j]) != "symbol"
    ensures k.None? ==> forall j :: 0 <= j < |columns| ==> Lower(columns[j]) != "symbol"
  {
    if |columns| == 0 then None
    else if Lower(columns[0]) == "symbol" then Some(0)
    else
      match SymbolColumn(columns[1..])
      case None => None
      case Some(k) => Some(k + 1)
  }

  /** The column the symbols are read from: the `symbol` column when there
      is one, else the first column; none when the table has no column. */
  function ChosenColumn(columns: seq<string>): (k: Option<nat>)
    ensures k.Some? <==> |columns| > 0
    ensures k.Some? ==> k.value < |columns|
  {
    match SymbolColumn(columns)
    case Some(k) => Some(k)
    case None => if |columns| > 0 then Some(0) else None
  }

  /** The non-missing cells of column `k`, top to bottom. */
  function ColumnValues(rows: seq<seq<Option<string>>>, k: nat): seq<string> {
    Somes(seq(|rows|, i requires 0 <= i < |rows| => Cell(rows[i], k)))
  }

  /** The normalised symbols of a parsed table, or `None` for a table
      without columns, where the positional lookup raises. */
  function TableSymbols(columns: seq<string>, rows: seq<seq<Option<string>>>): (r: Option<seq<string>>)
    ensures r.Some? <==> |columns| > 0
    ensures r.Some? ==> forall i :: 0 <= i < |r.value| ==> IsNormalised(r.value[i])
    ensures r.Some? ==> forall s :: s in r.value <==>
              exists c :: c in ColumnValues(rows, ChosenColumn(columns).value) && NormaliseToken(c) == Some(s)
  {
    match ChosenColumn(columns)
    case None => None
    case Some(k) =>
      var cells := ColumnValues(rows, k);
      var r := NormaliseSymbols(cells);
      assert forall s :: s in r <==> exists i :: 0 <= i < |cells| && NormaliseToken(cells[i]) == Some(s);
      Some(r)
  }

  /** `_read_symbol_list_from_csv`: every failure reads as no symbols. */
  function ReadSymbolList(file: CsvFile): (r: seq<string>)
    ensures forall i :: 0 <= i < |r| ==> IsNormalised(r[i])
    ensures !file.Parsed? ==> r == []
  {
    match file
    case Parsed(columns, rows) => TableSymbols(columns, rows).GetOr([])
    case _ => []
  }

  /** `load_universe_symbols`. `cached` is what the cache holds under the
      universe's key; a non-empty list there is returned as is. Otherwise
      `nifty100` reads the CSV file, `tickers` the ticker table when the
      `Ticker` model imports (`tickerSymbols`, `None` when the import
      failed), and anything else yields no symbol; the list is then sorted
      and de-duplicated. */
  function LoadUniverseSymbols(universe: string, cached: Option<seq<string>>, file: CsvFile,
                               tickerSymbols: Option<seq<string>>): (r: seq<string>)
    ensures cached.Some? && |cached.value| > 0 ==> r == cached.value
    ensures !(cached.Some? && |cached.value| > 0) ==> StrictlySorted(r)
    ensures !(cached.Some? && |cached.value| > 0) && Lower(universe) == "nifty100" ==>
              forall s :: s in r <==> s in ReadSymbolList(file)
    ensures !(cached.Some? && |cached.value| > 0) && Lower(universe) == "nifty100" ==>
              forall i :: 0 <= i < |r| ==> IsNormalised(r[i])
    ensures !(cached.Some? && |cached.value| > 0) && Lower(universe) == "tickers" && tickerSymbols.Some? ==>
              forall s :: s in r <==> s in tickerSymbols.value
    ensures (!(cached.Some? && |cached.value| > 0) && Lower(universe) != "nifty100"
             && (Lower(universe) != "tickers" || tickerSymbols.None?)) ==> r == []
  {
    if cached.Some? && |cached.value| > 0 then cached.value
    else
      var syms :=
        if Lower(universe) == "nifty100" then ReadSymbolList(file)
        else if Lower(universe) == "tickers" && tickerSymbols.Some? then tickerSymbols.value
        else [];
      var r := SortedUnique(syms);
      assert forall i :: 0 <= i < |r| ==> r[i] in syms;
      r
  }
}

=== FILE: volume_view.dfy ===
/** The `/api/volume_spikes` view of `screener/views_volume.py`: parse the
    query, pick the symbols, consult the cache, rank the spikes and, on
    request, add a preview of the best candidates when nothing qualifies. */
module VolumeView {
  import opened Wrappers
  import opened Numbers
  import opened Ranking
  import opened RequestParams
  import opened Symbols
  import opened VolumeService

  const DefaultFactor: real := 3.0
  const DefaultLimit: int := 5
  const DefaultWindow: int := 100
  /** The preview ranks every symbol with a ratio (factor 0) and keeps ten. */
  const PreviewFactor: real := 0.0
  const PreviewLimit: int := 10

  /** The knobs of one request. `override` is the explicit symbol list, if
      one was given. */
  datatype VolumeRequest = VolumeRequest(factor: real, limit: int, window: int, universe: string,
                                         refresh: bool, useLastNonzero: bool, debug: bool,
                                         override: Option<seq<string>>)

  function ParseRequest(q: Query): (r: VolumeRequest)
    ensures "factor" !in q ==> r.factor == DefaultFactor
    ensures "limit" !in q ==> r.limit == DefaultLimit
    ensures "window" !in q ==> r.window == DefaultWindow
    ensures r.refresh <==> "refresh" in q && q["refresh"] in TrueWords
    ensures r.useLastNonzero <==> "use_last_nonzero" in q && q["use_last_nonzero"] in TrueWords
    ensures r.debug <==> "debug" in q && q["debug"] in TrueWords
    ensures r.override.None? <==> "symbols" !in q || q["symbols"] == ""
  {
    VolumeRequest(FloatParam(Param(q, "factor"), DefaultFactor),
                  IntParam(Param(q, "limit"), DefaultLimit),
                  IntParam(Param(q, "window"), DefaultWindow),
                  UniverseParam(Param(q, "universe")),
                  Flag(Param(q, "refresh")),
                  Flag(Param(q, "use_last_nonzero")),
                  Flag(Param(q, "debug")),
                  SymbolOverride(Param(q, "symbols")))
  }
  /** `?factor=I.F` sets the factor to the decimal I.F, e.g. `factor=3.0`. */
  lemma FactorQuery(q: Query, ip: string, fp: string)
    requires |ip| > 0 && AllDigits(ip) && AllDigits(fp)
    requires "factor" in q && q["factor"] == ip + "." + fp
    ensures ParseRequest(q).factor == DecimalValue(ip, fp)
  {
    FloatParamOfDecimal(ip, fp, DefaultFactor);
  }


  /** The symbols scanned: the override, else what `load_universe_symbols`
      returns for the universe (`universeOf` stands for it, cache and files
      included). */
  function RequestSymbols(req: VolumeRequest, universeOf: string -> seq<string>): (syms: seq<string>)
    ensures req.override.Some? ==> syms == req.override.value
    ensures req.override.None? ==> syms == universeOf(req.universe)
  {
    req.override.GetOr(universeOf(req.universe))
  }

  /** The cache key exactly as the view spells it: universe, window,
      factor to three places, limit, the NUMBER of symbols and the
      last-non-zero flag; the debug flag is not part of it. */
  datatype KeyAsWritten = KeyAsWritten(universe: string, window: int, factor3: real, limit: int,
                                       nsyms: nat, useLastNonzero: bool)

  function CacheKeyAsWritten(req: VolumeRequest, symbols: seq<string>): (k: KeyAsWritten)
    ensures k.nsyms == |symbols| && -0.0005 <= k.factor3 - req.factor <= 0.0005
  {
    KeyAsWritten(req.universe, req.window, Round3(req.factor), req.limit, |symbols|, req.useLastNonzero)
  }

  /** The cache key the payload actually depends on: the symbol list
      itself, the exact factor and the debug flag. */
  datatype CacheKey = CacheKey(universe: string, window: int, factor: real, limit: int,
                               symbols: seq<string>, useLastNonzero: bool, debug: bool)

  function MakeCacheKey(req: VolumeRequest, symbols: seq<string>): (k: CacheKey)
    ensures k.symbols == symbols && k.debug == req.debug && k.factor == req.factor
  {
    CacheKey(req.universe, req.window, req.factor, req.limit, symbols, req.useLastNonzero, req.debug)
  }

  datatype VolumePayload = VolumePayload(universe: string, factor: real, limit: int, window: int,
                                         count: int, results: seq<SpikeRow>,
                                         debugTop: Option<seq<SpikeRow>>)

  /** A scheduler: the completion order of a batch of tasks. */
  ghost predicate IsScheduler(schedule: seq<Option<SpikeRow>> -> seq<Option<SpikeRow>>) {
    forall s :: multiset(schedule(s)) == multiset(s)
  }

  /** The rows of `symbols` that pass `factor`, in submission order. */
  function Qualifying(symbols: seq<string>, factor: real, req: VolumeRequest,
                      fetch: string -> Option<seq<Option<int>>>, tags: map<string, bool>): seq<SpikeRow> {
    Somes(SpikeOutcomes(symbols, factor, req.window, req.useLastNonzero, fetch, tags))
  }

  /** One `top_volume_spikes` call as the pool runs it: drawn from the
      qualifying rows, ranked, and never passing over a better row. */
  function Spikes(symbols: seq<string>, factor: real, limit: int, req: VolumeRequest,
                  fetch: string -> Option<seq<Option<int>>>, tags: map<string, bool>,
                  schedule: seq<Option<SpikeRow>> -> seq<Option<SpikeRow>>): (r: seq<SpikeRow>)
    requires IsScheduler(schedule)
    ensures |r| == Min(|Qualifying(symbols, factor, req, fetch, tags)|, Max(1, limit))
    ensures multiset(r) <= multiset(Qualifying(symbols, factor, req, fetch, tags))
    ensures forall i, j :: 0 <= i < j < |r| ==> RanksAbove(r[i], r[j])
    ensures forall x, y :: x in multiset(Qualifying(symbols, factor, req, fetch, tags)) - multiset(r) && y in r
              ==> RanksAbove(y, x)
    ensures |Qualifying(symbols, factor, req, fetch, tags)| <= Max(1, limit)
            ==> multiset(r) == multiset(Qualifying(symbols, factor, req, fetch, tags))
  {
    var outcomes := SpikeOutcomes(symbols, factor, req.window, req.useLastNonzero, fetch, tags);
    TopVolumeSpikes(symbols, factor, limit, req.window, req.useLastNonzero, fetch, tags, schedule(outcomes))
  }

  /** The payload computed fresh. `count` is the number of rows; there are
      `max(1, limit)` of them or every qualifying row when fewer, drawn
      from the qualifying rows and ranked, so the list is empty exactly
      when no symbol qualifies. The preview is present exactly when
      debugging and empty-handed, and then ranks the best ten symbols
      whatever their multiple. */
  function Compute(req: VolumeRequest, symbols: seq<string>, fetch: string -> Option<seq<Option<int>>>,
                   tags: map<string, bool>, schedule: seq<Option<SpikeRow>> -> seq<Option<SpikeRow>>)
    : (p: VolumePayload)
    requires IsScheduler(schedule)
    ensures p.universe == req.universe && p.factor == req.factor && p.limit == req.limit
            && p.window == req.window
    ensures p.count == |p.results|
    ensures |p.results| == Min(|Qualifying(symbols, req.factor, req, fetch, tags)|, Max(1, req.limit))
    ensures |p.results| == 0 <==> |Qualifying(symbols, req.factor, req, fetch, tags)| == 0
    ensures multiset(p.results) <= multiset(Qualifying(symbols, req.factor, req, fetch, tags))
    ensures forall i, j :: 0 <= i < j < |p.results| ==> RanksAbove(p.results[i], p.results[j])
    ensures forall x, y :: x in multiset(Qualifying(symbols, req.factor, req, fetch, tags)) - multiset(p.results) && y in p.results
              ==> RanksAbove(y, x)
    ensures p.debugTop.Some? <==> req.debug && |p.results| == 0
    ensures p.debugTop.Some? ==>
              |p.debugTop.value| == Min(|Qualifying(symbols, PreviewFactor, req, fetch, tags)|, PreviewLimit)
              && multiset(p.debugTop.value) <= multiset(Qualifying(symbols, PreviewFactor, req, fetch, tags))
              && (forall i, j :: 0 <= i < j < |p.debugTop.value| ==> RanksAbove(p.debugTop.value[i], p.debugTop.value[j]))
              && forall x, y :: x in multiset(Qualifying(symbols, PreviewFactor, req, fetch, tags)) - multiset(p.debugTop.value) && y in p.debugTop.value
                   ==> RanksAbove(y, x)
  {
    var matches := Spikes(symbols, req.factor, req.limit, req, fetch, tags, schedule);
    var preview :=
      if req.debug && |matches| == 0 then Some(Spikes(symbols, PreviewFactor, PreviewLimit, req, fetch, tags, schedule))
      else None;
    VolumePayload(req.universe, req.factor, req.limit, req.window, |matches|, matches, preview)
  }

  /** A response and the cache after it, for a cache keyed by `K`. */
  datatype Served<K(==)> = Served(payload: VolumePayload, cache: map<K, VolumePayload>)

  /** `api_volume_spikes` as written, keyed by `KeyAsWritten`. With
      `refresh` the cache is neither read nor written; otherwise a stored
      payload is returned as is, and a miss computes the payload and
      stores it. */
  function ApiVolumeSpikes(q: Query, universeOf: string -> seq<string>, cache: map<KeyAsWritten, VolumePayload>,
                           fetch: string -> Option<seq<Option<int>>>, tags: map<string, bool>,
                           schedule: seq<Option<SpikeRow>> -> seq<Option<SpikeRow>>)
    : (r: Served<KeyAsWritten>)
    requires IsScheduler(schedule)
    ensures var req := ParseRequest(q);
            var syms := RequestSymbols(req, universeOf);
            var key := CacheKeyAsWritten(req, syms);
            (req.refresh ==> r == Served(Compute(req, syms, fetch, tags, schedule), cache))
            && (!req.refresh && key in cache ==> r == Served(cache[key], cache))
            && (!req.refresh && key !in cache ==>
                  r.payload == Compute(req, syms, fetch, tags, schedule)
                  && r.cache == cache[key := r.payload])
  {
    var req := ParseRequest(q);
    var syms := RequestSymbols(req, universeOf);
    var key := CacheKeyAsWritten(req, syms);
    if !req.refresh && key in cache then Served(cache[key], cache)
    else
      var payload := Compute(req, syms, fetch, tags, schedule);
      Served(payload, if req.refresh then cache else cache[key := payload])
  }

  /** The same view keyed by the corrected `CacheKey`. */
  function ApiVolumeSpikesCorrected(q: Query, universeOf: string -> seq<string>, cache: map<CacheKey, VolumePayload>,
                                    fetch: string -> Option<seq<Option<int>>>, tags: map<string, bool>,
                                    schedule: seq<Option<SpikeRow>> -> seq<Option<SpikeRow>>)
    : (r: Served<CacheKey>)
    requires IsScheduler(schedule)
    ensures var req := ParseRequest(q);
            var syms := RequestSymbols(req, universeOf);
            var key := MakeCacheKey(req, syms);
            (req.refresh ==> r == Served(Compute(req, syms, fetch, tags, schedule), cache))
            && (!req.refresh && key in cache ==> r == Served(cache[key], cache))
            && (!req.refresh && key !in cache ==>
                  r.payload == Compute(req, syms, fetch, tags, schedule)
                  && r.cache == cache[key := r.payload])
  {
    var req := ParseRequest(q);
    var syms := RequestSymbols(req, universeOf);
    var key := MakeCacheKey(req, syms);
    if !req.refresh && key in cache then Served(cache[key], cache)
    else
      var payload := Compute(req, syms, fetch, tags, schedule);
      Served(payload, if req.refresh then cache else cache[key := payload])
  }

  /** Two row lists with the same multiple and volume at every position:
      they differ at most in which of several tied rows appears. */
  predicate SameRanks(a: seq<SpikeRow>, b: seq<SpikeRow>) {
    |a| == |b| && forall i :: 0 <= i < |a| ==> a[i].multiple == b[i].multiple && a[i].todayVolume == b[i].todayVolume
  }

  /** Two payloads that two runs of the same request may produce: equal
      knobs and count, ranks equal position by position, and a preview in
      both or neither. */
  predicate Agree(p1: VolumePayload, p2: VolumePayload) {
    p1.(results := [], debugTop := None) == p2.(results := [], debugTop := None)
    && SameRanks(p1.results, p2.results)
    && p1.debugTop.Some? == p2.debugTop.Some?
    && (p1.debugTop.Some? ==> SameRanks(p1.debugTop.value, p2.debugTop.value))
  }

  /** Whatever order the pool completes the tasks in, the payload is the
      same up to the order of rows that tie on multiple and volume. */
  lemma ComputeOrderIndependent(req: VolumeRequest, symbols: seq<string>,
                                fetch: string -> Option<seq<Option<int>>>, tags: map<string, bool>,
                                s1: seq<Option<SpikeRow>> -> seq<Option<SpikeRow>>,
                                s2: seq<Option<SpikeRow>> -> seq<Option<SpikeRow>>)
    requires IsScheduler(s1) && IsScheduler(s2)
    ensures Agree(Compute(req, symbols, fetch, tags, s1), Compute(req, symbols, fetch, tags, s2))
  {
    var o := SpikeOutcomes(symbols, req.factor, req.window, req.useLastNonzero, fetch, tags);
    assert multiset(s1(o)) == multiset(o) && multiset(s2(o)) == multiset(o);
    TopVolumeSpikesOrderIndependent(symbols, req.factor, req.limit, req.window, req.useLastNonzero,
                                    fetch, tags, s1(o), s2(o));
    var o0 := SpikeOutcomes(symbols, PreviewFactor, req.window, req.useLastNonzero, fetch, tags);
    assert multiset(s1(o0)) == multiset(o0) && multiset(s2(o0)) == multiset(o0);
    TopVolumeSpikesOrderIndependent(symbols, PreviewFactor, PreviewLimit, req.window, req.useLastNonzero,
                                    fetch, tags, s1(o0), s2(o0));
  }

  /** The request a key stands for (its cache flags are irrelevant to the
      payload). */
  function KeyRequest(k: CacheKey): VolumeRequest {
    VolumeRequest(k.factor, k.limit, k.window, k.universe, false, k.useLastNonzero, k.debug, None)
  }

  /** Every stored payload agrees with what its key computes under the
      reference completion order `ref`. */
  ghost predicate CacheFresh(cache: map<CacheKey, VolumePayload>, fetch: string -> Option<seq<Option<int>>>,
                             tags: map<string, bool>,
                             ref: seq<Option<SpikeRow>> -> seq<Option<SpikeRow>>)
    requires IsScheduler(ref)
  {
    forall k :: k in cache ==> Agree(cache[k], Compute(KeyRequest(k), k.symbols, fetch, tags, ref))
  }

  /** Requests with the same corrected key compute the same payload. */
  lemma CacheKeySound(r1: VolumeRequest, s1: seq<string>, r2: VolumeRequest, s2: seq<string>,
                      fetch: string -> Option<seq<Option<int>>>, tags: map<string, bool>,
                      schedule: seq<Option<SpikeRow>> -> seq<Option<SpikeRow>>)
    requires IsScheduler(schedule)
    requires MakeCacheKey(r1, s1) == MakeCacheKey(r2, s2)
    ensures Compute(r1, s1, fetch, tags, schedule) == Compute(r2, s2, fetch, tags, schedule)
  {
    assert r1.(refresh := false, override := None) == r2.(refresh := false, override := None);
    ComputeIgnoresCacheFlags(r1, s1, fetch, tags, schedule);
    ComputeIgnoresCacheFlags(r2, s2, fetch, tags, schedule);
  }

  /** The payload does not read `refresh` or the override itself. */
  lemma ComputeIgnoresCacheFlags(req: VolumeRequest, symbols: seq<string>,
                                 fetch: string -> Option<seq<Option<int>>>, tags: map<string, bool>,
                                 schedule: seq<Option<SpikeRow>> -> seq<Option<SpikeRow>>)
    requires IsScheduler(schedule)
    ensures Compute(req, symbols, fetch, tags, schedule)
            == Compute(req.(refresh := false, override := None), symbols, fetch, tags, schedule)
  {
    var r0 := req.(refresh := false, override := None);
    assert Spikes(symbols, req.factor, req.limit, req, fetch, tags, schedule)
           == Spikes(symbols, r0.factor, r0.limit, r0, fetch, tags, schedule);
    assert Spikes(symbols, PreviewFactor, PreviewLimit, req, fetch, tags, schedule)
           == Spikes(symbols, PreviewFactor, PreviewLimit, r0, fetch, tags, schedule);
  }

  /** With the corrected key the cache never serves a stale answer: from a
      cache whose payloads agree with their keys, the response agrees with
      the payload this run computes afresh, whatever the completion order
      of either run, and the cache keeps agreeing. */
  lemma ServedIsFresh(q: Query, universeOf: string -> seq<string>, cache: map<CacheKey, VolumePayload>,
                      fetch: string -> Option<seq<Option<int>>>, tags: map<string, bool>,
                      ref: seq<Option<SpikeRow>> -> seq<Option<SpikeRow>>,
                      run: seq<Option<SpikeRow>> -> seq<Option<SpikeRow>>)
    requires IsScheduler(ref) && IsScheduler(run) && CacheFresh(cache, fetch, tags, ref)
    ensures var req := ParseRequest(q);
            var r := ApiVolumeSpikesCorrected(q, universeOf, cache, fetch, tags, run);
            Agree(r.payload, Compute(req, RequestSymbols(req, universeOf), fetch, tags, run))
            && CacheFresh(r.cache, fetch, tags, ref)
  {
    var req := ParseRequest(q);
    var syms := RequestSymbols(req, universeOf);
    var key := MakeCacheKey(req, syms);
    var computed := Compute(req, syms, fetch, tags, run);
    ComputedAgreesWithKey(req, syms, fetch, tags, ref, run);
    var r := ApiVolumeSpikesCorrected(q, universeOf, cache, fetch, tags, run);
    if !req.refresh && key in cache {
      assert r == Served(cache[key], cache);
      HitAgrees(cache, key, computed, fetch, tags, ref);
    } else if !req.refresh {
      assert r == Served(computed, cache[key := computed]);
      StoreKeepsFresh(cache, key, computed, fetch, tags, ref);
    } else {
      assert r == Served(computed, cache);
    }
  }

  /** A hit serves a payload that agrees with the one computed afresh. */
  lemma HitAgrees(cache: map<CacheKey, VolumePayload>, key: CacheKey, computed: VolumePayload,
                  fetch: string -> Option<seq<Option<int>>>, tags: map<string, bool>,
                  ref: seq<Option<SpikeRow>> -> seq<Option<SpikeRow>>)
    requires IsScheduler(ref) && CacheFresh(cache, fetch, tags, ref) && key in cache
    requires Agree(computed, Compute(KeyRequest(key), key.symbols, fetch, tags, ref))
    ensures Agree(cache[key], computed)
  {
    AgreeViaThird(cache[key], computed, Compute(KeyRequest(key), key.symbols, fetch, tags, ref));
  }

  /** Two payloads that agree with a third agree with each other. */
  lemma AgreeViaThird(p1: VolumePayload, p2: VolumePayload, p3: VolumePayload)
    requires Agree(p1, p3) && Agree(p2, p3)
    ensures Agree(p1, p2)
  {
  }

  /** A fresh payload agrees with the one its corrected key stands for,
      whatever the completion orders of the two runs. */
  lemma ComputedAgreesWithKey(req: VolumeRequest, syms: seq<string>, fetch: string -> Option<seq<Option<int>>>,
                              tags: map<string, bool>,
                              ref: seq<Option<SpikeRow>> -> seq<Option<SpikeRow>>,
                              run: seq<Option<SpikeRow>> -> seq<Option<SpikeRow>>)
    requires IsScheduler(ref) && IsScheduler(run)
    ensures var key := MakeCacheKey(req, syms);
            Agree(Compute(req, syms, fetch, tags, run), Compute(KeyRequest(key), key.symbols, fetch, tags, ref))
  {
    var key := MakeCacheKey(req, syms);
    assert KeyRequest(key) == req.(refresh := false, override := None);
    ComputeIgnoresCacheFlags(req, syms, fetch, tags, ref);
    ComputeOrderIndependent(req, syms, fetch, tags, run, ref);
  }

  /** Storing a payload that agrees with its key's keeps the cache fresh. */
  lemma StoreKeepsFresh(cache: map<CacheKey, VolumePayload>, key: CacheKey, p: VolumePayload,
                        fetch: string -> Option<seq<Option<int>>>, tags: map<string, bool>,
                        ref: seq<Option<SpikeRow>> -> seq<Option<SpikeRow>>)
    requires IsScheduler(ref) && CacheFresh(cache, fetch, tags, ref)
    requires Agree(p, Compute(KeyRequest(key), key.symbols, fetch, tags, ref))
    ensures CacheFresh(cache[key := p], fetch, tags, ref)
  {
    forall k | k in cache[key := p]
      ensures Agree(cache[key := p][k], Compute(KeyRequest(k), k.symbols, fetch, tags, ref))
    {
      if k != key {
        assert cache[key := p][k] == cache[k];
      }
    }
  }

  /** The key as written ignores the debug flag: with no symbol spiking, a
      plain request and a `debug=1` request share an entry although only
      the second payload carries a preview, so whichever runs first decides
      whether the other sees one. */
  lemma KeyAsWrittenIgnoresDebug(universeOf: string -> seq<string>,
                                 fetch: string -> Option<seq<Option<int>>>, tags: map<string, bool>,
                                 schedule: seq<Option<SpikeRow>> -> seq<Option<SpikeRow>>)
    requires IsScheduler(schedule)
    requires forall s :: fetch(s).None?
    ensures var r1 := ParseRequest(map[]);
            var r2 := ParseRequest(map["debug" := "1"]);
            var s1 := RequestSymbols(r1, universeOf);
            var s2 := RequestSymbols(r2, universeOf);
            CacheKeyAsWritten(r1, s1) == CacheKeyAsWritten(r2, s2)
            && Compute(r1, s1, fetch, tags, schedule).debugTop.None?
            && Compute(r2, s2, fetch, tags, schedule).debugTop.Some?
  {
    var q2: Query := map["debug" := "1"];
    assert "debug" in q2 && q2["debug"] in TrueWords;
    DebugQueryKnobs();
    var r2 := ParseRequest(q2);
    var s2 := RequestSymbols(r2, universeOf);
    NothingQualifies(s2, r2.factor, r2, fetch, tags);
  }

  /** Apart from `debug`, the query `debug=1` sets no knob. */
  lemma DebugQueryKnobs()
    ensures ParseRequest(map["debug" := "1"]) == ParseRequest(map[]).(debug := true)
  {
    var q: Query := map["debug" := "1"];
    assert "debug"[0] == 'd';
    assert "factor"[0] != 'd' && "limit"[0] != 'd' && "window"[0] != 'd' && "universe"[0] != 'd';
    assert "refresh"[0] != 'd' && "use_last_nonzero"[0] != 'd' && "symbols"[0] != 'd';
    assert Param(q, "factor") == None && Param(q, "limit") == None && Param(q, "window") == None;
    assert Param(q, "universe") == None && Param(q, "refresh") == None;
    assert Param(q, "use_last_nonzero") == None && Param(q, "symbols") == None;
  }

  /** Without any data no symbol qualifies. */
  lemma NothingQualifies(symbols: seq<string>, factor: real, req: VolumeRequest,
                         fetch: string -> Option<seq<Option<int>>>, tags: map<string, bool>)
    requires forall s :: fetch(s).None?
    ensures Qualifying(symbols, factor, req, fetch, tags) == []
  {
    var o := SpikeOutcomes(symbols, factor, req.window, req.useLastNonzero, fetch, tags);
    assert forall i :: 0 <= i < |o| ==> o[i].None?;
    FilterMapNoneMapped(Identity, o);
  }

  /** The key as written counts the symbols but does not list them: two
      requests with the same knobs over equally many symbols share an
      entry, although one list may hold a spike and the other none. */
  lemma KeyAsWrittenIgnoresSymbols(req: VolumeRequest, a: string, b: string,
                                   fetch: string -> Option<seq<Option<int>>>, tags: map<string, bool>,
                                   schedule: seq<Option<SpikeRow>> -> seq<Option<SpikeRow>>)
    requires IsScheduler(schedule)
    requires SpikeTask(a, req.factor, req.window, req.useLastNonzero, fetch, tags).Some?
    requires fetch(b).None?
    ensures CacheKeyAsWritten(req, [a]) == CacheKeyAsWritten(req, [b])
    ensures Compute(req, [a], fetch, tags, schedule).count == 1
    ensures Compute(req, [b], fetch, tags, schedule).count == 0
  {
    var oa := SpikeOutcomes([a], req.factor, req.window, req.useLastNonzero, fetch, tags);
    assert Some(oa[0].value) in oa;
    assert |Qualifying([a], req.factor, req, fetch, tags)| >= 1;
    var ob := SpikeOutcomes([b], req.factor, req.window, req.useLastNonzero, fetch, tags);
    assert ob == [None];
    assert Qualifying([b], req.factor, req, fetch, tags) == [];
  }

  /** The finding on the debug flag, end to end: with no data, a plain
      request fills the entry, and a `debug=1` request then gets that
      payload, without the preview a fresh computation would carry. */
  lemma DebugServedStale(universeOf: string -> seq<string>,
                         fetch: string -> Option<seq<Option<int>>>, tags: map<string, bool>,
                         schedule: seq<Option<SpikeRow>> -> seq<Option<SpikeRow>>)
    requires IsScheduler(schedule)
    requires forall s :: fetch(s).None?
    ensures var first := ApiVolumeSpikes(map[], universeOf, map[], fetch, tags, schedule);
            var second := ApiVolumeSpikes(map["debug" := "1"], universeOf, first.cache, fetch, tags, schedule);
            var req := ParseRequest(map["debug" := "1"]);
            second.payload == first.payload && second.payload.debugTop.None?
            && Compute(req, RequestSymbols(req, universeOf), fetch, tags, schedule).debugTop.Some?
  {
    KeyAsWrittenIgnoresDebug(universeOf, fetch, tags, schedule);
    DebugQueryKnobs();
  }

  /** The finding on the debug flag with data: when no symbol of the
      default universe reaches the default factor but `s` has a ratio, a
      plain request fills the entry, and a `debug=1` request then gets that
      payload, without the non-empty preview a fresh computation carries. */
  lemma DebugServedStaleWithData(s: string, universeOf: string -> seq<string>,
                                 fetch: string -> Option<seq<Option<int>>>, tags: map<string, bool>,
                                 schedule: seq<Option<SpikeRow>> -> seq<Option<SpikeRow>>)
    requires IsScheduler(schedule)
    requires forall t :: t in universeOf(DefaultUniverse) ==>
               SpikeTask(t, DefaultFactor, DefaultWindow, false, fetch, tags).None?
    requires s in universeOf(DefaultUniverse)
    requires SpikeTask(s, PreviewFactor, DefaultWindow, false, fetch, tags).Some?
    ensures var first := ApiVolumeSpikes(map[], universeOf, map[], fetch, tags, schedule);
            var second := ApiVolumeSpikes(map["debug" := "1"], universeOf, first.cache, fetch, tags, schedule);
            var req := ParseRequest(map["debug" := "1"]);
            var recomputed := Compute(req, RequestSymbols(req, universeOf), fetch, tags, schedule);
            second.payload == first.payload && second.payload.debugTop.None?
            && recomputed.debugTop.Some? && |recomputed.debugTop.value| > 0
  {
    DebugQueryKnobs();
    var r1 := ParseRequest(map[]);
    var r2 := ParseRequest(map["debug" := "1"]);
    var syms := universeOf(DefaultUniverse);
    assert RequestSymbols(r2, universeOf) == syms;
    NoneReachFactor(syms, r2, fetch, tags);
    PreviewHolds(s, syms, r2, fetch, tags);
  }

  /** No symbol reaching the request's factor leaves nothing qualifying. */
  lemma NoneReachFactor(symbols: seq<string>, req: VolumeRequest,
                          fetch: string -> Option<seq<Option<int>>>, tags: map<string, bool>)
    requires forall t :: t in symbols ==>
               SpikeTask(t, req.factor, req.window, req.useLastNonzero, fetch, tags).None?
    ensures Qualifying(symbols, req.factor, req, fetch, tags) == []
  {
    var o := SpikeOutcomes(symbols, req.factor, req.window, req.useLastNonzero, fetch, tags);
    assert forall i :: 0 <= i < |o| ==> o[i].None? by {
      forall i | 0 <= i < |o| ensures o[i].None? {
        assert symbols[i] in symbols;
      }
    }
    FilterMapNoneMapped(Identity, o);
  }

  /** A symbol with a ratio qualifies for the preview. */
  lemma PreviewHolds(s: string, symbols: seq<string>, req: VolumeRequest,
                     fetch: string -> Option<seq<Option<int>>>, tags: map<string, bool>)
    requires s in symbols
    requires SpikeTask(s, PreviewFactor, req.window, req.useLastNonzero, fetch, tags).Some?
    ensures |Qualifying(symbols, PreviewFactor, req, fetch, tags)| > 0
  {
    var o := SpikeOutcomes(symbols, PreviewFactor, req.window, req.useLastNonzero, fetch, tags);
    var i :| 0 <= i < |symbols| && symbols[i] == s;
    assert o[i] == SpikeTask(s, PreviewFactor, req.window, req.useLastNonzero, fetch, tags);
    assert Some(o[i].value) in o;
    assert o[i].value in Qualifying(symbols, PreviewFactor, req, fetch, tags);
  }

  /** A flat history long enough for the default window has ratio 1: the
      symbol enters the preview but not the default result. */
  lemma FlatHistoryPreviewOnly(s: string, base: int, fetch: string -> Option<seq<Option<int>>>,
                               tags: map<string, bool>)
    requires base > 0
    requires fetch(s) == Some(seq(MinBars(DefaultWindow), _ => Some(base)))
    ensures SpikeTask(s, PreviewFactor, DefaultWindow, false, fetch, tags).Some?
    ensures SpikeTask(s, DefaultFactor, DefaultWindow, false, fetch, tags).None?
  {
    FlatRatioOne(fetch(s).value, base, DefaultWindow);
  }

  /** Bars all equal to `base`, enough of them: today equals the window's
      maximum, so the ratio is 1. */
  lemma FlatRatioOne(vols: seq<Option<int>>, base: int, window: int)
    requires base > 0 && window > 0 && |vols| >= MinBars(window)
    requires forall i :: 0 <= i < |vols| ==> vols[i] == Some(base)
    ensures ComputeVolumeRatio(vols, window, false) == Some(VolumeRatio(base, base, 1.0))
  {
    var bars := seq(|vols|, _ => base);
    SomesAllPresent(vols, bars);
    ConstantBarsRatio(bars, base, window);
  }

  /** With no missing entry, dropping the missing ones changes nothing. */
  lemma SomesAllPresent(vols: seq<Option<int>>, bars: seq<int>)
    requires |vols| == |bars| && forall i :: 0 <= i < |vols| ==> vols[i] == Some(bars[i])
    ensures Somes(vols) == bars
  {
    FilterMapAllMapped(Identity, vols, bars);
  }

  /** The debug finding on a concrete input: a default universe of one
      symbol with a flat volume history. */
  lemma FlatUniverseServedStale(s: string, base: int, universeOf: string -> seq<string>,
                                fetch: string -> Option<seq<Option<int>>>, tags: map<string, bool>,
                                schedule: seq<Option<SpikeRow>> -> seq<Option<SpikeRow>>)
    requires IsScheduler(schedule)
    requires universeOf(DefaultUniverse) == [s]
    requires base > 0
    requires fetch(s) == Some(seq(MinBars(DefaultWindow), _ => Some(base)))
    ensures var first := ApiVolumeSpikes(map[], universeOf, map[], fetch, tags, schedule);
            var second := ApiVolumeSpikes(map["debug" := "1"], universeOf, first.cache, fetch, tags, schedule);
            var req := ParseRequest(map["debug" := "1"]);
            var recomputed := Compute(req, RequestSymbols(req, universeOf), fetch, tags, schedule);
            second.payload == first.payload && second.payload.debugTop.None?
            && recomputed.debugTop.Some? && |recomputed.debugTop.value| > 0
  {
    FlatHistoryPreviewOnly(s, base, fetch, tags);
    DebugServedStaleWithData(s, universeOf, fetch, tags, schedule);
  }

  /** Apart from the override, the query `symbols=sym` sets no knob. */
  lemma SymbolsQueryKnobs(sym: string)
    requires IsNormalised(sym) && ',' !in sym
    ensures ParseRequest(map["symbols" := sym]) == ParseRequest(map[]).(override := Some([sym]))
  {
    var q: Query := map["symbols" := sym];
    assert "symbols"[0] == 's';
    assert "factor"[0] != 's' && "limit"[0] != 's' && "window"[0] != 's' && "universe"[0] != 's';
    assert "refresh"[0] != 's' && "use_last_nonzero"[0] != 's' && "debug"[0] != 's';
    assert Param(q, "factor") == None && Param(q, "limit") == None && Param(q, "window") == None;
    assert Param(q, "universe") == None && Param(q, "refresh") == None;
    assert Param(q, "use_last_nonzero") == None && Param(q, "debug") == None;
    OverrideOfOne(sym);
  }

  /** The finding on the symbol count, end to end: `symbols=a`, where `a`
      spikes at the default knobs, fills the entry, and `symbols=b`, where
      `b` has no data, then gets `a`'s spike although a fresh computation
      finds none. */
  lemma SymbolsServedStale(a: string, b: string, universeOf: string -> seq<string>,
                           fetch: string -> Option<seq<Option<int>>>, tags: map<string, bool>,
                           schedule: seq<Option<SpikeRow>> -> seq<Option<SpikeRow>>)
    requires IsScheduler(schedule)
    requires IsNormalised(a) && ',' !in a && IsNormalised(b) && ',' !in b
    requires SpikeTask(a, DefaultFactor, DefaultWindow, false, fetch, tags).Some?
    requires fetch(b).None?
    ensures var first := ApiVolumeSpikes(map["symbols" := a], universeOf, map[], fetch, tags, schedule);
            var second := ApiVolumeSpikes(map["symbols" := b], universeOf, first.cache, fetch, tags, schedule);
            var req := ParseRequest(map["symbols" := b]);
            second.payload == first.payload && second.payload.count == 1
            && Compute(req, RequestSymbols(req, universeOf), fetch, tags, schedule).count == 0
  {
    SymbolsQueryKnobs(a);
    SymbolsQueryKnobs(b);
    SingleSymbolCounts(a, b, fetch, tags, schedule);
    SharedKeyServesFirst(map["symbols" := a], map["symbols" := b], universeOf, fetch, tags, schedule);
  }

  /** One symbol that spikes at the default knobs and one without data. */
  lemma SingleSymbolCounts(a: string, b: string, fetch: string -> Option<seq<Option<int>>>,
                           tags: map<string, bool>,
                           schedule: seq<Option<SpikeRow>> -> seq<Option<SpikeRow>>)
    requires IsScheduler(schedule)
    requires SpikeTask(a, DefaultFactor, DefaultWindow, false, fetch, tags).Some?
    requires fetch(b).None?
    ensures Compute(ParseRequest(map[]).(override := Some([a])), [a], fetch, tags, schedule).count == 1
    ensures Compute(ParseRequest(map[]).(override := Some([b])), [b], fetch, tags, schedule).count == 0
  {
    var base := ParseRequest(map[]);
    assert base.(refresh := false, override := None) == base;
    ComputeIgnoresCacheFlags(base.(override := Some([a])), [a], fetch, tags, schedule);
    ComputeIgnoresCacheFlags(base.(override := Some([b])), [b], fetch, tags, schedule);
    KeyAsWrittenIgnoresSymbols(base, a, b, fetch, tags, schedule);
  }

  /** Two cache-reading requests with the same key as written: after the
      first fills an empty cache, the second is served the first's
      payload. */
  lemma SharedKeyServesFirst(q1: Query, q2: Query, universeOf: string -> seq<string>,
                             fetch: string -> Option<seq<Option<int>>>, tags: map<string, bool>,
                             schedule: seq<Option<SpikeRow>> -> seq<Option<SpikeRow>>)
    requires IsScheduler(schedule)
    requires !ParseRequest(q1).refresh && !ParseRequest(q2).refresh
    requires CacheKeyAsWritten(ParseRequest(q1), RequestSymbols(ParseRequest(q1), universeOf))
             == CacheKeyAsWritten(ParseRequest(q2), RequestSymbols(ParseRequest(q2), universeOf))
    ensures var first := ApiVolumeSpikes(q1, universeOf, map[], fetch, tags, schedule);
            var second := ApiVolumeSpikes(q2, universeOf, first.cache, fetch, tags, schedule);
            var r1 := ParseRequest(q1);
            first.payload == Compute(r1, RequestSymbols(r1, universeOf), fetch, tags, schedule)
            && second.payload == first.payload
  {
  }
}

=== FILE: wrappers.dfy ===
/** The optional value used wherever the source returns `None` or silently
    drops a symbol. */
module Wrappers {

  datatype Option<+T> = None | Some(value: T) {

    /** The encapsulated value, or `default` when there is none. */
    function GetOr(default: T): T {
      match this
      case Some(v) => v
      case None => default
    }
  }
}
